=== FILE: README.md ===
# Hakim clinic manager — a Dafny model of its core

Hakim is a web front end for a clinic's administration, written in Arabic with an English option. This project models its core as pure Dafny functions over immutable state and proves what the code promises. The core covers:

- the translation manager, with its dotted key paths and the document direction;
- the authentication service, which keeps tokens and the user record in local and session storage;
- the `useAuth` hook that wraps the service with toasts;
- the two-factor verification dialog, with its send and check delays and its resend countdown;
- the form validators and `validateForm`;
- the string, array, date and file helpers;
- the state and handlers of the screens: discounts, SMS, patient files, dashboard, deleted invoices and the sidebar.

Modules follow the source files:

| module | file | models |
|---|---|---|
| `Wrappers` | wrappers.dfy | `Option` and `Result` |
| `Text` | text.dfy | the JavaScript string primitives the code uses: `trim`, `toLowerCase`/`toUpperCase` (ASCII), `includes`, `substring`, `slice`, `split`/`join`, `Number.toString`, `padStart` |
| `Seqs` | seqs.dfy | `Array.prototype.filter` and its laws |
| `TranslationTree` | translation_tree.dfy | the nested translation tables and the key-path walk of `translate` |
| `Translations` | translations.dfy | the Arabic and English tables, as one key schema and two text columns |
| `I18n` | i18n.dfy | `I18nManager`: start-up language, `changeLanguage`, `translate`, `isRTL`, document direction |
| `AuthService` | auth_service.dfy | `authService` over two storage maps |
| `UseAuth` | use_auth.dfy | the `useAuth` hook |
| `TwoFactorAuth` | two_factor_auth.dfy | the `TwoFactorAuth` component as an event machine, as written, and with its resend handler corrected |
| `Validation` | validation.dfy | `ValidationUtils`, `validateField`, `validateForm`, `createValidationRules` |
| `StringUtils`, `ArrayUtils`, `FileUtils`, `DateUtils` | string_utils.dfy, array_utils.dfy, file_utils.dfy, date_utils.dfy | the helpers in `src/utils/helpers.ts` |
| `Discounts`, `Sms`, `PatientFiles`, `Dashboard`, `DeletedInvoices`, `AppSidebar` | discounts.dfy, sms.dfy, patient_files.dfy, dashboard.dfy, deleted_invoices.dfy, app_sidebar.dfy | the screens' state and handlers |

Effects become data:

- Browser storage is a pair of `map<string, string>` values.
- Each `setTimeout` callback and each `setInterval` tick is an event that the environment delivers.
- Toasts and notices are values in the returned state.
- The HTTP client is represented by its reply, passed in as a parameter: success, failure with a message, or a thrown error.
- `JSON.stringify`/`JSON.parse` are a codec parameter whose round trip is the assumption `WellBehaved`.
- `Date.now()` is a natural-number parameter.

## Model

| member | source | states |
|---|---|---|
| AuthService.Or | src/services/auth.ts:56-57 | The `a \|\| b` fallback between storages is truthy exactly when either operand is. |
| AuthService.IsAuthenticated | src/services/auth.ts:55-59 | Authenticated exactly when the local or the session token is truthy. |
| AuthService.GetCurrentUser | src/services/auth.ts:62-71 | A truthy local user entry is parsed; otherwise a truthy session entry is; otherwise there is no user. |
| AuthService.Login | src/services/auth.ts:7-34 | On a successful reply carrying data, the token, refresh token and serialized user always go to local storage, and the data is returned. With "remember me" the flag is set and session storage is untouched. Without it the flag is removed and the token and user are also written to session storage. Every other reply leaves both stores untouched: a failed reply gives its message or "Login failed", and a thrown error keeps its message. |
| AuthService.Logout | src/services/auth.ts:37-52 | Removes the four local keys and the two session keys. Every other entry in either store keeps its value. |
| AuthService.GetAuthToken | src/services/auth.ts:74-77 | Returns the local token when it is non-empty, and the session token otherwise. |
| AuthService.RefreshToken | src/services/auth.ts:80-104 | With no refresh token it fails and logs out. Any failure logs out. Success stores the new token pair in local storage and returns the new token. |
| AuthService.UpdateProfile | src/services/auth.ts:136-150 | A successful reply with data writes the serialized user to local storage only and returns it; the session copy is left as it was. Any failure leaves the stores unchanged. |
| AuthService.CheckReply | src/services/auth.ts:107-133 | The shared check of `forgotPassword` and `resetPassword` succeeds exactly on a successful reply. A refusal reports its message, or the fallback text when that is empty. A thrown request reports the error's message. |
| AuthService.ForgotPassword | src/services/auth.ts:107-117 | Succeeds exactly on a successful reply. A refusal gives its own message, or a non-empty fallback when that is empty; a thrown request gives its message. |
| AuthService.ResetPassword | src/services/auth.ts:120-133 | Succeeds exactly on a successful reply. A refusal gives its own message, or a non-empty fallback when that is empty; a thrown request gives its message. |
| AuthService.PasswordCallsAgree | src/services/auth.ts:107-133 | The two calls give the same result on every reply except a refusal with an empty message, where their fallback texts differ. |
| AuthService.AuthenticatedIffToken | src/services/auth.ts:55-59 | `isAuthenticated` holds exactly when `getAuthToken` yields a non-empty token. |
| AuthService.LoginEstablishesSession | src/services/auth.ts:7-34 | After a successful login with a non-empty token, the user is authenticated. `getAuthToken` returns that token and `getCurrentUser` returns that user. |
| AuthService.LoginSurvivesRestart | src/services/auth.ts:11-25 | Even without "remember me", a successful login survives the end of the browsing session: token and user are written to local storage in every case, so the session copy is never the only one. |
| AuthService.FailedLoginChangesNothing | src/services/auth.ts:27-33 | A failed or thrown login reports an error and leaves storage, and thus authentication, exactly as it was. |
| AuthService.LogoutClearsSession | src/services/auth.ts:37-52 | After logout there is no token and no current user. Logging out twice equals logging out once. |
| AuthService.FailedRefreshLogsOut | src/services/auth.ts:80-104 | A refresh that fails for any reason leaves the user signed out. |
| AuthService.RefreshTouchesOnlyTokens | src/services/auth.ts:92-96 | A successful refresh changes only the two token keys of local storage and nothing in session storage. |
| UseAuth.Mount | src/hooks/useAuth.ts:23-38 | After the mount effect the hook is not loading. It shows a user only when the service is authenticated, and then the stored one. |
| UseAuth.Login | src/hooks/useAuth.ts:41-61 | The hook's login applies the service's login to storage and ends not loading. On success the user is set and the success toast is shown. On failure the user is kept and a destructive toast carries the error message. |
| UseAuth.Logout | src/hooks/useAuth.ts:64-81 | Clears the user, applies the service logout and shows the logout toast. |
| UseAuth.ForgotPassword | src/hooks/useAuth.ts:84-100 | Returns the service's verdict with the "reset email sent" toast on success, or a destructive toast with the error message. |
| UseAuth.ForgotPasswordToast | src/hooks/useAuth.ts:84-100 | The toast is destructive exactly when the request did not succeed, and a refusal's toast always has a description. |
| UseAuth.RefreshUser | src/hooks/useAuth.ts:103-106 | The user is re-read from storage and nothing else changes. |
| UseAuth.MountAgreesWithStore | src/hooks/useAuth.ts:108-110 | Right after mount, the hook's `isAuthenticated` (a user and a token) agrees with the store having a token and a decodable user. |
| UseAuth.IsAuthenticated | src/hooks/useAuth.ts:110 | The hook's `isAuthenticated`; its contract is carried by UseAuth.MountAgreesWithStore, LoginAuthenticates, FailedLoginKeepsState and LogoutSignsOut. |
| UseAuth.LoginAuthenticates | src/hooks/useAuth.ts:41-61 | A successful login authenticates the hook with the returned user. A fresh mount, even one after the browsing session ends, finds the same user. |
| UseAuth.FailedLoginKeepsState | src/hooks/useAuth.ts:52-57 | A failed login keeps the hook's user, storage and authentication as they were. |
| UseAuth.LogoutSignsOut | src/hooks/useAuth.ts:64-81 | After logout the hook is signed out, and a fresh mount finds no user. |
| UseAuth.UpdateThenRefresh | src/hooks/useAuth.ts:103-106 | After a successful profile update, `refreshUser` shows the updated user. |
| UseAuth.ArabicLoginToast | src/hooks/useAuth.ts:46-50 | In Arabic, a successful login shows the non-destructive toast "تم تسجيل الدخول بنجاح". |
| I18n.FindLanguage | src/i18n/index.ts:5-16 | Only "ar" and "en" are known languages, and the one found carries the code that was looked up. |
| I18n.UpdateDocument | src/i18n/index.ts:495-501 | For a known language the document gets its direction and language code. For an unknown one the document is left alone. |
| I18n.Init | src/i18n/index.ts:478-482 | A non-empty saved language is used; otherwise the default "ar" is used. The catalog starts consistent, and an unknown saved code leaves the document alone. |
| I18n.ChangeLanguage | src/i18n/index.ts:514-526 | A code without a table changes nothing. A code with one switches table, saves the code, updates the document and emits one `languageChanged` event. Consistency is preserved. |
| I18n.CurrentLanguageInfo | src/i18n/index.ts:509-511 | There is info exactly when the current code is "ar" or "en", and then it is the known language with that code. |
| I18n.CurrentInfoAfterChange | src/i18n/index.ts:509-526 | After switching to a code with a table the info is that language's; switching to another code keeps the info. A code has a table exactly when it is a known language. |
| I18n.T | src/i18n/index.ts:529-542 | `t` gives the text a resolving key path reaches in the current table, and otherwise the key path itself. |
| I18n.IsRTL | src/i18n/index.ts:550-553 | The interface is right-to-left exactly when the current code is "ar". |
| I18n.IsRTLIffArabic | src/i18n/index.ts:550-553 | The interface is right-to-left exactly when the current language is Arabic. |
| I18n.DocumentFollowsIsRTL | src/i18n/index.ts:495-501 | With a known language, the document's `dir` is "rtl" exactly when `isRTL` holds, and its `lang` is the current code. |
| I18n.ChangeLanguageIdempotent | src/i18n/index.ts:514-526 | Switching to the same language twice is observably the same as switching once; only the event log grows. |
| I18n.UnknownSavedLanguage | src/i18n/index.ts:478-482 | A saved code other than "ar" or "en" is kept as current. It has no table, so every key translates to itself, the interface is left-to-right and the document is untouched. |
| I18n.TablesFit | src/i18n/index.ts:182-471 | Both text columns supply a text for every key of the shared schema. |
| I18n.TablesSameShape | src/i18n/index.ts:182-471 | The Arabic and English tables have the same groups and keys in the same order. |
| I18n.SwitchKeepsResolvedKeys | src/i18n/index.ts:514-542 | Switching between the two languages never changes which key paths resolve to a text. |
| I18n.TranslateSchemaKey | src/i18n/index.ts:529-542 | Every `group.key` path of the schema translates to that key's Arabic text in Arabic and to its English text in English. |
| I18n.LoginSuccessExample | src/i18n/index.ts:217 | "auth.loginSuccess" reads "تم تسجيل الدخول بنجاح" in Arabic and "Login successful" in English. |
| I18n.GroupPathExample | src/i18n/index.ts:541 | A path that stops at a group, not a text, translates to itself. |
| I18n.MissingGroupExample | src/i18n/index.ts:533-538 | A path through a missing group translates to itself. |
| TranslationTree.Lookup | src/i18n/index.ts:534 | A key lookup finds nothing exactly when no entry has that key, and otherwise yields some entry with that key. |
| TranslationTree.CharAt | src/i18n/index.ts:534 | A key picks something out of a string exactly when it is the decimal text of a position in it, and then it picks the one-character string at that position. |
| TranslationTree.Translate | src/i18n/index.ts:529-542 | A resolving key path gives the text that the walk reaches. Any other gives the key path itself. |
| TranslationTree.Walk | src/i18n/index.ts:533-539 | The loop over the key path; its contract is carried by TranslationTree.Translate, TablesOnlyShape and SameShapeSameKeys. |
| TranslationTree.TablesOnlyShape | src/i18n/index.ts:533-539 | Whether a path asks a key only of tables depends only on the shape of the tree. |
| TranslationTree.SameShapeStringIndex | src/i18n/index.ts:534-541 | Indexing into a string breaks same-shape agreement: with texts "xy" and "z" under one key, "k.0" gives "x" and "z", but "k.1" resolves only in the first. |
| TranslationTree.BuiltShortPaths | src/i18n/index.ts:533-539 | In a built table, a key path of at most two parts asks keys of tables only. |
| TranslationTree.WalkPrefixMissing | src/i18n/index.ts:533-538 | Once a prefix of the path is missing, the whole path is missing: the loop's early return. |
| TranslationTree.TranslateFound | src/i18n/index.ts:529-542 | A dotted path of dot-free segments that walks to a text translates to that text. |
| TranslationTree.TranslateMissing | src/i18n/index.ts:535-538 | A path with a missing prefix translates to the path itself. |
| TranslationTree.TranslateSubTable | src/i18n/index.ts:541 | A path that ends on a group translates to the path itself. |
| TranslationTree.SameShapeSameKeys | src/i18n/index.ts:529-542 | Two tables with the same shape resolve exactly the same key paths, for paths that ask no key of a string; such a path in one asks none in the other. |
| TranslationTree.BuildSameShape | src/i18n/index.ts:182-471 | Tables built from one schema with different texts have the same shape. |
| TranslationTree.WalkBuilt | src/i18n/index.ts:533-539 | In a table built from a schema, walking the path `[group, key]` reaches that key's text. This assumes the group and key are the first of their names. |
| TranslationTree.LookupBuiltMissing | src/i18n/index.ts:535-538 | A group name absent from the schema is missing from the built table. |
| Text.SplitJoin | src/i18n/index.ts:530 | Joining dot-free segments with "." and splitting the result on "." gives back the segments. |
| Text.TrimEmptyIffBlank | src/pages/SMS.tsx:35-52 | `value.trim()` is empty exactly when the value is all whitespace. |
| Text.IncludesIffOccurs | src/pages/Dashboard.tsx:56-58 | `includes` holds exactly when the term occurs at some position. |
| Text.DecimalRoundTrip | src/pages/Discounts.tsx:80 | The decimal text of a number is a non-empty digit string without a leading zero, and it reads back as the number. |
| Text.IndexNameRoundTrip | src/i18n/index.ts:534 | A digit string without a leading zero is the decimal text of its value, so it names exactly one string position. |
| Text.DecimalIsIndexName | src/i18n/index.ts:534 | The decimal text of a number is such a name and reads back as the number. |
| TwoFactorAuth.Pick | src/components/ui/two-factor-auth.tsx:150-156 | Choosing a radio option changes only the selected method. Nothing is sent, the step and the input are kept, and nothing starts loading. |
| TwoFactorAuth.MethodSelect | src/components/ui/two-factor-auth.tsx:43-47 | Selecting a method records it, starts loading and schedules one send. Nothing else changes yet. |
| TwoFactorAuth.Continue | src/components/ui/two-factor-auth.tsx:187-190 | The continue button is disabled while loading, so a second click sends nothing more. Otherwise it starts loading and schedules exactly one send for the picked method; the step, input and attempts are kept. |
| TwoFactorAuth.SendElapsed | src/components/ui/two-factor-auth.tsx:48-63 | When the send delay elapses, the code step opens and loading stops. For SMS or e-mail, the countdown becomes 120 and one more interval runs. |
| TwoFactorAuth.EnterCode | src/components/ui/two-factor-auth.tsx:228-231 | The input keeps at most six characters: a shorter code as typed, a longer one cut to its first six. |
| TwoFactorAuth.Verify | src/components/ui/two-factor-auth.tsx:66-71 | A code shorter than six is ignored. Otherwise one attempt is counted, loading starts, and a check is scheduled with the code, the attempts made before it, and the method. |
| TwoFactorAuth.CheckElapsed | src/components/ui/two-factor-auth.tsx:73-82 | When the check delay elapses, loading stops. The code is accepted if it is "123456" or two attempts preceded it: the step becomes success and the caller receives the method and code. Otherwise the input is cleared. |
| TwoFactorAuth.Tick | src/components/ui/two-factor-auth.tsx:54-59 | The interval's updater lowers a positive countdown by one and holds zero at zero. |
| TwoFactorAuth.Fire | src/components/ui/two-factor-auth.tsx:53-61 | With no interval running a tick changes nothing. Otherwise the countdown ticks, and the interval stops itself when the count was at most one. |
| TwoFactorAuth.ResendAsWritten | src/components/ui/two-factor-auth.tsx:85-89 | As written, resend sets the countdown to 120 and clears the input, but starts no interval. |
| TwoFactorAuth.Resend | src/components/ui/two-factor-auth.tsx:85-89 | The corrected resend does what the written one does and also makes sure an interval is running. |
| TwoFactorAuth.ApplyFixed | src/components/ui/two-factor-auth.tsx:85-89 | The corrected component acts as the written one on every event except a resend, which also leaves an interval running. |
| TwoFactorAuth.Apply | src/components/ui/two-factor-auth.tsx:43-89 | The handlers as written, one per event; its contract is carried by TwoFactorAuth.ApplyKeepsInv, ResendFreezesRun and the per-handler functions. |
| TwoFactorAuth.Run | src/components/ui/two-factor-auth.tsx:43-89 | Events applied in order; its contract is carried by TwoFactorAuth.RunKeepsInv and RunConcat. |
| TwoFactorAuth.Inv | src/components/ui/two-factor-auth.tsx:36-89 | The bounds every reachable state keeps; TwoFactorAuth.InitialInv and ApplyKeepsInv state that it holds. |
| TwoFactorAuth.ChangeMethod | src/components/ui/two-factor-auth.tsx:274-279 | The step becomes method selection exactly when the button is enabled or the step already was that. It cancels nothing: scheduled sends and checks, the countdown and its intervals, the input and the attempts are kept. |
| TwoFactorAuth.Complete | src/components/ui/two-factor-auth.tsx:347-349 | The success button reports the picked method and the input as it is now. On any other step nothing changes, and the button changes nothing but the reports. |
| TwoFactorAuth.PickThenContinue | src/components/ui/two-factor-auth.tsx:150-190 | Picking a method and pressing continue, when not loading, is the same as selecting that method directly. |
| TwoFactorAuth.ContinueTwice | src/components/ui/two-factor-auth.tsx:187-190 | A second continue click while the first is loading changes nothing: one click schedules at most one send. |
| TwoFactorAuth.ChangeMethodKeepsCountdown | src/components/ui/two-factor-auth.tsx:274-279 | Going back from the code step and continuing again schedules a second send while the old countdown and its interval are kept. |
| TwoFactorAuth.EditedCodeReported | src/components/ui/two-factor-auth.tsx:228-232 | A code completed, then edited to five characters while its check is pending, reaches the caller twice: first as completed, then as edited, from the success button. |
| TwoFactorAuth.RemainingAttempts | src/components/ui/two-factor-auth.tsx:266-269 | The warning shows exactly on the code step once an attempt has been made and the input is empty, and the count it shows plus the attempts made is three. |
| TwoFactorAuth.WarningShownWhere | src/components/ui/two-factor-auth.tsx:206-269 | Going back to method selection or typing hides the warning. A resend on the code step after an attempt shows it, because the resend clears the input. Picking a radio option leaves it as it was. |
| TwoFactorAuth.WarningGoneAfterChangeMethod | src/components/ui/two-factor-auth.tsx:206-279 | A failed first attempt shows two attempts left on the code step; changing method then hides the warning. |
| TwoFactorAuth.InitialInv | src/components/ui/two-factor-auth.tsx:36-41 | The dialog starts on method selection with SMS chosen, an empty code, no countdown, no attempts and not loading, and it satisfies the invariant. |
| TwoFactorAuth.ApplyKeepsInv | src/components/ui/two-factor-auth.tsx:43-89 | Every event keeps the invariant, in the component as written and with the resend corrected: the countdown stays at most 120 and the input at most six characters. Only six-character codes are checked; codes handed to the caller, by the success button too, have at most six. Nothing is loading once no delay is pending. |
| TwoFactorAuth.RunKeepsInv | src/components/ui/two-factor-auth.tsx:43-89 | Any sequence of events of the component as written, success-button clicks and resends included, keeps that invariant. |
| TwoFactorAuth.RunConcat | src/components/ui/two-factor-auth.tsx:43-89 | Running two event sequences one after the other is running their concatenation. |
| TwoFactorAuth.RunRound | src/components/ui/two-factor-auth.tsx:66-83 | One round of typing, verifying and waiting is the composition of the three handlers. |
| TwoFactorAuth.FiresCountDown | src/components/ui/two-factor-auth.tsx:53-61 | With an interval running, `n` ticks lower the countdown by `n` and stop at zero. |
| TwoFactorAuth.FiresAtZero | src/components/ui/two-factor-auth.tsx:54-58 | A countdown at zero stays at zero whatever fires. |
| TwoFactorAuth.FiresWithoutInterval | src/components/ui/two-factor-auth.tsx:53-61 | With no interval running, time passing changes nothing. |
| TwoFactorAuth.FiresKeepStep | src/components/ui/two-factor-auth.tsx:53-61 | Ticks change only the countdown and the running intervals. |
| TwoFactorAuth.SentCodeCountdown | src/components/ui/two-factor-auth.tsx:48-61 | After an SMS or e-mail send, the code step opens with a 120 countdown. 120 ticks later the resend button is offered. |
| TwoFactorAuth.UnsentCodeNoCountdown | src/components/ui/two-factor-auth.tsx:51 | For an authenticator app or backup code, the code step opens with no countdown and no interval. |
| TwoFactorAuth.ThirdAttemptSucceeds | src/components/ui/two-factor-auth.tsx:75 | From a fresh count, three rounds with any six-character codes end in success. |
| TwoFactorAuth.FirstAttempt | src/components/ui/two-factor-auth.tsx:75-81 | A first attempt succeeds exactly with "123456". A failed one clears the input and the warning shows two attempts left. |
| TwoFactorAuth.FormatCountdownReadsBack | src/components/ui/two-factor-auth.tsx:118-122 | `formatCountdown` writes digit minutes, a colon and two digit seconds below 60, which read back as the number of seconds. |
| TwoFactorAuth.FormatCountdown | src/components/ui/two-factor-auth.tsx:118-122 | `formatCountdown`; its contract is carried by TwoFactorAuth.FormatCountdownReadsBack and FormatCountdownExamples. |
| TwoFactorAuth.FormatCountdownExamples | src/components/ui/two-factor-auth.tsx:118-122 | 120 shows as "2:00", 59 as "0:59" and 61 as "1:01". |
| TwoFactorAuth.ResendAsWrittenFreezes | src/components/ui/two-factor-auth.tsx:85-89 | As written: the first countdown runs out and its interval stops. After a resend the countdown stays at 120 forever, so the resend button never returns. |
| TwoFactorAuth.RunFires | src/components/ui/two-factor-auth.tsx:54-59 | A run of `n` interval firings is `n` firings of the countdown. |
| TwoFactorAuth.ResendFreezesRun | src/components/ui/two-factor-auth.tsx:85-89 | As a run of the component as written: choosing SMS, the send delay, 120 firings and a resend leave the countdown at 120 through any number of further firings, and the resend button never returns. |
| TwoFactorAuth.FiresIntervalsAfterRunOut | src/components/ui/two-factor-auth.tsx:55-57 | An interval that sees the countdown run out clears itself. |
| TwoFactorAuth.ResendCountsDown | src/components/ui/two-factor-auth.tsx:246-261 | With the corrected resend, 120 ticks bring the countdown back to zero and the resend button is offered again. |
| Validation.Verdict | src/utils/validation.ts:35-38 | A result carries a message exactly when it is invalid. |
| Validation.Optional | src/utils/validation.ts:31-39 | An optional validator is valid exactly when the value is falsy or passes the test. It carries a message exactly when invalid, and that message is the one given. |
| Validation.ValidateField | src/utils/validation.ts:121-130 | A field is valid exactly when every rule passes. Otherwise the result is that of the first failing rule. |
| Validation.ValidateForm | src/utils/validation.ts:133-149 | The form is valid exactly when every field passes its rules. The error map has exactly the failing fields as keys, each holding the message of the last entry for that field. |
| Validation.ErrorsOfKeys | src/utils/validation.ts:137-145 | A field is in the error map exactly when some entry for it fails. |
| Validation.ErrorsOfText | src/utils/validation.ts:141-143 | The message kept for a field is that of its last failing entry, since later writes overwrite earlier ones. |
| Validation.ErrorsOfEmpty | src/utils/validation.ts:146-148 | The error map is empty exactly when every entry passes. |
| Validation.RequiredRejects | src/utils/validation.ts:11-17 | `required` rejects exactly null, undefined and the empty string, with the "required" message. |
| Validation.OptionalAcceptsEmpty | src/utils/validation.ts:20-118 | Every validator except `required` accepts an empty value. |
| Validation.MessageIffInvalid | src/utils/validation.ts:11-118 | Every validator attaches a message exactly when it rejects. |
| Validation.AccountRules | src/constants/index.ts:93-94 | A non-empty password is valid exactly when it has at least 8 characters, and a username when it has at least 3. |
| Validation.NationalIdRuleDigits | src/utils/validation.ts:64-72 | A non-empty national id is valid exactly when it is 10 decimal digits. |
| Validation.LengthBounds | src/utils/validation.ts:99-118 | `minLength(n)` and `maxLength(n)` accept a non-empty value exactly when its length is at least, respectively at most, `n`. |
| Validation.PhoneRuleChars | src/constants/index.ts:95 | A non-empty phone is valid exactly when every character is a digit, `+`, `-`, whitespace or a parenthesis. |
| Validation.EmailShape | src/constants/index.ts:96 | A matching e-mail has no whitespace and exactly one `@`, neither first nor last. |
| Validation.EmailExamples | src/constants/index.ts:96 | "dr.ahmed@clinic.sa" and "a@b.c." match. "ahmed@clinic", "@clinic.sa" and "a b@clinic.sa" do not. |
| Validation.WhitespaceNeverMatches | src/constants/index.ts:96 | Any whitespace anywhere rules out a match. |
| Validation.FirstFailureWins | src/utils/validation.ts:121-130 | When rule `i` is the first to fail, the field's result is rule `i`'s. |
| StringUtils.Capitalize | src/utils/helpers.ts:75-77 | The length is kept, the first character is upper-cased and the rest is unchanged. |
| StringUtils.Truncate | src/utils/helpers.ts:94-96 | A string within the length is returned as is. A longer one is cut to the length, with a negative length counting as zero, and "..." is appended. |
| StringUtils.Digits | src/utils/helpers.ts:108 | `replace(/\D/g, '')` leaves only digits; StringUtils.DigitsExact states which ones. |
| StringUtils.DigitsExact | src/utils/helpers.ts:108 | The digits are a subsequence of the input. Each digit occurs as often as in the input and every other character not at all. |
| StringUtils.FormatPhoneNumber | src/utils/helpers.ts:106-118 | A number whose digits start with neither "966" nor "05" is returned unchanged. |
| StringUtils.InternationalFormat | src/utils/helpers.ts:110-112 | Digits starting with "966" become "+966 ", then groups of two and three digits, then the rest. |
| StringUtils.LocalFormat | src/utils/helpers.ts:113-114 | Digits starting with "05" become groups of three and three digits, then the rest. |
| StringUtils.CapitalizeIdempotent | src/utils/helpers.ts:75-77 | Capitalizing twice is capitalizing once. |
| StringUtils.TruncateIdempotent | src/utils/helpers.ts:94-96 | Truncating twice to the same length is truncating once, and a changed result is at most three characters over. |
| StringUtils.FormatKeepsDigits | src/utils/helpers.ts:106-118 | Formatting never changes the digits of a phone number, in either layout. |
| StringUtils.FormatIdempotent | src/utils/helpers.ts:106-118 | Formatting a formatted number changes nothing. |
| StringUtils.InternationalLayoutDigits | src/utils/helpers.ts:112 | The "+966 x y z" layout carries exactly the cleaned digits. |
| StringUtils.LocalLayoutDigits | src/utils/helpers.ts:114 | The "x y z" layout carries exactly the cleaned digits. |
| StringUtils.DigitsDropsSign | src/utils/helpers.ts:108 | A leading non-digit contributes nothing to the digits. |
| StringUtils.LocalExample | src/utils/helpers.ts:113-114 | "0501234567" formats as "050 123 4567". |
| StringUtils.InternationalExample | src/utils/helpers.ts:111-112 | "+966501234567" formats as "+966 50 123 4567". |
| ArrayUtils.RemoveDuplicates | src/utils/helpers.ts:145-147 | The result has exactly the elements of the input, each once. |
| ArrayUtils.RemoveDuplicatesOrder | src/utils/helpers.ts:145-147 | Like a `Set`, the result keeps the elements in the order of their first occurrence. |
| ArrayUtils.RemoveDuplicatesNoop | src/utils/helpers.ts:145-147 | An array without repeats comes back unchanged. |
| ArrayUtils.RemoveDuplicatesIdempotent | src/utils/helpers.ts:145-147 | Removing duplicates twice is removing them once. |
| ArrayUtils.GroupByBuckets | src/utils/helpers.ts:160-167 | A group exists exactly for the keys some item has. Its bucket is the items with that key, in input order. |
| ArrayUtils.GroupBy | src/utils/helpers.ts:160-167 | `groupBy`; its contract is carried by ArrayUtils.GroupByBuckets and GroupByPlacesItem. |
| ArrayUtils.GroupByPlacesItem | src/utils/helpers.ts:162-164 | Every item appears in the bucket of its own key. |
| ArrayUtils.SortBy | src/utils/helpers.ts:170-179 | Sorting returns a permutation of the input. |
| ArrayUtils.SortBySorted | src/utils/helpers.ts:170-179 | The result is ordered by the key, ascending or descending. |
| ArrayUtils.SortByStable | src/utils/helpers.ts:171-177 | Items with equal keys keep their relative order, since the comparator returns 0 for them and the sort is stable. |
| ArrayUtils.SortByDescIsNegatedAsc | src/utils/helpers.ts:175-176 | A descending sort is an ascending sort on the negated key. |
| FileUtils.LastIndexOf | src/utils/helpers.ts:272 | `lastIndexOf` is -1 exactly when the character is absent. Otherwise it is the position of its last occurrence. |
| FileUtils.ToUint32 | src/utils/helpers.ts:272 | `>>> 0` maps into 0 .. 2^32-1 and keeps numbers already in that range. |
| FileUtils.GetFileExtension | src/utils/helpers.ts:271-273 | With a dot after the first character, the extension is everything after the last dot. With no dot, or only a leading one, it is empty. It never contains a dot. |
| FileUtils.ExtensionRoundTrip | src/utils/helpers.ts:271-280 | `base.ext`, with `base` non-empty and `ext` dot-free, has extension `ext`. It is an image exactly when the lower-cased `ext` is one of the seven image extensions. |
| FileUtils.IsImage | src/utils/helpers.ts:276-280 | `isImage`; its contract is carried by FileUtils.ExtensionRoundTrip, NoExtension and the three examples. |
| FileUtils.NoExtension | src/utils/helpers.ts:271-280 | A name without a dot, or with only a leading one, has no extension and is not an image. |
| FileUtils.UpperCaseImage | src/utils/helpers.ts:278 | "Photo.JPG" is an image, because the extension is lower-cased first. |
| FileUtils.HiddenFileNotImage | src/utils/helpers.ts:272 | ".png" has no extension and is not an image. |
| FileUtils.CompoundExtension | src/utils/helpers.ts:271-280 | "archive.tar.gz" has extension "gz" and is not an image. |
| DateUtils.Anniversary | src/utils/helpers.ts:61-66 | The `n`-th birthday falls on the birth month and day, `n` years on. |
| DateUtils.CalculateAge | src/utils/helpers.ts:58-69 | The age-th birthday is on or before today and the next one is after it. |
| DateUtils.AgeUnique | src/utils/helpers.ts:58-69 | Only one count has that property, so the age is determined by it. |
| DateUtils.BirthdayCounts | src/utils/helpers.ts:64-65 | On the birthday the new year counts. On the day before, it does not. |
| DateUtils.AgeMonotone | src/utils/helpers.ts:58-69 | A later day never gives a lower age. |
| Discounts.InputChange | src/pages/Discounts.tsx:49-54 | Editing a field sets that field of the form and nothing else. |
| Discounts.AddDiscount | src/pages/Discounts.tsx:56-68 | Opens an empty form in editing mode and keeps the list. |
| Discounts.NewId | src/pages/Discounts.tsx:80 | A new id is the clock's non-empty decimal digit string. |
| Discounts.Replace | src/pages/Discounts.tsx:73-75 | Every entry with the form's id is replaced by the form. Every other entry and the length are kept. |
| Discounts.SaveDiscount | src/pages/Discounts.tsx:70-101 | A form with an id replaces the entries with that id. A form without one is appended under a new clock id. Either way the form is emptied, editing ends and the "saved" notice is shown. |
| Discounts.EditDiscount | src/pages/Discounts.tsx:103-106 | Loads the chosen discount into the form in editing mode and keeps the list. |
| Discounts.DeleteDiscount | src/pages/Discounts.tsx:108-114 | The list keeps exactly the discounts with a different id, each as many times as it was listed, and none with the id. The form is kept and the "deleted" notice is shown. |
| Discounts.FormDelete | src/pages/Discounts.tsx:203-210 | The form's delete button does nothing for a form without an id, and otherwise deletes that id. |
| Discounts.ResetDiscount | src/pages/Discounts.tsx:116-132 | Empties the form, ends editing, keeps the list and shows the "cleared" notice. |
| Discounts.InputChangeLastWins | src/pages/Discounts.tsx:49-54 | Two edits of one field leave only the second. |
| Discounts.InputChangeCommutes | src/pages/Discounts.tsx:49-54 | Edits of two different text fields commute. |
| Discounts.ResetDiscardsTyping | src/pages/Discounts.tsx:116-132 | Resetting after any typing gives the same page as resetting at once, and resetting twice equals resetting once. |
| Discounts.TypeAllKeepsList | src/pages/Discounts.tsx:49-54 | Typing keeps the list, the editing flag and the notice. |
| Discounts.TypeAllKeepsId | src/pages/Discounts.tsx:49-54 | Typing into any field but the id keeps the form's id. |
| Discounts.AddTypeSave | src/pages/Discounts.tsx:56-101 | Adding, typing without touching the id and saving appends exactly the typed form under the new clock id and empties the form. |
| Discounts.DeleteKeepsOrder | src/pages/Discounts.tsx:109 | Deletion keeps the remaining discounts in their order and with their multiplicities, and none has the deleted id. |
| Discounts.SaveUnknownIdKeepsList | src/pages/Discounts.tsx:71-75 | Saving a form whose id matches nothing leaves the list unchanged. |
| Discounts.DeleteUnknownIdKeepsList | src/pages/Discounts.tsx:109 | Deleting an id no discount has leaves the list unchanged. |
| Discounts.AddThenDeleteRestores | src/pages/Discounts.tsx:76-83 | Adding a new discount and then deleting its fresh id restores the list. |
| Discounts.EditSaveKeepsList | src/pages/Discounts.tsx:70-106 | Editing a listed discount and saving it unchanged leaves the list as it was. |
| Discounts.FormDeleteThenSave | src/pages/Discounts.tsx:70-114 | Deleting from the form keeps the form. Saving it afterwards finds no entry with its id, so the deleted discount does not come back. |
| Sms.InputChange | src/pages/SMS.tsx:27-32 | The phone field takes the value. The message field takes it up to the 160-character cap (SMS.tsx:203), as a prefix of what was typed. The cap is preserved. |
| Sms.Remaining | src/pages/SMS.tsx:203-207 | The counter plus the message length is 160, and within the cap the counter is between 0 and 160. |
| Sms.SendSms | src/pages/SMS.tsx:34-61 | A blank phone is refused first, then a blank message, each with its own error toast and nothing else changed. Otherwise the balance drops by one, not below zero, and the success toast names the phone. |
| Sms.CheckBalance | src/pages/SMS.tsx:63-68 | Shows a non-destructive "message balance" toast whose description reads back as the current balance, and changes nothing else. |
| Sms.BalanceReportReadsBack | src/pages/SMS.tsx:63-68 | The balance text, decimal digits between the fixed prefix and suffix, reads back as the balance. |
| Sms.ClearForm | src/pages/SMS.tsx:70-79 | Empties both fields and keeps the balance, so all 160 characters are available again. |
| Sms.BalanceDropsOnlyOnSend | src/pages/SMS.tsx:34-56 | A send never raises the balance. It lowers it exactly when both fields have content and balance was left. |
| Sms.SendAtZeroBalance | src/pages/SMS.tsx:53-59 | With no balance left a send still reports success, and the balance stays zero. |
| Sms.RepeatedSends | src/pages/SMS.tsx:53 | `n` successful sends from balance `b` leave `b - n`, or zero once the balance runs out. |
| Sms.SendIsOneStep | src/pages/SMS.tsx:53 | One send of a filled form is one step of that countdown, and two sends are two. |
| Sms.SendTimesBalance | src/pages/SMS.tsx:34-61 | Sending a filled-in form `n` times keeps the form and counts the balance down by `n`, stopping at zero. |
| Sms.ReportAfterSends | src/pages/SMS.tsx:34-68 | Checking the balance after `n` sends reports the balance those sends left. |
| Sms.ActionsKeepCap | src/pages/SMS.tsx:21-79 | The screen starts within the 160-character cap and every handler keeps it there. |
| Sms.WhitespaceMessageRefused | src/pages/SMS.tsx:43-50 | A message of spaces only is refused with the "enter a message" toast. |
| PatientFiles.EmptyForm | src/pages/PatientFiles.tsx:113-127 | The form has exactly the thirteen fields, all empty. |
| PatientFiles.InputChange | src/pages/PatientFiles.tsx:131-133 | Sets the named field and keeps every other field, the date, the search and the list. |
| PatientFiles.ClearForm | src/pages/PatientFiles.tsx:147-164 | Empties every field and the date, and keeps the search and the list. |
| PatientFiles.FilteredIsMatchingSubseq | src/pages/PatientFiles.tsx:135-140 | The shown patients are exactly those matching the search, in list order, each as often as it is listed. |
| PatientFiles.FilteredPatients | src/pages/PatientFiles.tsx:135-140 | The search filter; its contract is carried by PatientFiles.FilteredIsMatchingSubseq. |
| PatientFiles.EmptySearchShowsAll | src/pages/PatientFiles.tsx:135-140 | An empty search shows every patient. |
| PatientFiles.NameSearchIgnoresCase | src/pages/PatientFiles.tsx:136 | The name search gives the same answer for a term and its upper-case form. |
| PatientFiles.FileNumberMatches | src/pages/PatientFiles.tsx:137 | A term found in the file number shows the patient, whatever the name. |
| PatientFiles.FormDoesNotFilter | src/pages/PatientFiles.tsx:131-164 | Typing in the form or clearing it never changes the shown patients. |
| PatientFiles.ClearAfterInput | src/pages/PatientFiles.tsx:147-164 | Clearing after typing gives the same form as clearing without typing. |
| Dashboard.GetStatusBadge | src/pages/Dashboard.tsx:43-54 | Each of the five statuses gets its own Arabic caption and variant, and an unknown status gets the "confirmed" badge. |
| Dashboard.BadgeLabelRoundTrip | src/pages/Dashboard.tsx:43-54 | The caption identifies the status: reading it back gives the status, or "confirmed" for an unknown one. |
| Dashboard.DestructiveOnlyWhenCancelled | src/pages/Dashboard.tsx:49-50 | Only "cancelled" is shown as destructive. |
| Dashboard.FilteredIsMatchingSubseq | src/pages/Dashboard.tsx:56-58 | The shown appointments are exactly those whose patient or doctor contains the term, in order, each as often as it is listed. |
| Dashboard.FilteredAppointments | src/pages/Dashboard.tsx:56-58 | The search filter; its contract is carried by Dashboard.FilteredIsMatchingSubseq. |
| Dashboard.EmptySearchShowsAll | src/pages/Dashboard.tsx:56-58 | An empty search shows the whole day. |
| Dashboard.SearchIdempotent | src/pages/Dashboard.tsx:56-58 | Filtering the filtered list again changes nothing. |
| DeletedInvoices.Initial | src/pages/DeletedInvoices.tsx:80-81 | The screen starts with an empty search, the period "كل الفترات" and no message. |
| DeletedInvoices.SelectPeriod | src/pages/DeletedInvoices.tsx:81 | Choosing a period changes only the period. |
| DeletedInvoices.RestoreInvoice | src/pages/DeletedInvoices.tsx:89-91 | Restoring shows a success message and changes no data. |
| DeletedInvoices.ViewDetails | src/pages/DeletedInvoices.tsx:93-95 | Viewing shows an info message and changes no data. |
| DeletedInvoices.PermanentDelete | src/pages/DeletedInvoices.tsx:97-99 | "Permanent delete" shows an error-kind message and removes nothing. |
| DeletedInvoices.FilteredIsMatchingSubseq | src/pages/DeletedInvoices.tsx:83-87 | The shown invoices are exactly the matching ones, in order, each as often as it is listed. |
| DeletedInvoices.FilteredInvoices | src/pages/DeletedInvoices.tsx:83-87 | The search filter; its contract is carried by DeletedInvoices.FilteredIsMatchingSubseq. |
| DeletedInvoices.EmptySearchShowsAll | src/pages/DeletedInvoices.tsx:83-87 | An empty search shows every invoice. |
| DeletedInvoices.SearchIgnoresCase | src/pages/DeletedInvoices.tsx:84-86 | A term and its upper-case form select the same invoices. |
| DeletedInvoices.ActionsKeepListing | src/pages/DeletedInvoices.tsx:81-99 | No action on the screen (period, restore, view, permanent delete) changes what is listed. |
| AppSidebar.IsGroupActive | src/components/AppSidebar.tsx:144-146 | A group is active exactly when one of its sub-links has the current path. A missing or empty list is never active. |
| AppSidebar.IsActive | src/components/AppSidebar.tsx:142 | `isActive(path)`; its contract is carried by AppSidebar.IsGroupActive and ActiveGroupExamples. |
| AppSidebar.IsCollapsed | src/components/AppSidebar.tsx:140 | `isCollapsed`; the one flag is listed under "Left out" for the layout it drives. |
| AppSidebar.AnyUrlIs | src/components/AppSidebar.tsx:145 | `some` holds exactly when some sub-link has the path. |
| AppSidebar.ToggleGroup | src/components/AppSidebar.tsx:148-154 | A closed title is appended. An open title is removed and every other open title is kept. |
| AppSidebar.CloseKeepsOrder | src/components/AppSidebar.tsx:150-151 | Closing keeps the other open groups in order and with their multiplicities, and removes every copy of the closed title. |
| AppSidebar.ToggleFlips | src/components/AppSidebar.tsx:148-154 | A toggle flips that group and no other. |
| AppSidebar.ToggleTwice | src/components/AppSidebar.tsx:148-154 | Two toggles restore whether the group is open. From closed, they restore the list exactly. |
| AppSidebar.ActiveGroupExamples | src/components/AppSidebar.tsx:47-146 | On "/discounts" the clinic-settings group is active. On "/dashboard" no group is. |
| AppSidebar.InitiallyAllGroupsClosed | src/components/AppSidebar.tsx:139 | The initially open title belongs to a plain link, so every group starts closed. |

## Left out

- JavaScript's prototype lookups are not modelled. `translate`, `groupBy`, the badge map, and the table lookups of the `I18nManager` constructor and `changeLanguage` (src/i18n/index.ts:480, 515-517) index objects by string, so a key such as "constructor" can hit an inherited member, and "length" asked of a string gives a number. The model treats tables and maps as plain maps, and a string answers only to its position indexes. So "a code without a table changes nothing" (I18n.ChangeLanguage) and "a code has a table exactly when it is a known language" (I18n.CurrentInfoAfterChange) hold for own keys only: `translations["toString"]` is an inherited function and is truthy.
- TranslationTree.SameShapeSameKeys: promised only for key paths that ask no key of a string. `translate` indexes into a string it reaches, so "auth.loginSuccess.17" resolves in a table whose text there has at least eighteen characters and not in one whose text is shorter.
- I18n.SwitchKeepsResolvedKeys: promised only for key paths that ask no key of a string, which covers every path of at most two parts. A longer path indexing into a text can resolve in one language and not the other.
- StringUtils.Capitalize: upper-cases ASCII letters only. JavaScript's `toUpperCase` also maps other scripts and can lengthen the text ("ß" becomes "SS"); those inputs are not modelled.
- PatientFiles.NameSearchIgnoresCase: stated for the ASCII-only case mapping of `Text.Lower`/`Text.Upper`. Under JavaScript's full mapping a term such as "ß" upper-cases to "SS" and need not match the same names.
- DeletedInvoices.SearchIgnoresCase: stated for the ASCII-only case mapping, as for the patient search; "ß" against "SS" is not modelled.
- AppSidebar.IsCollapsed: only the flag is modelled. The width class and the hidden labels it drives are layout.
- String lengths count characters, not UTF-16 code units. `Text.Lower`/`Text.Upper` map ASCII letters only; Arabic has no case, but other scripts' letters are left as they are.
- HTTP calls (`src/services/api.ts`) become a reply value. Timeouts, retries and concurrent requests are not modelled.
- `JSON.stringify`/`JSON.parse` become a codec parameter. Parse failure is the codec's `None`.
- Timers become events delivered by the environment: the order is chosen by the caller, and no clock is modelled. The race is not modelled where a send delay still pending returns a finished dialog from success to the code step.
- Floating point, `Intl` and `Date` parsing are left out. This covers the `date` and `number` validators, `formatFileSize`, currency and date formatting, and the invoice amounts and their total.
- `generateId`, `shuffle`, `debounce`, the URL, storage and case-conversion helpers, and the presentational pages are left out: they are randomness, timing or layout, outside the modelled core.
- Validation: validators see text, null or undefined. The numbers and booleans that `validateForm`'s `any` values may hold are not modelled.
- The hook's `logout` catch branch is not modelled, because the service's logout does not throw.
- Disabled states of buttons are modelled only where they change behaviour: the continue and change-method buttons, and the form's delete button. The success button has none, so it can report a code edited while its check was pending.
- ArrayUtils.SortBy: keys are integers. Mixed-type JavaScript comparisons are not modelled.
- DateUtils.CalculateAge: dates are calendar triples. Time zones and the parsing of date strings are left out.
- FileUtils.GetFileExtension: the contracts are stated only for names of at most 2^32 characters. Beyond that, `>>> 0` wraps and the written code slices elsewhere.
- Sms.InputChange: the textarea's `maxLength` is modelled as cutting the typed value to 160 characters. The browser's handling of a paste beyond the cap is not modelled.
- Discounts.NewId: the id is the clock's decimal text. Two saves in the same millisecond would give equal ids; the model does not claim uniqueness, and lemmas that need a fresh id require it.
- `Translations`: the tables are transcribed as one schema of group and key names plus two text columns. Keys beyond the two levels the source uses are not modelled.

## Findings

| source | as written | input that shows it | evidently intended | confidence | as-written member | corrected member |
|---|---|---|---|---|---|---|
| src/components/ui/two-factor-auth.tsx:85-89 | `handleResendCode` sets the countdown to 120 but starts no interval. The interval from `handleMethodSelect` has cleared itself when the count reached zero (lines 55-57). | Choose SMS, wait for the send, let 120 ticks pass, click "resend", then let any number of ticks pass. The countdown stays at 120 and the resend button never reappears. | A resend restarts the countdown, which then runs down to zero so the code can be resent again. | not executed | TwoFactorAuth.ResendAsWrittenFreezes | TwoFactorAuth.ResendCountsDown |

=== FILE: app_sidebar.dfy ===
/** The application sidebar: a fixed menu of links and collapsible groups,
    the list of open group titles, and which entries match the current path. */
module AppSidebar {
  import opened Wrappers
  import Seqs

  datatype SubItem = SubItem(title: string, url: string)

  /** A top-level entry: a plain link, or a group of sub-links. */
  datatype MenuItem = Link(title: string, url: string) | Group(title: string, items: seq<SubItem>)

  /** The menu, in display order. */
  const MenuItems: seq<MenuItem> := [
    Link("الرئيسية", "/dashboard"),
    Group("إعدادات العيادة", [
      SubItem("معلومات العيادة", "/clinic-info"),
      SubItem("إدارة التخفيضات", "/discounts"),
      SubItem("إدارة الخصوصية", "/privacy"),
      SubItem("الرسائل القصيرة", "/sms")]),
    Group("إدارة المستخدمين", [
      SubItem("إدارة حسابي", "/my-account"),
      SubItem("طاقم طبي", "/medical-staff"),
      SubItem("إدارة العيادات", "/clinics-management")]),
    Group("إدارة المرضى", [
      SubItem("إدارة ملفات المرضى", "/patient-files"),
      SubItem("جلسات المريض", "/patient-sessions"),
      SubItem("إدارة الفواتير", "/invoices"),
      SubItem("عرض الفواتير المحدودة", "/limited-invoices")]),
    Link("الرسائل القصيرة", "/messages"),
    Group("المخزون", [
      SubItem("إدارة المخزون", "/inventory"),
      SubItem("عرض المخزون", "/inventory-view")]),
    Group("إدارة العيادة", [
      SubItem("إدارة المخزونات", "/clinic-inventory"),
      SubItem("إرسال بريد إلكتروني", "/email"),
      SubItem("نسخ احتياطية", "/backups")]),
    Group("التقارير", [
      SubItem("تقارير المرضى", "/patient-reports"),
      SubItem("تقارير الفواتير", "/invoice-reports"),
      SubItem("تقارير المصروفات", "/expense-reports"),
      SubItem("الأرباح والخسائل", "/profit-loss"),
      SubItem("مجموع الدخل اليومي", "/daily-income")]),
    Link("لوحة التحكم", "/control-panel"),
    Group("مساعدة", [
      SubItem("مشاهدة الفيديو", "/help-video"),
      SubItem("الدعم التقني", "/technical-support"),
      SubItem("عن التطبيق", "/about"),
      SubItem("عن فاست ميديا", "/about-fastmedia")])
  ]

  /** The titles open when the sidebar first renders. */
  const InitialOpenGroups: seq<string> := ["الرئيسية"]

  /** `isCollapsed`: the sidebar is closed and the screen is not a phone's. */
  predicate IsCollapsed(open: bool, isMobile: bool) {
    !open && !isMobile
  }

  /** `isActive(path)`. */
  predicate IsActive(currentPath: string, path: string) {
    currentPath == path
  }

  /** `isGroupActive(items)`: `items?.some(item => isActive(item.url)) || false`. */
  function IsGroupActive(currentPath: string, items: Option<seq<SubItem>>): (b: bool)
    ensures b <==> items.Some? && exists i :: 0 <= i < |items.value| && items.value[i].url == currentPath
    ensures items == None || items == Some([]) ==> !b
  {
    match items
    case None => false
    case Some(xs) => AnyUrlIs(xs, currentPath)
  }

  /** `xs.some(item => item.url == path)`, scanned from the front. */
  function AnyUrlIs(xs: seq<SubItem>, path: string): (b: bool)
    ensures b <==> exists i :: 0 <= i < |xs| && xs[i].url == path
  {
    if |xs| == 0 then false
    else if xs[0].url == path then true
    else
      var b := AnyUrlIs(xs[1..], path);
      assert forall i :: 1 <= i < |xs| ==> xs[i] == xs[1..][i - 1];
      b
  }

  /** Whether a menu entry's collapsible is drawn open. */
  predicate IsOpen(openGroups: seq<string>, item: MenuItem) {
    item.title in openGroups
  }

  /** `toggleGroup(title)`: an open title is removed wherever it occurs; a
      closed one is appended. */
  function ToggleGroup(openGroups: seq<string>, title: string): (r: seq<string>)
    ensures title !in openGroups ==> r == openGroups + [title]
    ensures title in openGroups ==> forall g :: g in r <==> g in openGroups && g != title
  {
    if title in openGroups then
      var kept := Seqs.Filter(openGroups, g => g != title);
      assert forall g :: g in kept <==> g in openGroups && g != title by {
        forall g ensures g in kept <==> g in openGroups && g != title {
          Seqs.FilterMembership(openGroups, g => g != title, g);
        }
      }
      kept
    else
      openGroups + [title]
  }

  // ---- Properties ----

  /** Closing a group keeps the other open groups in their order. */
  lemma CloseKeepsOrder(openGroups: seq<string>, title: string)
    requires title in openGroups
    ensures Seqs.IsSubseq(ToggleGroup(openGroups, title), openGroups)
    ensures title !in ToggleGroup(openGroups, title)
    ensures forall g :: multiset(ToggleGroup(openGroups, title))[g] == if g != title then multiset(openGroups)[g] else 0
  {
    Seqs.FilterIsSubseq(openGroups, g => g != title);
    forall g ensures multiset(ToggleGroup(openGroups, title))[g] == if g != title then multiset(openGroups)[g] else 0 {
      Seqs.FilterMultiplicity(openGroups, g => g != title, g);
    }
  }

  /** Toggling flips whether the group is open and leaves every other group as it was. */
  lemma ToggleFlips(openGroups: seq<string>, title: string, other: string)
    requires other != title
    ensures title in ToggleGroup(openGroups, title) <==> title !in openGroups
    ensures other in ToggleGroup(openGroups, title) <==> other in openGroups
  {
  }

  /** Toggling twice restores whether the group is open; a group that was
      closed leaves the list exactly as it was. */
  lemma {:induction false} ToggleTwice(openGroups: seq<string>, title: string)
    ensures title in ToggleGroup(ToggleGroup(openGroups, title), title) <==> title in openGroups
    ensures title !in openGroups ==> ToggleGroup(ToggleGroup(openGroups, title), title) == openGroups
  {
    if title !in openGroups {
      var keep := (g: string) => g != title;
      Seqs.FilterConcat(openGroups, [title], keep);
      Seqs.FilterAll(openGroups, keep);
      assert Seqs.Filter([title], keep) == [];
    }
  }

  /** On the discounts page the clinic-settings group is highlighted; on the
      dashboard, which is a plain link, no group is. */
  lemma ActiveGroupExamples(discounts: string, dashboard: string, k: nat)
    requires discounts == "/discounts" && dashboard == "/dashboard"
    requires k < |MenuItems| && MenuItems[k].Group?
    ensures IsGroupActive(discounts, Some(MenuItems[1].items))
    ensures !IsGroupActive(dashboard, Some(MenuItems[k].items))
  {
    assert MenuItems[1].items[1].url == discounts;
  }

  /** The title open at first belongs to a plain link, so every group starts closed. */
  lemma InitiallyAllGroupsClosed(k: nat)
    requires k < |MenuItems| && MenuItems[k].Group?
    ensures !IsOpen(InitialOpenGroups, MenuItems[k])
  {
    assert "التقارير"[2] != "الرئيسية"[2];
  }
}

=== FILE: array_utils.dfy ===
/** `arrayUtils`: duplicate removal, grouping by a key, and sorting by a key. */
module ArrayUtils {
  import Seqs

  // ---- removeDuplicates ----

  /** `[...new Set(array)]`: each value once, at its first occurrence. */
  function RemoveDuplicates<T(==,!new)>(xs: seq<T>): (r: seq<T>)
    ensures forall x :: x in r <==> x in xs
    ensures forall i, j :: 0 <= i < j < |r| ==> r[i] != r[j]
    decreases |xs|
  {
    if |xs| == 0 then []
    else
      var init := RemoveDuplicates(xs[..|xs| - 1]);
      var last := xs[|xs| - 1];
      assert forall x :: x in xs <==> x in xs[..|xs| - 1] || x == last by {
        assert xs == xs[..|xs| - 1] + [last];
      }
      if last in init then init else init + [last]
  }

  /** The position of the first occurrence of `x`. */
  function FirstIndex<T(==)>(xs: seq<T>, x: T): (i: nat)
    requires x in xs
    ensures i < |xs| && xs[i] == x
    ensures forall j :: 0 <= j < i ==> xs[j] != x
  {
    if xs[0] == x then 0 else 1 + FirstIndex(xs[1..], x)
  }

  /** First occurrences in a prefix are first occurrences in the whole. */
  lemma FirstIndexPrefix<T>(xs: seq<T>, n: nat, x: T)
    requires n <= |xs| && x in xs[..n]
    ensures x in xs && FirstIndex(xs, x) == FirstIndex(xs[..n], x)
  {
    var i := FirstIndex(xs[..n], x);
    assert xs[i] == x;
    FirstIndexAt(xs, x, i);
  }

  /** The first occurrence is the position holding `x` with none before it. */
  lemma {:induction false} FirstIndexAt<T>(xs: seq<T>, x: T, i: nat)
    requires i < |xs| && xs[i] == x
    requires forall j :: 0 <= j < i ==> xs[j] != x
    ensures FirstIndex(xs, x) == i
  {
    if i > 0 {
      FirstIndexAt(xs[1..], x, i - 1);
    }
  }

  /** The survivors appear in the order of their first occurrences. */
  lemma {:induction false} RemoveDuplicatesOrder<T(!new)>(xs: seq<T>)
    ensures forall i, j :: 0 <= i < j < |RemoveDuplicates(xs)| ==>
      FirstIndex(xs, RemoveDuplicates(xs)[i]) < FirstIndex(xs, RemoveDuplicates(xs)[j])
    decreases |xs|
  {
    if |xs| > 0 {
      var n := |xs| - 1;
      var init := RemoveDuplicates(xs[..n]);
      var last := xs[n];
      RemoveDuplicatesOrder(xs[..n]);
      var r := RemoveDuplicates(xs);
      forall k | 0 <= k < |init|
        ensures FirstIndex(xs, init[k]) == FirstIndex(xs[..n], init[k])
      {
        FirstIndexPrefix(xs, n, init[k]);
      }
      if last !in init {
        assert last !in xs[..n];
        FirstIndexAt(xs, last, n);
        assert r == init + [last];
      }
    }
  }

  /** A sequence without repetitions comes back unchanged, so removing
      duplicates twice is removing them once. */
  lemma {:induction false} RemoveDuplicatesNoop<T(!new)>(xs: seq<T>)
    requires forall i, j :: 0 <= i < j < |xs| ==> xs[i] != xs[j]
    ensures RemoveDuplicates(xs) == xs
    decreases |xs|
  {
    if |xs| > 0 {
      var n := |xs| - 1;
      RemoveDuplicatesNoop(xs[..n]);
      assert xs[n] !in xs[..n];
      assert xs == xs[..n] + [xs[n]];
    }
  }

  /** Removing duplicates a second time changes nothing. */
  lemma RemoveDuplicatesIdempotent<T(!new)>(xs: seq<T>)
    ensures RemoveDuplicates(RemoveDuplicates(xs)) == RemoveDuplicates(xs)
  {
    RemoveDuplicatesNoop(RemoveDuplicates(xs));
  }

  // ---- groupBy ----

  /** `groupBy(array, key)`: items reduced left to right into buckets named
      by `String(item[key])`, which `key` stands for here. */
  function GroupBy<T>(xs: seq<T>, key: T -> string): map<string, seq<T>>
    decreases |xs|
  {
    if |xs| == 0 then map[]
    else
      var groups := GroupBy(xs[..|xs| - 1], key);
      var item := xs[|xs| - 1];
      var g := key(item);
      groups[g := (if g in groups then groups[g] else []) + [item]]
  }

  /** The items of bucket `g`, in their original order. */
  function Bucket<T>(xs: seq<T>, key: T -> string, g: string): seq<T> {
    Seqs.Filter(xs, x => key(x) == g)
  }

  /** There is a bucket for exactly the keys some item has, and each bucket
      holds exactly the items with its key, in their original order. */
  lemma {:induction false} GroupByBuckets<T>(xs: seq<T>, key: T -> string, g: string)
    ensures g in GroupBy(xs, key) <==> exists i :: 0 <= i < |xs| && key(xs[i]) == g
    ensures g in GroupBy(xs, key) ==> GroupBy(xs, key)[g] == Bucket(xs, key, g)
    ensures g !in GroupBy(xs, key) ==> Bucket(xs, key, g) == []
    decreases |xs|
  {
    if |xs| > 0 {
      var n := |xs| - 1;
      var init := xs[..n];
      GroupByBuckets(init, key, g);
      assert xs == init + [xs[n]];
      Seqs.FilterConcat(init, [xs[n]], x => key(x) == g);
      assert forall i :: 0 <= i < n ==> init[i] == xs[i];
      if exists i :: 0 <= i < |xs| && key(xs[i]) == g {
        var i :| 0 <= i < |xs| && key(xs[i]) == g;
        if i < n {
          assert key(init[i]) == g;
        }
      }
    }
  }

  /** Every item lands in the bucket of its own key. */
  lemma GroupByPlacesItem<T>(xs: seq<T>, key: T -> string, i: nat)
    requires i < |xs|
    ensures key(xs[i]) in GroupBy(xs, key)
    ensures xs[i] in GroupBy(xs, key)[key(xs[i])]
  {
    var g := key(xs[i]);
    GroupByBuckets(xs, key, g);
    Seqs.FilterMembership(xs, x => key(x) == g, xs[i]);
  }

  // ---- sortBy ----

  /** The comparator of `sortBy`: `a` goes strictly before `b`. */
  predicate Before<T>(key: T -> int, desc: bool, a: T, b: T) {
    if desc then key(a) > key(b) else key(a) < key(b)
  }

  /** No element is strictly before one that precedes it. */
  predicate Sorted<T>(xs: seq<T>, key: T -> int, desc: bool) {
    forall i, j :: 0 <= i < j < |xs| ==> !Before(key, desc, xs[j], xs[i])
  }

  /** Puts `x` in front of the first element it does not come after. */
  function Insert<T>(x: T, ys: seq<T>, key: T -> int, desc: bool): (r: seq<T>)
    ensures |r| == |ys| + 1
    ensures multiset(r) == multiset(ys) + multiset{x}
    decreases |ys|
  {
    if |ys| == 0 || !Before(key, desc, ys[0], x) then [x] + ys
    else
      var rest := Insert(x, ys[1..], key, desc);
      assert ys == [ys[0]] + ys[1..];
      [ys[0]] + rest
  }

  /** `sortBy(array, key, direction)`: a stable sort of a copy; equal keys
      keep their order (`Array.prototype.sort` is stable). */
  function SortBy<T>(xs: seq<T>, key: T -> int, desc: bool): (r: seq<T>)
    ensures multiset(r) == multiset(xs)
    decreases |xs|
  {
    if |xs| == 0 then []
    else
      assert xs == [xs[0]] + xs[1..];
      Insert(xs[0], SortBy(xs[1..], key, desc), key, desc)
  }

  /** Every element of an insertion comes from the sequence or is the new one. */
  lemma InsertElements<T>(x: T, ys: seq<T>, key: T -> int, desc: bool, k: nat)
    requires k < |Insert(x, ys, key, desc)|
    ensures Insert(x, ys, key, desc)[k] == x || Insert(x, ys, key, desc)[k] in ys
  {
    var r := Insert(x, ys, key, desc);
    assert r[k] in multiset(r);
  }

  /** Inserting into a sorted sequence keeps it sorted. */
  lemma {:induction false} InsertSorted<T>(x: T, ys: seq<T>, key: T -> int, desc: bool)
    requires Sorted(ys, key, desc)
    ensures Sorted(Insert(x, ys, key, desc), key, desc)
    decreases |ys|
  {
    var r := Insert(x, ys, key, desc);
    if |ys| == 0 || !Before(key, desc, ys[0], x) {
      assert forall j :: 1 <= j < |r| ==> r[j] == ys[j - 1];
    } else {
      var rest := Insert(x, ys[1..], key, desc);
      InsertSorted(x, ys[1..], key, desc);
      forall j | 1 <= j < |r| ensures !Before(key, desc, r[j], r[0]) {
        assert r[j] == rest[j - 1];
        InsertElements(x, ys[1..], key, desc, j - 1);
        if rest[j - 1] in ys[1..] {
          var m :| 0 <= m < |ys[1..]| && ys[1..][m] == rest[j - 1];
          assert ys[m + 1] == r[j];
        }
      }
    }
  }

  /** The result is in order. */
  lemma {:induction false} SortBySorted<T>(xs: seq<T>, key: T -> int, desc: bool)
    ensures Sorted(SortBy(xs, key, desc), key, desc)
    decreases |xs|
  {
    if |xs| > 0 {
      SortBySorted(xs[1..], key, desc);
      InsertSorted(xs[0], SortBy(xs[1..], key, desc), key, desc);
    }
  }

  /** The elements of one key, in order. */
  function WithKey<T>(xs: seq<T>, key: T -> int, k: int): seq<T> {
    Seqs.Filter(xs, x => key(x) == k)
  }

  /** Insertion puts `x` first among the elements of its key and leaves the
      other keys' elements as they were. */
  lemma {:induction false} InsertStable<T>(x: T, ys: seq<T>, key: T -> int, desc: bool, k: int)
    ensures WithKey(Insert(x, ys, key, desc), key, k) ==
      (if key(x) == k then [x] else []) + WithKey(ys, key, k)
    decreases |ys|
  {
    if |ys| == 0 || !Before(key, desc, ys[0], x) {
      assert ([x] + ys)[1..] == ys;
    } else {
      InsertStable(x, ys[1..], key, desc, k);
      var r := Insert(x, ys, key, desc);
      assert r[1..] == Insert(x, ys[1..], key, desc);
      assert key(ys[0]) != key(x);
    }
  }

  /** Sorting is stable: the elements of every key keep their relative order. */
  lemma {:induction false} SortByStable<T>(xs: seq<T>, key: T -> int, desc: bool, k: int)
    ensures WithKey(SortBy(xs, key, desc), key, k) == WithKey(xs, key, k)
    decreases |xs|
  {
    if |xs| > 0 {
      SortByStable(xs[1..], key, desc, k);
      InsertStable(xs[0], SortBy(xs[1..], key, desc), key, desc, k);
    }
  }

  /** `desc` sorts as `asc` on the negated key. */
  lemma {:induction false} SortByDescIsNegatedAsc<T>(xs: seq<T>, key: T -> int)
    ensures SortBy(xs, key, true) == SortBy(xs, x => -key(x), false)
    decreases |xs|
  {
    if |xs| > 0 {
      SortByDescIsNegatedAsc(xs[1..], key);
      InsertDescIsNegatedAsc(xs[0], SortBy(xs[1..], key, true), key);
    }
  }

  /** Inserting in descending order is inserting in ascending order of the negated key. */
  lemma {:induction false} InsertDescIsNegatedAsc<T>(x: T, ys: seq<T>, key: T -> int)
    ensures Insert(x, ys, key, true) == Insert(x, ys, x => -key(x), false)
    decreases |ys|
  {
    if |ys| > 0 {
      InsertDescIsNegatedAsc(x, ys[1..], key);
    }
  }
}

=== FILE: auth_service.dfy ===
/** The session store (`AuthService`): credentials and the cached user record
    kept in two browser storages, the durable `localStorage` and the
    per-tab `sessionStorage`, each modelled as a key-to-string map. Backend
    replies are inputs; the JSON encoding of the user record is a parameter. */
module AuthService {
  import opened Wrappers

  // `STORAGE_KEYS` used by the session store.
  const AuthTokenKey: string := "hakimclinic_auth_token"
  const RefreshTokenKey: string := "hakimclinic_refresh_token"
  const UserDataKey: string := "hakimclinic_user_data"
  const RememberMeKey: string := "hakimclinic_remember_me"

  type Storage = map<string, string>

  /** Both storage scopes: `local` survives a browser restart, `session` does not. */
  datatype Stores = Stores(local: Storage, session: Storage)

  datatype Role = Admin | Doctor | Nurse | Receptionist

  datatype User = User(
    id: string,
    username: string,
    email: string,
    role: Role,
    firstName: string,
    lastName: string,
    avatar: Option<string>,
    isActive: bool,
    createdAt: string,
    updatedAt: string)

  datatype Credentials = Credentials(username: string, password: string, rememberMe: bool)

  datatype AuthResponse = AuthResponse(user: User, token: string, refreshToken: string)

  datatype TokenPair = TokenPair(token: string, refreshToken: string)

  /** What a backend call produced: the `ApiResponse` body (a missing
      `message` is the empty string), or the message of the `Error` the API
      client threw for a network failure, an HTTP error status or an
      unreadable body. */
  datatype Reply<T> = Reply(success: bool, data: Option<T>, message: string) | Thrown(message: string)

  /** `JSON.stringify` and `JSON.parse` of a user record; a parse that throws,
      or yields anything but a user, is `None`. */
  datatype Json = Json(stringify: User -> string, parse: string -> Option<User>)

  /** What the real encoding guarantees: a non-empty text that parses back. */
  ghost predicate WellBehaved(json: Json) {
    forall u: User :: json.stringify(u) != [] && json.parse(json.stringify(u)) == Some(u)
  }

  /** The storages after an operation, and what the operation returned or threw. */
  datatype Step<T> = Step(stores: Stores, result: Result<T>)

  /** `storage.getItem(key)`. */
  function GetItem(s: Storage, key: string): Option<string> {
    if key in s then Some(s[key]) else None
  }

  /** JavaScript truthiness of `getItem`'s result: present and non-empty. */
  predicate Truthy(v: Option<string>) {
    v.Some? && v.value != []
  }

  /** JavaScript's `a || b` on two `getItem` results. */
  function Or(a: Option<string>, b: Option<string>): (r: Option<string>)
    ensures Truthy(r) <==> Truthy(a) || Truthy(b)
  {
    if Truthy(a) then a else b
  }

  /** `response.message || fallback`. */
  function MessageOr(message: string, fallback: string): string {
    if message != [] then message else fallback
  }

  /** `login(credentials)`. */
  function Login(st: Stores, json: Json, creds: Credentials, reply: Reply<AuthResponse>): (r: Step<AuthResponse>)
    ensures reply.Reply? && reply.success && reply.data.Some? ==>
      && r.result == Ok(reply.data.value)
      && GetItem(r.stores.local, AuthTokenKey) == Some(reply.data.value.token)
      && GetItem(r.stores.local, RefreshTokenKey) == Some(reply.data.value.refreshToken)
      && GetItem(r.stores.local, UserDataKey) == Some(json.stringify(reply.data.value.user))
      && (creds.rememberMe ==>
            && GetItem(r.stores.local, RememberMeKey) == Some("true")
            && r.stores.session == st.session)
      && (!creds.rememberMe ==>
            && GetItem(r.stores.local, RememberMeKey) == None
            && GetItem(r.stores.session, AuthTokenKey) == Some(reply.data.value.token)
            && GetItem(r.stores.session, UserDataKey) == Some(json.stringify(reply.data.value.user)))
    ensures reply.Reply? && !(reply.success && reply.data.Some?) ==>
      r == Step(st, Err(if reply.message != [] then reply.message else "Login failed"))
    ensures reply.Thrown? ==> r == Step(st, Err(reply.message))
  {
    match reply
    case Thrown(m) => Step(st, Err(m))
    case Reply(success, data, message) =>
      if success && data.Some? then
        var d := data.value;
        var local := st.local[AuthTokenKey := d.token][RefreshTokenKey := d.refreshToken][UserDataKey := json.stringify(d.user)];
        if creds.rememberMe then
          Step(Stores(local[RememberMeKey := "true"], st.session), Ok(d))
        else
          Step(Stores(local - {RememberMeKey},
                      st.session[AuthTokenKey := d.token][UserDataKey := json.stringify(d.user)]),
               Ok(d))
      else
        Step(st, Err(MessageOr(message, "Login failed")))
  }

  /** `logout()`: the backend call is best effort and its outcome is ignored. */
  function Logout(st: Stores): (r: Stores)
    ensures AuthTokenKey !in r.local && RefreshTokenKey !in r.local
    ensures UserDataKey !in r.local && RememberMeKey !in r.local
    ensures AuthTokenKey !in r.session && UserDataKey !in r.session
    ensures forall k :: k in st.local && k !in {AuthTokenKey, RefreshTokenKey, UserDataKey, RememberMeKey} ==>
      k in r.local && r.local[k] == st.local[k]
    ensures forall k :: k in st.session && k !in {AuthTokenKey, UserDataKey} ==>
      k in r.session && r.session[k] == st.session[k]
    ensures r.local.Keys <= st.local.Keys && r.session.Keys <= st.session.Keys
  {
    Stores(st.local - {AuthTokenKey, RefreshTokenKey, UserDataKey, RememberMeKey},
           st.session - {AuthTokenKey, UserDataKey})
  }

  /** `isAuthenticated()`: either storage holds a non-empty token. */
  function IsAuthenticated(st: Stores): (b: bool)
    ensures b <==> Truthy(GetItem(st.local, AuthTokenKey)) || Truthy(GetItem(st.session, AuthTokenKey))
  {
    Truthy(Or(GetItem(st.local, AuthTokenKey), GetItem(st.session, AuthTokenKey)))
  }

  /** `getCurrentUser()`: the parsed record of the first storage, durable
      first, holding a non-empty one; nothing when neither does. */
  function GetCurrentUser(st: Stores, json: Json): (r: Option<User>)
    ensures Truthy(GetItem(st.local, UserDataKey)) ==> r == json.parse(st.local[UserDataKey])
    ensures !Truthy(GetItem(st.local, UserDataKey)) && Truthy(GetItem(st.session, UserDataKey)) ==>
      r == json.parse(st.session[UserDataKey])
    ensures !Truthy(GetItem(st.local, UserDataKey)) && !Truthy(GetItem(st.session, UserDataKey)) ==> r == None
  {
    var userData := Or(GetItem(st.local, UserDataKey), GetItem(st.session, UserDataKey));
    if Truthy(userData) then json.parse(userData.value) else None
  }

  /** `getAuthToken()`. */
  function GetAuthToken(st: Stores): (r: Option<string>)
    ensures Truthy(GetItem(st.local, AuthTokenKey)) ==> r == GetItem(st.local, AuthTokenKey)
    ensures !Truthy(GetItem(st.local, AuthTokenKey)) ==> r == GetItem(st.session, AuthTokenKey)
  {
    Or(GetItem(st.local, AuthTokenKey), GetItem(st.session, AuthTokenKey))
  }

  /** `refreshToken()`: the reply is consulted only when a durable refresh token exists. */
  function RefreshToken(st: Stores, reply: Reply<TokenPair>): (r: Step<string>)
    ensures !Truthy(GetItem(st.local, RefreshTokenKey)) ==>
      r == Step(Logout(st), Err("No refresh token available"))
    ensures r.result.Err? ==> r.stores == Logout(st)
    ensures r.result.Ok? ==>
      && reply.Reply? && reply.success && reply.data.Some?
      && r.result.value == reply.data.value.token
      && r.stores == Stores(st.local[AuthTokenKey := reply.data.value.token][RefreshTokenKey := reply.data.value.refreshToken], st.session)
  {
    if !Truthy(GetItem(st.local, RefreshTokenKey)) then
      Step(Logout(st), Err("No refresh token available"))
    else
      match reply
      case Thrown(m) => Step(Logout(st), Err(m))
      case Reply(success, data, message) =>
        if success && data.Some? then
          Step(Stores(st.local[AuthTokenKey := data.value.token][RefreshTokenKey := data.value.refreshToken], st.session),
               Ok(data.value.token))
        else
          Step(Logout(st), Err(MessageOr(message, "Token refresh failed")))
  }

  /** `updateProfile(userData)`: the returned record replaces the durable copy only. */
  function UpdateProfile(st: Stores, json: Json, reply: Reply<User>): (r: Step<User>)
    ensures r.result.Ok? ==>
      && reply.Reply? && reply.success && reply.data.Some? && r.result.value == reply.data.value
      && r.stores == Stores(st.local[UserDataKey := json.stringify(reply.data.value)], st.session)
    ensures r.result.Err? ==> r.stores == st
    ensures reply.Reply? && reply.success && reply.data.Some? ==> r.result.Ok?
  {
    match reply
    case Thrown(m) => Step(st, Err(m))
    case Reply(success, data, message) =>
      if success && data.Some? then
        Step(Stores(st.local[UserDataKey := json.stringify(data.value)], st.session), Ok(data.value))
      else
        Step(st, Err(MessageOr(message, "Failed to update profile")))
  }

  /** `forgotPassword(email)` and `resetPassword(token, password)`: no storage
      is touched; a reply without `success` fails with its message or `fallback`. */
  function CheckReply(reply: Reply<()>, fallback: string): (r: Result<()>)
    ensures r.Ok? <==> reply.Reply? && reply.success
    ensures reply.Reply? && !reply.success && reply.message == [] ==> r == Err(fallback)
    ensures reply.Reply? && !reply.success && reply.message != [] ==> r == Err(reply.message)
    ensures reply.Thrown? ==> r == Err(reply.message)
  {
    match reply
    case Thrown(m) => Err(m)
    case Reply(success, _, message) =>
      if success then Ok(()) else Err(MessageOr(message, fallback))
  }

  /** `forgotPassword(email)`: resolves exactly on a successful reply; a
      refusal always rejects with some text, and a thrown error passes on its message. */
  function ForgotPassword(reply: Reply<()>): (r: Result<()>)
    ensures r.Ok? <==> reply.Reply? && reply.success
    ensures reply.Reply? && !reply.success ==> r.Err? && r.message != []
    ensures reply.Reply? && !reply.success && reply.message != [] ==> r == Err(reply.message)
    ensures reply.Thrown? ==> r == Err(reply.message)
  {
    CheckReply(reply, "Failed to send reset email")
  }

  /** `resetPassword(token, password)`: the same contract as `forgotPassword`,
      with its own fallback text. */
  function ResetPassword(reply: Reply<()>): (r: Result<()>)
    ensures r.Ok? <==> reply.Reply? && reply.success
    ensures reply.Reply? && !reply.success ==> r.Err? && r.message != []
    ensures reply.Reply? && !reply.success && reply.message != [] ==> r == Err(reply.message)
    ensures reply.Thrown? ==> r == Err(reply.message)
  {
    CheckReply(reply, "Failed to reset password")
  }

  /** The end of the browsing context: the session scope is emptied. */
  function EndBrowsingSession(st: Stores): Stores {
    Stores(st.local, map[])
  }

  // ---- Properties ----

  /** Authentication is exactly the presence of a usable token. */
  lemma AuthenticatedIffToken(st: Stores)
    ensures IsAuthenticated(st) <==> Truthy(GetAuthToken(st))
  {
  }

  /** After a successful login with a non-empty token the user is
      authenticated with that token and the cached record reads back as the
      user, whatever `rememberMe` was. */
  lemma LoginEstablishesSession(st: Stores, json: Json, creds: Credentials, reply: Reply<AuthResponse>)
    requires WellBehaved(json)
    requires reply.Reply? && reply.success && reply.data.Some? && reply.data.value.token != []
    ensures IsAuthenticated(Login(st, json, creds, reply).stores)
    ensures GetAuthToken(Login(st, json, creds, reply).stores) == Some(reply.data.value.token)
    ensures GetCurrentUser(Login(st, json, creds, reply).stores, json) == Some(reply.data.value.user)
  {
    var u := reply.data.value.user;
    assert json.stringify(u) != [] && json.parse(json.stringify(u)) == Some(u);
  }

  /** The session survives the end of the browsing context even without
      `rememberMe`, because token and user are written to durable storage
      in every case. */
  lemma LoginSurvivesRestart(st: Stores, json: Json, creds: Credentials, reply: Reply<AuthResponse>)
    requires WellBehaved(json)
    requires reply.Reply? && reply.success && reply.data.Some? && reply.data.value.token != []
    ensures IsAuthenticated(EndBrowsingSession(Login(st, json, creds, reply).stores))
    ensures GetCurrentUser(EndBrowsingSession(Login(st, json, creds, reply).stores), json) == Some(reply.data.value.user)
  {
    var u := reply.data.value.user;
    assert json.stringify(u) != [] && json.parse(json.stringify(u)) == Some(u);
  }

  /** A failed login writes nothing, so it cannot make anyone authenticated. */
  lemma FailedLoginChangesNothing(st: Stores, json: Json, creds: Credentials, reply: Reply<AuthResponse>)
    requires !(reply.Reply? && reply.success && reply.data.Some?)
    ensures Login(st, json, creds, reply).stores == st
    ensures Login(st, json, creds, reply).result.Err?
    ensures IsAuthenticated(Login(st, json, creds, reply).stores) <==> IsAuthenticated(st)
  {
  }

  /** After logout nobody is authenticated and no user is cached, whatever the
      state before; logging out again changes nothing. */
  lemma LogoutClearsSession(st: Stores, json: Json)
    ensures !IsAuthenticated(Logout(st))
    ensures GetCurrentUser(Logout(st), json) == None
    ensures GetAuthToken(Logout(st)) == None
    ensures Logout(Logout(st)) == Logout(st)
  {
  }

  /** A refresh that fails for any reason leaves the user logged out. */
  lemma FailedRefreshLogsOut(st: Stores, reply: Reply<TokenPair>)
    requires RefreshToken(st, reply).result.Err?
    ensures !IsAuthenticated(RefreshToken(st, reply).stores)
  {
    LogoutClearsSession(st, Json(u => [], s => None));
  }

  /** The two password calls agree on every reply except a refusal without a
      message, where each names its own operation. */
  lemma PasswordCallsAgree(reply: Reply<()>)
    ensures ForgotPassword(reply) == ResetPassword(reply) <==>
      !(reply.Reply? && !reply.success && reply.message == [])
  {
  }

  /** A successful refresh changes no key but the two durable tokens. */
  lemma RefreshTouchesOnlyTokens(st: Stores, reply: Reply<TokenPair>, k: string)
    requires RefreshToken(st, reply).result.Ok?
    requires k != AuthTokenKey && k != RefreshTokenKey
    ensures GetItem(RefreshToken(st, reply).stores.local, k) == GetItem(st.local, k)
    ensures RefreshToken(st, reply).stores.session == st.session
  {
  }
}

=== FILE: dashboard.dfy ===
/** The dashboard: today's appointments filtered by a case-sensitive search,
    and the badge shown for an appointment's status. */
module Dashboard {
  import Seqs
  import Text

  datatype Appointment = Appointment(id: int, time: string, patient: string, doctor: string, phone: string, status: string)

  datatype Variant = Default | Secondary | Outline | Destructive

  datatype Badge = Badge(caption: string, variant: Variant)

  /** The status names the badge map knows, in its order. */
  const KnownStatuses: seq<string> := ["confirmed", "waiting", "in-progress", "completed", "cancelled"]

  /** The badge map. */
  const StatusMap: map<string, Badge> := map[
    "confirmed" := Badge("مؤكد", Default),
    "waiting" := Badge("في الانتظار", Secondary),
    "in-progress" := Badge("جارٍ", Outline),
    "completed" := Badge("مكتمل", Default),
    "cancelled" := Badge("ملغي", Destructive)]

  /** `getStatusBadge(status)`: the mapped badge, or the `confirmed` badge for
      a status the map does not know. */
  function GetStatusBadge(status: string): (b: Badge)
    ensures status !in KnownStatuses ==> b == Badge("مؤكد", Default)
    ensures status == "waiting" ==> b == Badge("في الانتظار", Secondary)
    ensures status == "in-progress" ==> b == Badge("جارٍ", Outline)
    ensures status == "completed" ==> b == Badge("مكتمل", Default)
    ensures status == "cancelled" ==> b == Badge("ملغي", Destructive)
    ensures status == "confirmed" ==> b == Badge("مؤكد", Default)
  {
    assert StatusMap.Keys == set s | s in KnownStatuses;
    if status in StatusMap then StatusMap[status] else StatusMap["confirmed"]
  }

  /** The status a label stands for: the inverse of the badge map. */
  function StatusOfCaption(caption: string): string {
    if caption == "في الانتظار" then "waiting"
    else if caption == "جارٍ" then "in-progress"
    else if caption == "مكتمل" then "completed"
    else if caption == "ملغي" then "cancelled"
    else "confirmed"
  }

  /** A case-sensitive search on the patient or the doctor. */
  predicate Matches(a: Appointment, term: string) {
    Text.Includes(a.patient, term) || Text.Includes(a.doctor, term)
  }

  /** `filteredAppointments`. */
  function FilteredAppointments(appointments: seq<Appointment>, term: string): seq<Appointment> {
    Seqs.Filter(appointments, a => Matches(a, term))
  }

  // ---- Properties ----

  /** Each known status has its own label, which the inverse reads back;
      unknown statuses read back as `confirmed`. */
  lemma BadgeLabelRoundTrip(status: string)
    ensures StatusOfCaption(GetStatusBadge(status).caption) ==
      if status in KnownStatuses then status else "confirmed"
  {
    assert "مكتمل"[0] != "مؤكد"[0] || "مكتمل"[1] != "مؤكد"[1];
    assert "ملغي"[1] != "مؤكد"[1];
  }

  /** Only cancellations get the destructive badge. */
  lemma DestructiveOnlyWhenCancelled(status: string)
    ensures GetStatusBadge(status).variant == Destructive <==> status == "cancelled"
  {
  }

  /** The shown appointments are the matching ones, in list order. */
  lemma FilteredIsMatchingSubseq(appointments: seq<Appointment>, term: string, a: Appointment)
    ensures Seqs.IsSubseq(FilteredAppointments(appointments, term), appointments)
    ensures a in FilteredAppointments(appointments, term) <==> a in appointments && Matches(a, term)
    ensures multiset(FilteredAppointments(appointments, term))[a] ==
      if Matches(a, term) then multiset(appointments)[a] else 0
  {
    Seqs.FilterMultiplicity(appointments, a => Matches(a, term), a);
    Seqs.FilterIsSubseq(appointments, a => Matches(a, term));
    Seqs.FilterMembership(appointments, a => Matches(a, term), a);
  }

  /** An empty search shows the whole day. */
  lemma EmptySearchShowsAll(appointments: seq<Appointment>)
    ensures FilteredAppointments(appointments, "") == appointments
  {
    forall i | 0 <= i < |appointments| ensures Matches(appointments[i], "") {
      Text.IncludesEmpty(appointments[i].patient);
    }
    Seqs.FilterAll(appointments, a => Matches(a, ""));
  }

  /** Searching again within the results changes nothing. */
  lemma SearchIdempotent(appointments: seq<Appointment>, term: string)
    ensures FilteredAppointments(FilteredAppointments(appointments, term), term) ==
      FilteredAppointments(appointments, term)
  {
    Seqs.FilterIdempotent(appointments, a => Matches(a, term));
  }
}

=== FILE: date_utils.dfy ===
/** `dateUtils.calculateAge`, with the current date passed in rather than read
    from the clock. Dates are the calendar fields the computation reads. */
module DateUtils {
  /** A calendar date as `getFullYear`, `getMonth` (0 to 11) and `getDate` report it. */
  datatype Date = Date(year: int, month: int, day: int)

  /** `calculateAge(birthDate)` on `today`: the year difference, one less while
      this year's birthday (month, then day) is still ahead. */
  function CalculateAge(birth: Date, today: Date): (age: int)
    ensures OnOrBefore(Anniversary(birth, age), today)
    ensures !OnOrBefore(Anniversary(birth, age + 1), today)
  {
    var age := today.year - birth.year;
    var monthDiff := today.month - birth.month;
    if monthDiff < 0 || (monthDiff == 0 && today.day < birth.day) then age - 1 else age
  }

  /** Dates in calendar order: by year, then month, then day. */
  predicate OnOrBefore(a: Date, b: Date) {
    a.year < b.year
    || (a.year == b.year && a.month < b.month)
    || (a.year == b.year && a.month == b.month && a.day <= b.day)
  }

  /** The `n`th anniversary of a birth date. */
  function Anniversary(birth: Date, n: int): (d: Date)
    ensures d.month == birth.month && d.day == birth.day
    ensures d.year - birth.year == n
  {
    birth.(year := birth.year + n)
  }

  /** Only one age fits that description. */
  lemma AgeUnique(birth: Date, today: Date, n: int)
    requires OnOrBefore(Anniversary(birth, n), today)
    requires !OnOrBefore(Anniversary(birth, n + 1), today)
    ensures n == CalculateAge(birth, today)
  {
  }

  /** On the birthday itself the new age counts; the day before, it does not. */
  lemma BirthdayCounts(birth: Date, year: int)
    requires birth.day > 1
    ensures CalculateAge(birth, birth.(year := year)) == year - birth.year
    ensures CalculateAge(birth, birth.(year := year, day := birth.day - 1)) == year - birth.year - 1
  {
  }

  /** Ages never go down as time passes. */
  lemma AgeMonotone(birth: Date, d1: Date, d2: Date)
    requires OnOrBefore(d1, d2)
    ensures CalculateAge(birth, d1) <= CalculateAge(birth, d2)
  {
  }
}

=== FILE: deleted_invoices.dfy ===
/** The deleted-invoices screen: a fixed list filtered by a case-insensitive
    search over patient, invoice id and who deleted it. The period selector
    and the row actions only show messages. */
module DeletedInvoices {
  import opened Wrappers
  import Seqs
  import Text

  /** An invoice row; the amount, a decimal in the source, is left out. */
  datatype Invoice = Invoice(
    id: string,
    patientName: string,
    deletedDate: string,
    originalDate: string,
    deletedBy: string,
    reason: string,
    status: string)

  /** The kinds of message the row actions show. */
  datatype Kind = Success | Info | Error

  datatype Message = Message(kind: Kind, text: string)

  datatype Screen = Screen(invoices: seq<Invoice>, searchTerm: string, selectedPeriod: string, message: Option<Message>)

  function Initial(invoices: seq<Invoice>): (s: Screen)
    ensures s.invoices == invoices && s.searchTerm == "" && s.selectedPeriod == "كل الفترات" && s.message == None
  {
    Screen(invoices, "", "كل الفترات", None)
  }

  /** The search rule: the lower-cased term occurs in the lower-cased patient
      name, invoice id or deleting user. */
  predicate Matches(inv: Invoice, term: string) {
    var t := Text.Lower(term);
    || Text.Includes(Text.Lower(inv.patientName), t)
    || Text.Includes(Text.Lower(inv.id), t)
    || Text.Includes(Text.Lower(inv.deletedBy), t)
  }

  /** `filteredInvoices`. */
  function FilteredInvoices(s: Screen): seq<Invoice> {
    Seqs.Filter(s.invoices, inv => Matches(inv, s.searchTerm))
  }

  /** Choosing a period. */
  function SelectPeriod(s: Screen, period: string): (r: Screen)
    ensures r.selectedPeriod == period
    ensures r.invoices == s.invoices && r.searchTerm == s.searchTerm && r.message == s.message
  {
    s.(selectedPeriod := period)
  }

  /** `handleRestoreInvoice(id)`. */
  function RestoreInvoice(s: Screen, id: string): (r: Screen)
    ensures r.invoices == s.invoices && r.searchTerm == s.searchTerm && r.selectedPeriod == s.selectedPeriod
    ensures r.message.Some? && r.message.value.kind == Success
  {
    s.(message := Some(Message(Success, "تم استعادة الفاتورة " + id + " بنجاح")))
  }

  /** `handleViewDetails(id)`. */
  function ViewDetails(s: Screen, id: string): (r: Screen)
    ensures r.invoices == s.invoices && r.searchTerm == s.searchTerm && r.selectedPeriod == s.selectedPeriod
    ensures r.message.Some? && r.message.value.kind == Info
  {
    s.(message := Some(Message(Info, "عرض تفاصيل الفاتورة " + id)))
  }

  /** `handlePermanentDelete(id)`: reports the deletion but removes nothing. */
  function PermanentDelete(s: Screen, id: string): (r: Screen)
    ensures r.invoices == s.invoices && r.searchTerm == s.searchTerm && r.selectedPeriod == s.selectedPeriod
    ensures r.message.Some? && r.message.value.kind == Error
  {
    s.(message := Some(Message(Error, "تم حذف الفاتورة " + id + " نهائياً")))
  }

  // ---- Properties ----

  /** The shown invoices are the matching ones, in list order. */
  lemma FilteredIsMatchingSubseq(s: Screen, inv: Invoice)
    ensures Seqs.IsSubseq(FilteredInvoices(s), s.invoices)
    ensures inv in FilteredInvoices(s) <==> inv in s.invoices && Matches(inv, s.searchTerm)
    ensures multiset(FilteredInvoices(s))[inv] == if Matches(inv, s.searchTerm) then multiset(s.invoices)[inv] else 0
  {
    Seqs.FilterMultiplicity(s.invoices, inv => Matches(inv, s.searchTerm), inv);
    Seqs.FilterIsSubseq(s.invoices, inv => Matches(inv, s.searchTerm));
    Seqs.FilterMembership(s.invoices, inv => Matches(inv, s.searchTerm), inv);
  }

  /** An empty search shows every invoice. */
  lemma EmptySearchShowsAll(s: Screen)
    requires s.searchTerm == ""
    ensures FilteredInvoices(s) == s.invoices
  {
    assert Text.Lower("") == "";
    forall i | 0 <= i < |s.invoices| ensures Matches(s.invoices[i], s.searchTerm) {
      Text.IncludesEmpty(Text.Lower(s.invoices[i].patientName));
    }
    Seqs.FilterAll(s.invoices, inv => Matches(inv, s.searchTerm));
  }

  /** Upper and lower case in the search term select the same invoices. */
  lemma SearchIgnoresCase(s: Screen)
    ensures FilteredInvoices(s.(searchTerm := Text.Upper(s.searchTerm))) == FilteredInvoices(s)
  {
    assert Text.Lower(Text.Upper(s.searchTerm)) == Text.Lower(s.searchTerm);
    Seqs.FilterSameTest(s.invoices, inv => Matches(inv, Text.Upper(s.searchTerm)), inv => Matches(inv, s.searchTerm));
  }

  /** No action on the screen changes what is listed: not the period, and
      not restore, view or permanent delete. */
  lemma ActionsKeepListing(s: Screen, period: string, id: string)
    ensures FilteredInvoices(SelectPeriod(s, period)) == FilteredInvoices(s)
    ensures FilteredInvoices(RestoreInvoice(s, id)) == FilteredInvoices(s)
    ensures FilteredInvoices(ViewDetails(s, id)) == FilteredInvoices(s)
    ensures FilteredInvoices(PermanentDelete(s, id)) == FilteredInvoices(s)
  {
  }
}

=== FILE: discounts.dfy ===
/** The discounts screen: a list of discounts and an edit form. Saving either
    replaces the entries with the form's id or, for a form without an id,
    appends it under a new id taken from the clock, which is passed in. */
module Discounts {
  import opened Wrappers
  import Seqs
  import Text
  import DateUtils

  datatype Discount = Discount(
    id: string,
    totalPrice: string,
    sessionsCount: string,
    discountClients: bool,
    discountDate: Option<DateUtils.Date>,
    discountPercentage: string,
    discountStartTime: string,
    discountEndTime: string)

  /** The form contents after add, save and reset. */
  const Empty: Discount := Discount("", "", "", false, None, "", "", "")

  /** A toast: title and description. */
  datatype Notice = Notice(title: string, description: string)

  datatype Page = Page(discounts: seq<Discount>, current: Discount, isEditing: bool, notice: Option<Notice>)

  const Initial: Page := Page([], Empty, false, None)

  /** The text fields of the form. */
  datatype TextField = Id | TotalPrice | SessionsCount | Percentage | StartTime | EndTime

  /** What `handleDiscountInputChange(field, value)` receives. */
  datatype Input = Text(field: TextField, value: string) | Clients(flag: bool) | Day(date: Option<DateUtils.Date>)

  /** `handleDiscountInputChange`: the named field takes the value. */
  function InputChange(p: Page, input: Input): (r: Page)
    ensures r.discounts == p.discounts && r.isEditing == p.isEditing && r.notice == p.notice
    ensures input.Clients? ==> r.current == p.current.(discountClients := input.flag)
    ensures input.Day? ==> r.current == p.current.(discountDate := input.date)
    ensures input.Text? && input.field == Id ==> r.current == p.current.(id := input.value)
    ensures input.Text? && input.field == TotalPrice ==> r.current == p.current.(totalPrice := input.value)
    ensures input.Text? && input.field == SessionsCount ==> r.current == p.current.(sessionsCount := input.value)
    ensures input.Text? && input.field == Percentage ==> r.current == p.current.(discountPercentage := input.value)
    ensures input.Text? && input.field == StartTime ==> r.current == p.current.(discountStartTime := input.value)
    ensures input.Text? && input.field == EndTime ==> r.current == p.current.(discountEndTime := input.value)
  {
    var d := p.current;
    var next := match input
      case Clients(b) => d.(discountClients := b)
      case Day(date) => d.(discountDate := date)
      case Text(f, v) =>
        match f
        case Id => d.(id := v)
        case TotalPrice => d.(totalPrice := v)
        case SessionsCount => d.(sessionsCount := v)
        case Percentage => d.(discountPercentage := v)
        case StartTime => d.(discountStartTime := v)
        case EndTime => d.(discountEndTime := v);
    p.(current := next)
  }

  /** `handleAddDiscount`: an empty form, in editing mode. */
  function AddDiscount(p: Page): (r: Page)
    ensures r.discounts == p.discounts && r.current == Empty && r.isEditing
  {
    p.(isEditing := true, current := Empty)
  }

  /** The id a new discount receives: `Date.now().toString()`. */
  function NewId(now: nat): (id: string)
    ensures id != [] && forall i :: 0 <= i < |id| ==> Text.IsDigit(id[i])
  {
    Text.DecimalString(now)
  }

  /** The entry with the form's id becomes the form; the others stay. */
  function Replace(ds: seq<Discount>, d: Discount): (r: seq<Discount>)
    ensures |r| == |ds|
    ensures forall i :: 0 <= i < |ds| ==> r[i] == if ds[i].id == d.id then d else ds[i]
  {
    seq(|ds|, i requires 0 <= i < |ds| => if ds[i].id == d.id then d else ds[i])
  }

  /** `handleSaveDiscount` at clock reading `now`. */
  function SaveDiscount(p: Page, now: nat): (r: Page)
    ensures p.current.id != [] ==>
      && |r.discounts| == |p.discounts|
      && forall i :: 0 <= i < |p.discounts| ==>
           r.discounts[i] == if p.discounts[i].id == p.current.id then p.current else p.discounts[i]
    ensures p.current.id == [] ==>
      r.discounts == p.discounts + [p.current.(id := NewId(now))]
    ensures r.current == Empty && !r.isEditing
    ensures r.notice == Some(Notice("تم حفظ التخفيض", "تم حفظ بيانات التخفيض بنجاح"))
  {
    var ds := if p.current.id != [] then Replace(p.discounts, p.current)
              else p.discounts + [p.current.(id := NewId(now))];
    Page(ds, Empty, false, Some(Notice("تم حفظ التخفيض", "تم حفظ بيانات التخفيض بنجاح")))
  }

  /** `handleEditDiscount(discount)`: the form holds the discount, in editing mode. */
  function EditDiscount(p: Page, d: Discount): (r: Page)
    ensures r.discounts == p.discounts && r.current == d && r.isEditing
  {
    p.(current := d, isEditing := true)
  }

  /** `handleDeleteDiscount(id)`: every entry with the id goes, every other
      entry stays as many times as it was listed, and the form stays. */
  function DeleteDiscount(p: Page, id: string): (r: Page)
    ensures forall d :: d in r.discounts <==> d in p.discounts && d.id != id
    ensures forall d :: multiset(r.discounts)[d] == if d.id != id then multiset(p.discounts)[d] else 0
    ensures r.current == p.current && r.isEditing == p.isEditing
    ensures r.notice == Some(Notice("تم حذف التخفيض", "تم حذف التخفيض بنجاح"))
  {
    var ds := Seqs.Filter(p.discounts, (d: Discount) => d.id != id);
    assert forall d :: d in ds <==> d in p.discounts && d.id != id by {
      forall d ensures d in ds <==> d in p.discounts && d.id != id {
        Seqs.FilterMembership(p.discounts, (d: Discount) => d.id != id, d);
      }
    }
    assert forall d :: multiset(ds)[d] == if d.id != id then multiset(p.discounts)[d] else 0 by {
      forall d ensures multiset(ds)[d] == if d.id != id then multiset(p.discounts)[d] else 0 {
        Seqs.FilterMultiplicity(p.discounts, (d: Discount) => d.id != id, d);
      }
    }
    p.(discounts := ds, notice := Some(Notice("تم حذف التخفيض", "تم حذف التخفيض بنجاح")))
  }

  /** The form's delete button: deletes the form's id, and does nothing for an unsaved form. */
  function FormDelete(p: Page): (r: Page)
    ensures p.current.id == [] ==> r == p
    ensures p.current.id != [] ==> r == DeleteDiscount(p, p.current.id)
  {
    if p.current.id != [] then DeleteDiscount(p, p.current.id) else p
  }

  /** `handleResetDiscount`: an empty form, out of editing mode, list untouched. */
  function ResetDiscount(p: Page): (r: Page)
    ensures r.discounts == p.discounts && r.current == Empty && !r.isEditing
    ensures r.notice == Some(Notice("تم مسح البيانات", "تم مسح جميع البيانات من النموذج"))
  {
    Page(p.discounts, Empty, false, Some(Notice("تم مسح البيانات", "تم مسح جميع البيانات من النموذج")))
  }

  /** The inputs typed into the form one after another. */
  function TypeAll(p: Page, inputs: seq<Input>): Page
    decreases |inputs|
  {
    if |inputs| == 0 then p else TypeAll(InputChange(p, inputs[0]), inputs[1..])
  }

  /** The form field an input writes. */
  function Target(input: Input): Option<TextField> {
    match input
    case Text(f, _) => Some(f)
    case _ => None
  }

  // ---- Properties ----

  /** Typing into a field twice keeps only the last value. */
  lemma InputChangeLastWins(p: Page, a: Input, b: Input)
    ensures a.Text? && b.Text? && a.field == b.field ==> InputChange(InputChange(p, a), b) == InputChange(p, b)
    ensures a.Clients? && b.Clients? ==> InputChange(InputChange(p, a), b) == InputChange(p, b)
    ensures a.Day? && b.Day? ==> InputChange(InputChange(p, a), b) == InputChange(p, b)
  {
  }

  /** Edits of two different text fields commute. */
  lemma InputChangeCommutes(p: Page, f: TextField, g: TextField, u: string, v: string)
    requires f != g
    ensures InputChange(InputChange(p, Text(f, u)), Text(g, v)) == InputChange(InputChange(p, Text(g, v)), Text(f, u))
  {
    match f
    case Id => {}
    case TotalPrice => {}
    case SessionsCount => {}
    case Percentage => {}
    case StartTime => {}
    case EndTime => {}
  }

  /** Resetting twice is resetting once, and a reset discards whatever was typed. */
  lemma ResetDiscardsTyping(p: Page, inputs: seq<Input>)
    ensures ResetDiscount(ResetDiscount(p)) == ResetDiscount(p)
    ensures ResetDiscount(TypeAll(p, inputs)) == ResetDiscount(p)
  {
    TypeAllKeepsList(p, inputs);
  }

  /** Typing never changes the list, the mode or the notice. */
  lemma {:induction false} TypeAllKeepsList(p: Page, inputs: seq<Input>)
    ensures TypeAll(p, inputs).discounts == p.discounts
    ensures TypeAll(p, inputs).isEditing == p.isEditing
    ensures TypeAll(p, inputs).notice == p.notice
    decreases |inputs|
  {
    if |inputs| > 0 {
      TypeAllKeepsList(InputChange(p, inputs[0]), inputs[1..]);
    }
  }

  /** Typing that never touches the id field leaves the id as it was. */
  lemma {:induction false} TypeAllKeepsId(p: Page, inputs: seq<Input>)
    requires forall i :: 0 <= i < |inputs| ==> Target(inputs[i]) != Some(Id)
    ensures TypeAll(p, inputs).current.id == p.current.id
    decreases |inputs|
  {
    if |inputs| > 0 {
      TypeAllKeepsId(InputChange(p, inputs[0]), inputs[1..]);
    }
  }

  /** Adding, filling in the form without touching the id and saving appends
      exactly the typed form, under the clock's id, and clears the form. */
  lemma AddTypeSave(p: Page, inputs: seq<Input>, now: nat)
    requires forall i :: 0 <= i < |inputs| ==> Target(inputs[i]) != Some(Id)
    ensures SaveDiscount(TypeAll(AddDiscount(p), inputs), now).discounts ==
      p.discounts + [TypeAll(AddDiscount(p), inputs).current.(id := NewId(now))]
    ensures SaveDiscount(TypeAll(AddDiscount(p), inputs), now).current == Empty
  {
    TypeAllKeepsId(AddDiscount(p), inputs);
    TypeAllKeepsList(AddDiscount(p), inputs);
  }


  /** Deleting keeps the other entries in their order. */
  lemma DeleteKeepsOrder(p: Page, id: string)
    ensures Seqs.IsSubseq(DeleteDiscount(p, id).discounts, p.discounts)
    ensures forall i :: 0 <= i < |DeleteDiscount(p, id).discounts| ==> DeleteDiscount(p, id).discounts[i].id != id
    ensures forall d :: multiset(DeleteDiscount(p, id).discounts)[d] == if d.id != id then multiset(p.discounts)[d] else 0
  {
    Seqs.FilterIsSubseq(p.discounts, (d: Discount) => d.id != id);
  }

  /** Saving an edit whose id no entry has leaves the list as it was. */
  lemma SaveUnknownIdKeepsList(p: Page, now: nat)
    requires p.current.id != []
    requires forall i :: 0 <= i < |p.discounts| ==> p.discounts[i].id != p.current.id
    ensures SaveDiscount(p, now).discounts == p.discounts
  {
  }

  /** Deleting an id no entry has leaves the list as it was. */
  lemma DeleteUnknownIdKeepsList(p: Page, id: string)
    requires forall i :: 0 <= i < |p.discounts| ==> p.discounts[i].id != id
    ensures DeleteDiscount(p, id).discounts == p.discounts
  {
    Seqs.FilterAll(p.discounts, (d: Discount) => d.id != id);
  }

  /** Adding a discount under an id nobody has and deleting that id restores the list. */
  lemma {:induction false} AddThenDeleteRestores(p: Page, now: nat)
    requires p.current.id == []
    requires forall i :: 0 <= i < |p.discounts| ==> p.discounts[i].id != NewId(now)
    ensures DeleteDiscount(SaveDiscount(p, now), NewId(now)).discounts == p.discounts
  {
    var keep := (d: Discount) => d.id != NewId(now);
    var added := p.current.(id := NewId(now));
    Seqs.FilterConcat(p.discounts, [added], keep);
    Seqs.FilterAll(p.discounts, keep);
    assert Seqs.Filter([added], keep) == [];
  }

  /** Editing an entry and saving it unchanged leaves the list as it was when
      the entry's id is not shared. */
  lemma EditSaveKeepsList(p: Page, d: Discount, now: nat)
    requires d in p.discounts && d.id != []
    requires forall i :: 0 <= i < |p.discounts| ==> p.discounts[i].id == d.id ==> p.discounts[i] == d
    ensures SaveDiscount(EditDiscount(p, d), now).discounts == p.discounts
  {
  }

  /** Deleting from the form does not clear it: a later save of the same form
      then edits nothing and the deleted discount is not restored. */
  lemma FormDeleteThenSave(p: Page, now: nat)
    requires p.current.id != []
    ensures FormDelete(p).current == p.current
    ensures SaveDiscount(FormDelete(p), now).discounts == FormDelete(p).discounts
    ensures p.current !in SaveDiscount(FormDelete(p), now).discounts
  {
    var q := FormDelete(p);
    assert forall i :: 0 <= i < |q.discounts| ==> q.discounts[i] in q.discounts;
  }
}

=== FILE: file_utils.dfy ===
/** `fileUtils`: the extension of a file name and whether it names an image. */
module FileUtils {
  import Text

  /** `s.lastIndexOf(c)`: the last position holding `c`, or -1. */
  function LastIndexOf(s: string, c: char): (r: int)
    ensures -1 <= r < |s|
    ensures r == -1 <==> c !in s
    ensures r >= 0 ==> s[r] == c && c !in s[r + 1..]
  {
    if |s| == 0 then -1
    else if s[|s| - 1] == c then |s| - 1
    else
      var r := LastIndexOf(s[..|s| - 1], c);
      assert s == s[..|s| - 1] + [s[|s| - 1]];
      r
  }

  /** `n >>> 0`: the integer reduced to an unsigned 32-bit value. */
  function ToUint32(n: int): (r: nat)
    ensures r < 0x1_0000_0000
    ensures 0 <= n < 0x1_0000_0000 ==> r == n
    ensures -0x1_0000_0000 <= n < 0 ==> r == n + 0x1_0000_0000
  {
    n % 0x1_0000_0000
  }

  /** Script engines cap string lengths well below 2^32 characters. */
  const MaxLength: nat := 0x1_0000_0000

  /** `getFileExtension(filename)`: the slice after `(lastIndexOf('.') - 1 >>> 0) + 2`.
      The unsigned shift sends -2 (no dot) and -1 (dot at the start) above
      any realistic length, so those names have no extension. */
  function GetFileExtension(filename: string): (r: string)
    ensures |filename| <= MaxLength && LastIndexOf(filename, '.') >= 1 ==>
      r == filename[LastIndexOf(filename, '.') + 1..]
    ensures |filename| <= MaxLength && LastIndexOf(filename, '.') < 1 ==> r == []
    ensures |filename| <= MaxLength ==> '.' !in r
  {
    var i := LastIndexOf(filename, '.');
    var start := ToUint32(i - 1) + 2;
    assert |filename| <= MaxLength && i >= 1 ==> start == i + 1;
    assert i < 1 ==> start >= MaxLength;
    Text.SliceFrom(filename, start)
  }

  /** The extensions `isImage` recognises. */
  const ImageExtensions: seq<string> := ["jpg", "jpeg", "png", "gif", "bmp", "webp", "svg"]

  /** `isImage(filename)`: the lower-cased extension is one of the image extensions. */
  predicate IsImage(filename: string) {
    Text.Lower(GetFileExtension(filename)) in ImageExtensions
  }

  // ---- Properties ----

  /** The extension appended after a dot to a non-empty base name is read back. */
  lemma ExtensionRoundTrip(base: string, ext: string)
    requires base != [] && '.' !in ext && |base| + 1 + |ext| <= MaxLength
    ensures GetFileExtension(base + "." + ext) == ext
    ensures IsImage(base + "." + ext) <==> Text.Lower(ext) in ImageExtensions
  {
    var s := base + "." + ext;
    var i := |base|;
    assert s[i] == '.';
    assert s[i + 1..] == ext;
    assert forall k :: i < k < |s| ==> s[k] == ext[k - i - 1];
  }

  /** A name without a dot, or whose only dot starts it, has no extension. */
  lemma NoExtension(filename: string)
    requires |filename| <= MaxLength
    requires '.' !in filename || ('.' !in filename[1..] && filename[0] == '.')
    ensures GetFileExtension(filename) == []
    ensures !IsImage(filename)
  {
    assert Text.Lower([]) == [];
    if '.' in filename {
      assert forall k :: 1 <= k < |filename| ==> filename[k] == filename[1..][k - 1];
    }
  }

  /** An upper-case extension counts. */
  lemma UpperCaseImage(photo: string)
    requires photo == "Photo.JPG"
    ensures IsImage(photo)
  {
    ExtensionRoundTrip("Photo", "JPG");
    assert photo == "Photo" + "." + "JPG";
    assert Text.Lower("JPG") == "jpg";
  }

  /** A hidden file named after an extension is not an image. */
  lemma HiddenFileNotImage(hidden: string)
    requires hidden == ".png"
    ensures !IsImage(hidden)
  {
    NoExtension(hidden);
  }

  /** Only the last extension of a compound one is read. */
  lemma CompoundExtension(archive: string)
    requires archive == "archive.tar.gz"
    ensures GetFileExtension(archive) == "gz"
    ensures !IsImage(archive)
  {
    ExtensionRoundTrip("archive.tar", "gz");
    assert archive == "archive.tar" + "." + "gz";
    assert Text.Lower("gz") == "gz";
  }
}

=== FILE: i18n.dfy ===
/** The translation catalog (`I18nManager`): the current language, its table,
    the persisted language preference, the document's `dir`/`lang`
    attributes, and the `languageChanged` notifications sent so far. */
module I18n {
  import opened Wrappers
  import Text
  import opened TranslationTree
  import Translations

  datatype Direction = Ltr | Rtl

  /** A language descriptor: code, display name, text direction. */
  datatype Language = Language(code: string, name: string, direction: Direction)

  /** `LANGUAGES`: Arabic (right to left) and English (left to right). */
  const Languages: seq<Language> := [
    Language("ar", "العربية", Rtl),
    Language("en", "English", Ltr)
  ]

  /** `APP_CONFIG.DEFAULT_LANGUAGE`. */
  const DefaultLanguage: string := "ar"

  /** The value written to the document's `dir` attribute. */
  function DirName(d: Direction): string {
    match d
    case Ltr => "ltr"
    case Rtl => "rtl"
  }

  /** `LANGUAGES.find(lang => lang.code === code)`. */
  function FindLanguage(code: string): (r: Option<Language>)
    ensures r.Some? <==> code == "ar" || code == "en"
    ensures r.Some? ==> r.value in Languages && r.value.code == code
  {
    if code == Languages[0].code then Some(Languages[0])
    else if code == Languages[1].code then Some(Languages[1])
    else None
  }

  /** `translations[code]`: a table exists for Arabic and English only. */
  function TableFor(code: string): Option<Node> {
    if code == "ar" then Some(Translations.ArTable())
    else if code == "en" then Some(Translations.EnTable())
    else None
  }

  /** The `dir` and `lang` attributes of the document element. */
  datatype Document = Document(dir: string, lang: string)

  datatype Catalog = Catalog(
    current: string,
    table: Option<Node>,
    savedLanguage: Option<string>,
    document: Document,
    events: seq<string>)

  /** `updateDocumentDirection`: only a described language touches the document. */
  function UpdateDocument(code: string, doc: Document): (r: Document)
    ensures FindLanguage(code).Some? ==> r == Document(DirName(FindLanguage(code).value.direction), code)
    ensures FindLanguage(code).None? ==> r == doc
  {
    match FindLanguage(code)
    case Some(l) => Document(DirName(l.direction), l.code)
    case None => doc
  }

  /** What every reachable catalog satisfies: the table is the one registered
      for the current code, and a described language is reflected in the document. */
  predicate Consistent(c: Catalog) {
    && c.table == TableFor(c.current)
    && (FindLanguage(c.current).Some? ==>
          c.document == Document(DirName(FindLanguage(c.current).value.direction), c.current))
  }

  /** The constructor: the saved language if there is a non-empty one, the
      default otherwise; the direction is applied at once. */
  function Init(saved: Option<string>, doc: Document): (c: Catalog)
    ensures saved.Some? && saved.value != [] ==> c.current == saved.value
    ensures saved.None? || saved.value == [] ==> c.current == DefaultLanguage
    ensures c.savedLanguage == saved && c.events == []
    ensures Consistent(c)
    ensures FindLanguage(c.current).None? ==> c.document == doc
  {
    var code := if saved.Some? && saved.value != [] then saved.value else DefaultLanguage;
    Catalog(code, TableFor(code), saved, UpdateDocument(code, doc), [])
  }

  /** `changeLanguage(code)`. */
  function ChangeLanguage(c: Catalog, code: string): (r: Catalog)
    ensures TableFor(code).None? ==> r == c
    ensures TableFor(code).Some? ==>
      && r.current == code
      && r.table == TableFor(code)
      && r.savedLanguage == Some(code)
      && r.events == c.events + [code]
    ensures Consistent(c) ==> Consistent(r)
  {
    if TableFor(code).Some? then
      Catalog(code, TableFor(code), Some(code), UpdateDocument(code, c.document), c.events + [code])
    else
      c
  }

  /** `translate(keyPath)` against the current table: the string the path
      reaches, or the key path itself; always the key path when the current
      code has no table. */
  function T(c: Catalog, keyPath: string): (r: string)
    ensures Resolves(c.table, keyPath) ==> Walk(c.table, Text.Split(keyPath, Dot)) == Some(Leaf(r))
    ensures !Resolves(c.table, keyPath) ==> r == keyPath
  {
    Translate(c.table, keyPath)
  }

  /** `isRTL()`: the current language is described as right to left. */
  function IsRTL(c: Catalog): (b: bool)
    ensures b <==> c.current == "ar"
  {
    var l := FindLanguage(c.current);
    l.Some? && l.value.direction == Rtl
  }

  /** `getCurrentLanguageInfo()`. */
  function CurrentLanguageInfo(c: Catalog): (r: Option<Language>)
    ensures r.Some? <==> c.current == "ar" || c.current == "en"
    ensures r.Some? ==> r.value.code == c.current && r.value in Languages
  {
    FindLanguage(c.current)
  }

  /** After a switch to a language with a table, the language info is that
      language's descriptor; an unknown code leaves it as it was. */
  lemma CurrentInfoAfterChange(c: Catalog, code: string)
    ensures TableFor(code).Some? ==> CurrentLanguageInfo(ChangeLanguage(c, code)) == FindLanguage(code)
    ensures TableFor(code).None? ==> CurrentLanguageInfo(ChangeLanguage(c, code)) == CurrentLanguageInfo(c)
    ensures TableFor(code).Some? <==> FindLanguage(code).Some?
  {
  }

  /** The right-to-left languages are exactly Arabic. */
  lemma IsRTLIffArabic(c: Catalog)
    ensures IsRTL(c) <==> c.current == "ar"
  {
  }

  /** In a consistent catalog the document direction agrees with `isRTL`. */
  lemma DocumentFollowsIsRTL(c: Catalog)
    requires Consistent(c) && TableFor(c.current).Some?
    ensures c.document.dir == (if IsRTL(c) then "rtl" else "ltr")
    ensures c.document.lang == c.current
  {
  }

  /** The parts of the catalog one can observe besides the notification log. */
  function Observable(c: Catalog): (string, Option<Node>, Option<string>, Document) {
    (c.current, c.table, c.savedLanguage, c.document)
  }

  /** Switching to the same language twice looks like switching once, apart
      from a second, redundant notification. */
  lemma ChangeLanguageIdempotent(c: Catalog, code: string)
    ensures Observable(ChangeLanguage(ChangeLanguage(c, code), code)) == Observable(ChangeLanguage(c, code))
    ensures TableFor(code).Some? ==>
      ChangeLanguage(ChangeLanguage(c, code), code).events == c.events + [code, code]
  {
  }

  /** An unknown saved preference is kept as the current code although no
      table exists for it: every key path then translates to itself, the
      catalog is not right to left, and the document is left alone. */
  lemma UnknownSavedLanguage(saved: string, doc: Document, keyPath: string)
    requires saved != [] && saved != "ar" && saved != "en"
    ensures Init(Some(saved), doc).current == saved
    ensures T(Init(Some(saved), doc), keyPath) == keyPath
    ensures !IsRTL(Init(Some(saved), doc))
    ensures Init(Some(saved), doc).document == doc
  {
    TranslateMissing(None, keyPath, 0);
  }

  // ---- The shipped tables ----

  /** Each group of both tables has exactly one string per key of the schema. */
  lemma TablesFit()
    ensures Fits(Translations.Schema, Translations.ArTexts)
    ensures Fits(Translations.Schema, Translations.EnTexts)
  {
  }

  /** Both tables have the shape of the `TranslationKeys` type. */
  lemma TablesSameShape()
    ensures Shape(Translations.ArTable()) == Shape(Translations.EnTable())
  {
    BuildSameShape(Translations.Schema, Translations.ArTexts, Translations.EnTexts);
  }

  /** A key path that asks no key of a string resolves in one registered
      table exactly when it resolves in the other, so switching languages
      never changes which keys are found; every path of at most two segments,
      `group` or `group.key`, is such a path. */
  lemma SwitchKeepsResolvedKeys(c: Catalog, code: string, keyPath: string)
    requires Consistent(c) && TableFor(c.current).Some? && TableFor(code).Some?
    requires TablesOnly(c.table, Text.Split(keyPath, Dot)) || |Text.Split(keyPath, Dot)| <= 2
    ensures Resolves(ChangeLanguage(c, code).table, keyPath) <==> Resolves(c.table, keyPath)
  {
    var path := Text.Split(keyPath, Dot);
    TableIsBuilt(c);
    TableIsBuilt(ChangeLanguage(c, code));
    var t1 := TextsFor(c.current);
    var t2 := TextsFor(code);
    if |path| <= 2 {
      BuiltShortPaths(Translations.Schema, t1, path);
    }
    BuildSameShape(Translations.Schema, t1, t2);
    SameShapeSameKeys(Build(Translations.Schema, t1), Build(Translations.Schema, t2), keyPath);
  }

  /** Key `j` of group `i` of the schema, as a dotted key path. */
  function KeyPath(i: nat, j: nat): string
    requires i < |Translations.Schema| && j < |Translations.Schema[i].keys|
  {
    Text.Join([Translations.Schema[i].name, Translations.Schema[i].keys[j]], Dot)
  }

  /** The column of strings a registered language's table is built from. */
  function TextsFor(code: string): seq<seq<string>> {
    if code == "ar" then Translations.ArTexts else Translations.EnTexts
  }

  /** A consistent catalog with a table holds the table built from its language's column. */
  lemma TableIsBuilt(c: Catalog)
    requires Consistent(c) && TableFor(c.current).Some?
    ensures c.table == Some(Build(Translations.Schema, TextsFor(c.current)))
  {
  }

  /** In any table built from the schema, `group.key` reaches the key's string. */
  lemma BuiltKeyTranslates(texts: seq<seq<string>>, i: nat, j: nat)
    requires i < |Translations.Schema| && j < |Translations.Schema[i].keys|
    requires forall i' :: 0 <= i' < i ==> Translations.Schema[i'].name != Translations.Schema[i].name
    requires forall j' :: 0 <= j' < j ==> Translations.Schema[i].keys[j'] != Translations.Schema[i].keys[j]
    requires Dot !in Translations.Schema[i].name && Dot !in Translations.Schema[i].keys[j]
    ensures Translate(Some(Build(Translations.Schema, texts)), KeyPath(i, j)) == TextAt(texts, i, j)
  {
    var segments := [Translations.Schema[i].name, Translations.Schema[i].keys[j]];
    WalkBuilt(Translations.Schema, texts, i, j);
    TranslateFound(Some(Build(Translations.Schema, texts)), segments, TextAt(texts, i, j));
  }

  /** Translating `group.key`, for the first group and key of those names,
      gives the string in that position of the current table. */
  lemma TranslateSchemaKey(c: Catalog, i: nat, j: nat)
    requires Consistent(c) && TableFor(c.current).Some?
    requires i < |Translations.Schema| && j < |Translations.Schema[i].keys|
    requires forall i' :: 0 <= i' < i ==> Translations.Schema[i'].name != Translations.Schema[i].name
    requires forall j' :: 0 <= j' < j ==> Translations.Schema[i].keys[j'] != Translations.Schema[i].keys[j]
    requires Dot !in Translations.Schema[i].name && Dot !in Translations.Schema[i].keys[j]
    ensures c.current == "ar" ==> T(c, KeyPath(i, j)) == Translations.ArTexts[i][j]
    ensures c.current == "en" ==> T(c, KeyPath(i, j)) == Translations.EnTexts[i][j]
  {
    TablesFit();
    TableIsBuilt(c);
    BuiltKeyTranslates(TextsFor(c.current), i, j);
  }

  /** `auth.loginSuccess` in both languages, after switching to each. */
  lemma LoginSuccessExample(c: Catalog)
    requires Consistent(c)
    ensures T(ChangeLanguage(c, "ar"), "auth.loginSuccess") == "تم تسجيل الدخول بنجاح"
    ensures T(ChangeLanguage(c, "en"), "auth.loginSuccess") == "Login successful"
  {
    LoginSuccessKey(ChangeLanguage(c, "ar"));
    LoginSuccessKey(ChangeLanguage(c, "en"));
    LoginSuccessArabic();
    LoginSuccessEnglish();
  }

  /** Key 8 of group 1 is `auth.loginSuccess`. */
  lemma LoginSuccessPath()
    ensures KeyPath(1, 8) == "auth.loginSuccess"
  {
    assert Translations.Schema[1] == Group("auth", Translations.AuthKeys);
    assert Translations.AuthKeys[8] == "loginSuccess";
    assert Text.Join(["auth", "loginSuccess"], Dot) == "auth" + "." + "loginSuccess";
  }

  /** In a consistent catalog with a table, `auth.loginSuccess` reaches the
      string in position 8 of group 1 of its language's column. */
  lemma LoginSuccessKey(c: Catalog)
    requires Consistent(c) && TableFor(c.current).Some?
    ensures T(c, "auth.loginSuccess") == TextAt(TextsFor(c.current), 1, 8)
  {
    TableIsBuilt(c);
    BuiltLoginSuccess(TextsFor(c.current));
  }

  /** In any table built from the schema, `auth.loginSuccess` reaches the
      string in position 8 of group 1. */
  lemma BuiltLoginSuccess(texts: seq<seq<string>>)
    ensures Translate(Some(Build(Translations.Schema, texts)), "auth.loginSuccess") == TextAt(texts, 1, 8)
  {
    LoginSuccessPath();
    BuiltKeyTranslates(texts, 1, 8);
  }

  /** The Arabic string for `auth.loginSuccess`. */
  lemma LoginSuccessArabic()
    ensures TextAt(TextsFor("ar"), 1, 8) == "تم تسجيل الدخول بنجاح"
  {
  }

  /** The English string for `auth.loginSuccess`. */
  lemma LoginSuccessEnglish()
    ensures TextAt(TextsFor("en"), 1, 8) == "Login successful"
  {
  }

  /** In any table built from the schema, the group path `auth` comes back unchanged. */
  lemma BuiltGroupPath(texts: seq<seq<string>>)
    ensures Translate(Some(Build(Translations.Schema, texts)), "auth") == "auth"
  {
    var top := Build(Translations.Schema, texts);
    LookupFirst(top.entries, "auth", 1);
    assert Text.Join(["auth"], Dot) == "auth";
    TranslateSubTable(Some(top), ["auth"], Lookup(top.entries, "auth").value.entries);
  }

  /** A path that stops at a group, such as `auth`, comes back unchanged. */
  lemma GroupPathExample(c: Catalog)
    requires Consistent(c) && TableFor(c.current).Some?
    ensures T(c, "auth") == "auth"
  {
    TableIsBuilt(c);
    BuiltGroupPath(TextsFor(c.current));
  }

  /** In any table built from the schema, the path `nosuch.key` comes back unchanged. */
  lemma BuiltMissingGroup(texts: seq<seq<string>>)
    ensures Translate(Some(Build(Translations.Schema, texts)), "nosuch.key") == "nosuch.key"
  {
    var segments := ["nosuch", "key"];
    var keyPath := Text.Join(segments, Dot);
    Text.SplitJoin(segments, Dot);
    assert segments[..1] == ["nosuch"];
    LookupBuiltMissing(Translations.Schema, texts, "nosuch");
    TranslateMissing(Some(Build(Translations.Schema, texts)), keyPath, 1);
    assert keyPath == "nosuch.key";
  }

  /** A path with a missing group, such as `nosuch.key`, comes back unchanged. */
  lemma MissingGroupExample(c: Catalog)
    requires Consistent(c) && TableFor(c.current).Some?
    ensures T(c, "nosuch.key") == "nosuch.key"
  {
    TableIsBuilt(c);
    BuiltMissingGroup(TextsFor(c.current));
  }
}

=== FILE: patient_files.dfy ===
/** The patient-files screen: a registration form held as field name to
    text, and a search box that filters the patient list. */
module PatientFiles {
  import opened Wrappers
  import Seqs
  import Text
  import DateUtils

  datatype Gender = Male | Female
  datatype MaritalStatus = Married | Single
  datatype Status = Active | Inactive

  datatype Patient = Patient(
    id: string,
    fileNumber: string,
    name: string,
    nationalId: string,
    phone: string,
    age: int,
    gender: Gender,
    maritalStatus: MaritalStatus,
    address: string,
    job: string,
    workAddress: string,
    email: string,
    contactPersonName: string,
    contactPersonPhone: string,
    registrationDate: string,
    status: Status)

  /** The form's fields, all text. */
  const FormFields: seq<string> := [
    "fileNumber", "name", "nationalId", "phone", "age", "gender", "maritalStatus",
    "address", "job", "workAddress", "email", "contactPersonName", "contactPersonPhone"]

  /** `formData`: field name to entered text. */
  type Form = map<string, string>

  /** Every form field present and empty. */
  function EmptyForm(): (f: Form)
    ensures forall k :: k in f <==> k in FormFields
    ensures forall k :: k in f ==> f[k] == ""
  {
    map k | k in FormFields :: ""
  }

  datatype Screen = Screen(form: Form, selectedDate: Option<DateUtils.Date>, searchTerm: string, patients: seq<Patient>)

  function Initial(patients: seq<Patient>): (s: Screen)
    ensures s.form == EmptyForm() && s.selectedDate == None && s.searchTerm == "" && s.patients == patients
  {
    Screen(EmptyForm(), None, "", patients)
  }

  /** `handleInputChange(field, value)`: the field takes the value; every other field keeps its own. */
  function InputChange(s: Screen, field: string, value: string): (r: Screen)
    ensures field in r.form && r.form[field] == value
    ensures forall k :: k != field ==> (k in r.form <==> k in s.form)
    ensures forall k :: k != field && k in s.form ==> r.form[k] == s.form[k]
    ensures r.selectedDate == s.selectedDate && r.searchTerm == s.searchTerm && r.patients == s.patients
  {
    s.(form := s.form[field := value])
  }

  /** `clearForm`: every field empty and no date chosen. */
  function ClearForm(s: Screen): (r: Screen)
    ensures forall k :: k in FormFields ==> k in r.form && r.form[k] == ""
    ensures r.selectedDate == None
    ensures r.searchTerm == s.searchTerm && r.patients == s.patients
  {
    s.(form := EmptyForm(), selectedDate := None)
  }

  /** The search rule: the name ignoring case, or the file number, phone or
      national id exactly as typed, contains the term. */
  predicate Matches(p: Patient, term: string) {
    || Text.Includes(Text.Lower(p.name), Text.Lower(term))
    || Text.Includes(p.fileNumber, term)
    || Text.Includes(p.phone, term)
    || Text.Includes(p.nationalId, term)
  }

  /** `filteredPatients`. */
  function FilteredPatients(s: Screen): seq<Patient> {
    Seqs.Filter(s.patients, p => Matches(p, s.searchTerm))
  }

  // ---- Properties ----

  /** The shown patients are the matching ones, in list order. */
  lemma FilteredIsMatchingSubseq(s: Screen, p: Patient)
    ensures Seqs.IsSubseq(FilteredPatients(s), s.patients)
    ensures p in FilteredPatients(s) <==> p in s.patients && Matches(p, s.searchTerm)
    ensures multiset(FilteredPatients(s))[p] == if Matches(p, s.searchTerm) then multiset(s.patients)[p] else 0
  {
    Seqs.FilterMultiplicity(s.patients, p => Matches(p, s.searchTerm), p);
    Seqs.FilterIsSubseq(s.patients, p => Matches(p, s.searchTerm));
    Seqs.FilterMembership(s.patients, p => Matches(p, s.searchTerm), p);
  }

  /** An empty search box shows every patient. */
  lemma EmptySearchShowsAll(s: Screen)
    requires s.searchTerm == ""
    ensures FilteredPatients(s) == s.patients
  {
    forall i | 0 <= i < |s.patients| ensures Matches(s.patients[i], s.searchTerm) {
      Text.IncludesEmpty(s.patients[i].fileNumber);
    }
    Seqs.FilterAll(s.patients, p => Matches(p, s.searchTerm));
  }

  /** The name search ignores letter case: a term and its upper-case form
      select the same patients by name. */
  lemma NameSearchIgnoresCase(p: Patient, term: string)
    ensures Text.Includes(Text.Lower(p.name), Text.Lower(term)) <==>
      Text.Includes(Text.Lower(p.name), Text.Lower(Text.Upper(term)))
  {
    assert Text.Lower(Text.Upper(term)) == Text.Lower(term);
  }

  /** A digit string found in the file number matches whatever the name is. */
  lemma FileNumberMatches(s: Screen, p: Patient)
    requires p in s.patients && Text.Includes(p.fileNumber, s.searchTerm)
    ensures p in FilteredPatients(s)
  {
    Seqs.FilterMembership(s.patients, p => Matches(p, s.searchTerm), p);
  }

  /** Editing the form, or clearing it, never changes which patients are shown. */
  lemma FormDoesNotFilter(s: Screen, field: string, value: string)
    ensures FilteredPatients(InputChange(s, field, value)) == FilteredPatients(s)
    ensures FilteredPatients(ClearForm(s)) == FilteredPatients(s)
  {
  }

  /** Clearing after typing into a form field restores the field to empty. */
  lemma ClearAfterInput(s: Screen, field: string, value: string)
    requires field in FormFields
    ensures ClearForm(InputChange(s, field, value)).form[field] == ""
    ensures ClearForm(InputChange(s, field, value)).form == ClearForm(s).form
  {
  }
}

=== FILE: seqs.dfy ===
/** `Array.prototype.filter` and the subsequence relation it establishes,
    shared by every list screen that filters, deletes or toggles entries. */
module Seqs {

  /** `a` can be obtained from `b` by deleting elements, keeping the order. */
  predicate IsSubseq<T(==)>(a: seq<T>, b: seq<T>)
    decreases |b|
  {
    if |a| == 0 then true
    else if |b| == 0 then false
    else if a[0] == b[0] then IsSubseq(a[1..], b[1..])
    else IsSubseq(a, b[1..])
  }

  /** `xs.filter(p)`: the elements satisfying `p`, in their original order. */
  function Filter<T>(xs: seq<T>, p: T -> bool): (r: seq<T>)
    ensures |r| <= |xs|
    ensures forall i :: 0 <= i < |r| ==> p(r[i])
    ensures forall i :: 0 <= i < |r| ==> r[i] in xs
  {
    if |xs| == 0 then []
    else
      var rest := Filter(xs[1..], p);
      if p(xs[0]) then [xs[0]] + rest else rest
  }

  /** An element survives the filter exactly when it was there and passes the test. */
  lemma {:induction false} FilterMembership<T>(xs: seq<T>, p: T -> bool, x: T)
    ensures x in Filter(xs, p) <==> x in xs && p(x)
  {
    if |xs| > 0 {
      FilterMembership(xs[1..], p, x);
      assert xs == [xs[0]] + xs[1..];
    }
  }

  /** Filtering keeps every passing element as many times as it occurred and drops the rest. */
  lemma {:induction false} FilterMultiplicity<T>(xs: seq<T>, p: T -> bool, x: T)
    ensures multiset(Filter(xs, p))[x] == if p(x) then multiset(xs)[x] else 0
  {
    if |xs| > 0 {
      FilterMultiplicity(xs[1..], p, x);
      assert xs == [xs[0]] + xs[1..];
    }
  }

  /** The filter's output is an order-preserving subsequence of its input. */
  lemma {:induction false} FilterIsSubseq<T>(xs: seq<T>, p: T -> bool)
    ensures IsSubseq(Filter(xs, p), xs)
  {
    if |xs| > 0 {
      FilterIsSubseq(xs[1..], p);
      var rest := Filter(xs[1..], p);
      if !p(xs[0]) {
        SubseqDropHead(rest, xs);
      }
    }
  }

  /** A subsequence of the tail is a subsequence of the whole. */
  lemma {:induction false} SubseqDropHead<T>(a: seq<T>, b: seq<T>)
    requires |b| > 0 && IsSubseq(a, b[1..])
    ensures IsSubseq(a, b)
    decreases |b|, 0
  {
    if |a| > 0 && a[0] == b[0] {
      // a[1..] is a subsequence of a, hence of b[1..].
      SubseqTail(a, b[1..]);
    }
  }

  /** Dropping the first element of a subsequence keeps it a subsequence. */
  lemma {:induction false} SubseqTail<T>(a: seq<T>, b: seq<T>)
    requires |a| > 0 && IsSubseq(a, b)
    ensures IsSubseq(a[1..], b)
    decreases |b|, 1
  {
    if a[0] == b[0] {
      if |b| > 1 {
        SubseqDropHead(a[1..], b);
      } else if |a[1..]| > 0 {
        assert IsSubseq(a[1..], b[1..]);
      }
    } else {
      SubseqTail(a, b[1..]);
      SubseqDropHead(a[1..], b);
    }
  }

  /** A test every element passes filters nothing out. */
  lemma {:induction false} FilterAll<T>(xs: seq<T>, p: T -> bool)
    requires forall i :: 0 <= i < |xs| ==> p(xs[i])
    ensures Filter(xs, p) == xs
  {
    if |xs| > 0 {
      FilterAll(xs[1..], p);
    }
  }

  /** Filtering twice by the same test is filtering once. */
  lemma {:induction false} FilterIdempotent<T>(xs: seq<T>, p: T -> bool)
    ensures Filter(Filter(xs, p), p) == Filter(xs, p)
  {
    FilterAll(Filter(xs, p), p);
  }

  /** Filtering distributes over concatenation. */
  lemma {:induction false} FilterConcat<T>(a: seq<T>, b: seq<T>, p: T -> bool)
    ensures Filter(a + b, p) == Filter(a, p) + Filter(b, p)
    decreases |a|
  {
    if |a| == 0 {
      assert a + b == b;
    } else {
      assert (a + b)[0] == a[0];
      assert (a + b)[1..] == a[1..] + b;
      FilterConcat(a[1..], b, p);
    }
  }

  /** Tests that agree on every element of the list filter it alike. */
  lemma {:induction false} FilterSameTest<T>(xs: seq<T>, p: T -> bool, q: T -> bool)
    requires forall i :: 0 <= i < |xs| ==> p(xs[i]) == q(xs[i])
    ensures Filter(xs, p) == Filter(xs, q)
  {
    if |xs| > 0 {
      FilterSameTest(xs[1..], p, q);
    }
  }
}

=== FILE: sms.dfy ===
/** The SMS screen: a phone number and a message, a send guard that checks
    the phone before the message, and a message balance that a send lowers
    by one without going below zero. Sending itself is simulated. */
module Sms {
  import opened Wrappers
  import Text

  /** The balance the screen starts with. */
  const InitialBalance: nat := 150

  /** The message box's `maxLength`. */
  const MaxMessageLength: nat := 160

  datatype SmsData = SmsData(phoneNumber: string, message: string)

  /** A toast: title, description, and whether it is destructive. */
  datatype Toast = Toast(title: string, description: string, destructive: bool)

  datatype Screen = Screen(data: SmsData, balance: nat, toast: Option<Toast>)

  const Initial: Screen := Screen(SmsData("", ""), InitialBalance, None)

  /** The screen's invariant: the message box never holds more than its cap. */
  predicate WithinCap(s: Screen) {
    |s.data.message| <= MaxMessageLength
  }

  /** The form fields. */
  datatype Field = PhoneNumber | Message

  /** `handleInputChange(field, value)`; the message box keeps at most
      `maxLength` characters of what is typed or pasted. */
  function InputChange(s: Screen, field: Field, value: string): (r: Screen)
    ensures r.balance == s.balance && r.toast == s.toast
    ensures field == PhoneNumber ==> r.data == s.data.(phoneNumber := value)
    ensures field == Message ==> r.data.phoneNumber == s.data.phoneNumber
    ensures field == Message && |value| <= MaxMessageLength ==> r.data.message == value
    ensures field == Message ==> Prefix(r.data.message, value) && |r.data.message| <= MaxMessageLength
    ensures WithinCap(s) ==> WithinCap(r)
  {
    match field
    case PhoneNumber => s.(data := s.data.(phoneNumber := value))
    case Message =>
      var kept := if |value| <= MaxMessageLength then value else value[..MaxMessageLength];
      s.(data := s.data.(message := kept))
  }

  predicate Prefix(a: string, b: string) {
    |a| <= |b| && b[..|a|] == a
  }

  /** The counter under the message box: characters still available. */
  function Remaining(s: Screen): (n: int)
    ensures WithinCap(s) ==> 0 <= n <= MaxMessageLength
    ensures n + |s.data.message| == MaxMessageLength
  {
    MaxMessageLength - |s.data.message|
  }

  const MissingPhone: Toast := Toast("خطأ", "يرجى إدخال رقم الجوال", true)
  const MissingMessage: Toast := Toast("خطأ", "يرجى إدخال محتوى الرسالة", true)

  /** `handleSendSMS`. */
  function SendSms(s: Screen): (r: Screen)
    ensures r.data == s.data
    ensures Text.IsBlank(s.data.phoneNumber) ==> r == s.(toast := Some(MissingPhone))
    ensures !Text.IsBlank(s.data.phoneNumber) && Text.IsBlank(s.data.message) ==>
      r == s.(toast := Some(MissingMessage))
    ensures !Text.IsBlank(s.data.phoneNumber) && !Text.IsBlank(s.data.message) ==>
      && r.balance == (if s.balance == 0 then 0 else s.balance - 1)
      && r.toast == Some(Toast("تم إرسال الرسالة", "تم إرسال الرسالة إلى " + s.data.phoneNumber + " بنجاح", false))
  {
    Text.TrimEmptyIffBlank(s.data.phoneNumber);
    Text.TrimEmptyIffBlank(s.data.message);
    if Text.Trim(s.data.phoneNumber) == [] then s.(toast := Some(MissingPhone))
    else if Text.Trim(s.data.message) == [] then s.(toast := Some(MissingMessage))
    else
      var next := if s.balance - 1 > 0 then s.balance - 1 else 0;
      s.(balance := next,
         toast := Some(Toast("تم إرسال الرسالة", "تم إرسال الرسالة إلى " + s.data.phoneNumber + " بنجاح", false)))
  }

  const BalanceTitle: string := "رصيد الرسائل"
  const BalancePrefix: string := "الرصيد المتاح: "
  const BalanceSuffix: string := " رسالة"

  /** The balance toast's description: the balance in decimal between a fixed
      prefix and suffix. */
  function BalanceReport(b: nat): string {
    BalancePrefix + Text.DecimalString(b) + BalanceSuffix
  }

  /** Reads the balance back out of a description: the text between the
      prefix and the suffix, when it is a non-empty digit string. */
  function ReadBalance(d: string): Option<nat> {
    if |d| >= |BalancePrefix| + |BalanceSuffix|
       && d[..|BalancePrefix|] == BalancePrefix && d[|d| - |BalanceSuffix|..] == BalanceSuffix
    then
      var mid := d[|BalancePrefix|..|d| - |BalanceSuffix|];
      if |mid| > 0 && forall i :: 0 <= i < |mid| ==> Text.IsDigit(mid[i]) then Some(Text.DecimalValue(mid))
      else None
    else None
  }

  /** A balance report always reads back as the balance it reports. */
  lemma BalanceReportReadsBack(b: nat)
    ensures ReadBalance(BalanceReport(b)) == Some(b)
  {
    var d := BalanceReport(b);
    var digits := Text.DecimalString(b);
    assert d[..|BalancePrefix|] == BalancePrefix;
    assert d[|d| - |BalanceSuffix|..] == BalanceSuffix;
    assert d[|BalancePrefix|..|d| - |BalanceSuffix|] == digits;
    Text.DecimalRoundTrip(b);
  }

  /** `handleCheckBalance`: a non-destructive toast whose description reads
      back as the current balance; nothing else changes. */
  function CheckBalance(s: Screen): (r: Screen)
    ensures r.data == s.data && r.balance == s.balance
    ensures r.toast.Some? && !r.toast.value.destructive && r.toast.value.title == BalanceTitle
    ensures ReadBalance(r.toast.value.description) == Some(s.balance)
  {
    BalanceReportReadsBack(s.balance);
    s.(toast := Some(Toast(BalanceTitle, BalanceReport(s.balance), false)))
  }

  /** `handleClearForm`: both fields empty, balance kept. */
  function ClearForm(s: Screen): (r: Screen)
    ensures r.data == SmsData("", "") && r.balance == s.balance
    ensures WithinCap(r) && Remaining(r) == MaxMessageLength
  {
    Screen(SmsData("", ""), s.balance, Some(Toast("تم مسح البيانات", "تم مسح جميع البيانات من النموذج", false)))
  }

  // ---- Properties ----

  /** A rejected send never spends balance: the balance drops, by exactly one,
      only when both fields have visible content and there was balance left. */
  lemma BalanceDropsOnlyOnSend(s: Screen)
    ensures SendSms(s).balance <= s.balance
    ensures SendSms(s).balance < s.balance <==>
      !Text.IsBlank(s.data.phoneNumber) && !Text.IsBlank(s.data.message) && s.balance > 0
  {
  }

  /** With no balance left a send still reports success and the balance stays at zero. */
  lemma SendAtZeroBalance(s: Screen)
    requires s.balance == 0
    requires !Text.IsBlank(s.data.phoneNumber) && !Text.IsBlank(s.data.message)
    ensures SendSms(s).balance == 0
    ensures SendSms(s).toast.Some? && !SendSms(s).toast.value.destructive
  {
  }

  /** The balance after `n` successful sends from `b`. */
  function SendsFrom(b: nat, n: nat): nat {
    if n == 0 then b else var prev := SendsFrom(b, n - 1); if prev == 0 then 0 else prev - 1
  }

  /** Repeated sends count the balance down to zero and no further. */
  lemma {:induction false} RepeatedSends(b: nat, n: nat)
    ensures SendsFrom(b, n) == if n <= b then b - n else 0
  {
    if n > 0 {
      RepeatedSends(b, n - 1);
    }
  }

  /** `n` presses of the send button on an unchanged form. */
  function SendTimes(s: Screen, n: nat): Screen
    decreases n
  {
    if n == 0 then s else SendTimes(SendSms(s), n - 1)
  }

  /** After `n` sends of a filled-in form the form is unchanged and the
      balance has counted down by `n`, stopping at zero. */
  lemma {:induction false} SendTimesBalance(s: Screen, n: nat)
    requires !Text.IsBlank(s.data.phoneNumber) && !Text.IsBlank(s.data.message)
    ensures SendTimes(s, n).data == s.data
    ensures SendTimes(s, n).balance == if n <= s.balance then s.balance - n else 0
    decreases n
  {
    if n > 0 {
      SendTimesBalance(SendSms(s), n - 1);
    }
  }

  /** Checking the balance after `n` sends of a filled-in form reports the
      balance those sends left. */
  lemma ReportAfterSends(s: Screen, n: nat)
    requires !Text.IsBlank(s.data.phoneNumber) && !Text.IsBlank(s.data.message)
    ensures ReadBalance(CheckBalance(SendTimes(s, n)).toast.value.description) == Some(SendsFrom(s.balance, n))
    ensures ReadBalance(CheckBalance(SendTimes(s, n)).toast.value.description) ==
      Some(if n <= s.balance then s.balance - n else 0)
  {
    SendTimesBalance(s, n);
    RepeatedSends(s.balance, n);
  }

  /** Each send of a filled-in form takes one step of that countdown. */
  lemma SendIsOneStep(s: Screen)
    requires !Text.IsBlank(s.data.phoneNumber) && !Text.IsBlank(s.data.message)
    ensures SendSms(s).balance == SendsFrom(s.balance, 1)
    ensures SendSms(SendSms(s)).balance == SendsFrom(s.balance, 2)
  {
  }

  /** The screen starts within the cap, and every action keeps it there. */
  lemma ActionsKeepCap(s: Screen, field: Field, value: string)
    requires WithinCap(s)
    ensures WithinCap(Initial)
    ensures WithinCap(InputChange(s, field, value))
    ensures WithinCap(SendSms(s)) && WithinCap(CheckBalance(s)) && WithinCap(ClearForm(s))
  {
  }

  /** A message of only spaces is refused even with a phone number present. */
  lemma WhitespaceMessageRefused(s: Screen)
    requires !Text.IsBlank(s.data.phoneNumber)
    requires |s.data.message| > 0 && forall i :: 0 <= i < |s.data.message| ==> s.data.message[i] == ' '
    ensures SendSms(s) == s.(toast := Some(MissingMessage))
  {
    assert Text.IsWhitespace(' ');
  }
}

=== FILE: string_utils.dfy ===
/** `stringUtils`: capitalisation, truncation with an ellipsis, and the
    layout of Saudi phone numbers. */
module StringUtils {
  import Text
  import Seqs

  /** `capitalize(str)`: the first character in upper case, the rest untouched. */
  function Capitalize(s: string): (r: string)
    ensures |r| == |s|
    ensures |s| > 0 ==> r[0] == Text.UpperChar(s[0]) && r[1..] == s[1..]
  {
    if |s| == 0 then [] else [Text.UpperChar(s[0])] + s[1..]
  }

  /** `truncate(str, length)`: strings longer than `length` keep their first
      `length` characters (none for a negative length) and gain `"..."`. */
  function Truncate(s: string, length: int): (r: string)
    ensures |s| <= length ==> r == s
    ensures |s| > length ==> r == s[..if length < 0 then 0 else length] + "..."
  {
    if |s| > length then Text.Substring(s, 0, length) + "..." else s
  }

  /** `s.startsWith(t)`. */
  predicate StartsWith(s: string, t: string) {
    |t| <= |s| && s[..|t|] == t
  }

  /** `phone.replace(/\D/g, '')`: the ASCII digits, in order. */
  function Digits(s: string): (r: string)
    ensures forall i :: 0 <= i < |r| ==> Text.IsDigit(r[i])
  {
    Seqs.Filter(s, Text.IsDigit)
  }

  /** Removing the non-digits keeps every digit, in order and as often as it
      occurs, and nothing else. */
  lemma DigitsExact(s: string, c: char)
    ensures Seqs.IsSubseq(Digits(s), s)
    ensures multiset(Digits(s))[c] == if Text.IsDigit(c) then multiset(s)[c] else 0
    ensures c in Digits(s) <==> c in s && Text.IsDigit(c)
  {
    Seqs.FilterIsSubseq(s, Text.IsDigit);
    Seqs.FilterMultiplicity(s, Text.IsDigit, c);
    Seqs.FilterMembership(s, Text.IsDigit, c);
  }

  /** The layout applied to the digits of a number that has one. */
  function Layout(cleaned: string): string
    requires StartsWith(cleaned, "966") || StartsWith(cleaned, "05")
  {
    if StartsWith(cleaned, "966") then
      "+966 " + Text.Substring(cleaned, 3, 5) + " " + Text.Substring(cleaned, 5, 8) + " " + Text.Substring(cleaned, 8, |cleaned|)
    else
      Text.Substring(cleaned, 0, 3) + " " + Text.Substring(cleaned, 3, 6) + " " + Text.Substring(cleaned, 6, |cleaned|)
  }

  /** `formatPhoneNumber(phone)`: international (`966…`) and local (`05…`)
      numbers are laid out in groups; anything else comes back as given. */
  function FormatPhoneNumber(phone: string): (r: string)
    ensures !StartsWith(Digits(phone), "966") && !StartsWith(Digits(phone), "05") ==> r == phone
  {
    var cleaned := Digits(phone);
    if StartsWith(cleaned, "966") || StartsWith(cleaned, "05") then Layout(cleaned) else phone
  }

  // ---- Properties ----

  /** Capitalising twice is capitalising once. */
  lemma CapitalizeIdempotent(s: string)
    ensures Capitalize(Capitalize(s)) == Capitalize(s)
  {
  }

  /** A truncated string is a prefix of the original followed by the ellipsis,
      and truncating it again to the same length changes nothing. */
  lemma TruncateIdempotent(s: string, length: int)
    ensures Truncate(Truncate(s, length), length) == Truncate(s, length)
    ensures |Truncate(s, length)| <= (if length < 0 then 0 else length) + 3 || Truncate(s, length) == s
  {
    if |s| > length {
      var n := if length < 0 then 0 else length;
      var r := s[..n] + "...";
      assert r[..n] == s[..n];
    }
  }

  /** The space the layout inserts between groups holds no digit. */
  lemma SpaceHasNoDigits()
    ensures Digits(" ") == []
  {
  }

  /** The international prefix the layout writes carries the country code's digits. */
  lemma InternationalPrefixDigits()
    ensures Digits("+966 ") == "966"
  {
    assert "+966 " == ['+'] + ("966" + " ");
    Seqs.FilterConcat(['+'], "966" + " ", Text.IsDigit);
    Seqs.FilterConcat("966", " ", Text.IsDigit);
    DigitsOnly("966");
  }

  /** The clamped pieces of a string reassemble into its suffix. */
  lemma Pieces(c: string, a: nat, b: nat, d: nat)
    requires a <= |c| && a <= b <= d
    ensures Text.Substring(c, a, b) + Text.Substring(c, b, d) + Text.Substring(c, d, |c|) == c[a..]
  {
    var b' := if b > |c| then |c| else b;
    var d' := if d > |c| then |c| else d;
    assert c[a..b'] + c[b'..d'] + c[d'..] == c[a..];
  }

  /** A clamped piece of a digit string is a digit string. */
  lemma PieceDigits(c: string, a: int, b: int)
    requires forall i :: 0 <= i < |c| ==> Text.IsDigit(c[i])
    ensures forall i :: 0 <= i < |Text.Substring(c, a, b)| ==> Text.IsDigit(Text.Substring(c, a, b)[i])
  {
    var a' := if a < 0 then 0 else if a > |c| then |c| else a;
    var b' := if b < 0 then 0 else if b > |c| then |c| else b;
    if a' <= b' {
      assert Text.Substring(c, a, b) == c[a'..b'];
    } else {
      assert Text.Substring(c, a, b) == c[b'..a'];
    }
  }

  /** Digits of three digit groups after a prefix, with a space before each of the last two. */
  lemma {:induction false} DigitsOfGroups(prefix: string, x: string, y: string, z: string)
    requires forall i :: 0 <= i < |x| ==> Text.IsDigit(x[i])
    requires forall i :: 0 <= i < |y| ==> Text.IsDigit(y[i])
    requires forall i :: 0 <= i < |z| ==> Text.IsDigit(z[i])
    ensures Digits(prefix + x + " " + y + " " + z) == Digits(prefix) + x + y + z
  {
    SpaceHasNoDigits();
    DigitsOnly(x);
    DigitsOnly(y);
    DigitsOnly(z);
    var a := prefix + x;
    var b := a + " ";
    var c := b + y;
    var d := c + " ";
    Seqs.FilterConcat(prefix, x, Text.IsDigit);
    assert Digits(a) == Digits(prefix) + x;
    Seqs.FilterConcat(a, " ", Text.IsDigit);
    assert Digits(b) == Digits(prefix) + x;
    Seqs.FilterConcat(b, y, Text.IsDigit);
    assert Digits(c) == Digits(prefix) + x + y;
    Seqs.FilterConcat(c, " ", Text.IsDigit);
    assert Digits(d) == Digits(prefix) + x + y;
    Seqs.FilterConcat(d, z, Text.IsDigit);
  }

  /** A layout whose prefix carries the first `k` digits and whose three
      digit groups carry the rest keeps exactly the digits. */
  lemma LayoutDigits(c: string, prefix: string, k: nat, x: string, y: string, z: string)
    requires k <= |c| && Digits(prefix) == c[..k] && x + y + z == c[k..]
    requires forall i :: 0 <= i < |x| ==> Text.IsDigit(x[i])
    requires forall i :: 0 <= i < |y| ==> Text.IsDigit(y[i])
    requires forall i :: 0 <= i < |z| ==> Text.IsDigit(z[i])
    ensures Digits(prefix + x + " " + y + " " + z) == c
  {
    DigitsOfGroups(prefix, x, y, z);
    assert c[..k] + x + y + z == c[..k] + (x + y + z);
    assert c[..k] + c[k..] == c;
  }

  /** The international layout keeps exactly the digits it was given. */
  lemma InternationalLayoutDigits(c: string, x: string, y: string, z: string)
    requires StartsWith(c, "966") && forall i :: 0 <= i < |c| ==> Text.IsDigit(c[i])
    requires x == Text.Substring(c, 3, 5) && y == Text.Substring(c, 5, 8) && z == Text.Substring(c, 8, |c|)
    ensures Digits("+966 " + x + " " + y + " " + z) == c
  {
    PieceDigits(c, 3, 5);
    PieceDigits(c, 5, 8);
    PieceDigits(c, 8, |c|);
    InternationalPrefixDigits();
    Pieces(c, 3, 5, 8);
    LayoutDigits(c, "+966 ", 3, x, y, z);
  }

  /** The local layout keeps exactly the digits it was given. */
  lemma LocalLayoutDigits(c: string, x: string, y: string, z: string)
    requires StartsWith(c, "05") && forall i :: 0 <= i < |c| ==> Text.IsDigit(c[i])
    requires x == Text.Substring(c, 0, 3) && y == Text.Substring(c, 3, 6) && z == Text.Substring(c, 6, |c|)
    ensures Digits(x + " " + y + " " + z) == c
  {
    PieceDigits(c, 0, 3);
    PieceDigits(c, 3, 6);
    PieceDigits(c, 6, |c|);
    Pieces(c, 0, 3, 6);
    LayoutDigits(c, [], 0, x, y, z);
    assert [] + x == x;
  }

  /** Laying a number out keeps exactly its digits: only spaces and the `+`
      are added. */
  lemma FormatKeepsDigits(phone: string)
    ensures Digits(FormatPhoneNumber(phone)) == Digits(phone)
  {
    var c := Digits(phone);
    if StartsWith(c, "966") {
      var x, y, z := Text.Substring(c, 3, 5), Text.Substring(c, 5, 8), Text.Substring(c, 8, |c|);
      assert FormatPhoneNumber(phone) == "+966 " + x + " " + y + " " + z;
      InternationalLayoutDigits(c, x, y, z);
    } else if StartsWith(c, "05") {
      var x, y, z := Text.Substring(c, 0, 3), Text.Substring(c, 3, 6), Text.Substring(c, 6, |c|);
      assert FormatPhoneNumber(phone) == x + " " + y + " " + z;
      LocalLayoutDigits(c, x, y, z);
    }
  }

  /** A string of digits is its own digit string. */
  lemma DigitsOnly(s: string)
    requires forall i :: 0 <= i < |s| ==> Text.IsDigit(s[i])
    ensures Digits(s) == s
  {
    Seqs.FilterAll(s, Text.IsDigit);
  }

  /** Formatting a formatted number changes nothing. */
  lemma FormatIdempotent(phone: string)
    ensures FormatPhoneNumber(FormatPhoneNumber(phone)) == FormatPhoneNumber(phone)
  {
    FormatKeepsDigits(phone);
  }

  /** A number whose digits start with `05` is laid out in the local groups. */
  lemma LocalFormat(phone: string)
    requires StartsWith(Digits(phone), "05")
    ensures FormatPhoneNumber(phone) ==
      var c := Digits(phone);
      Text.Substring(c, 0, 3) + " " + Text.Substring(c, 3, 6) + " " + Text.Substring(c, 6, |c|)
  {
    var c := Digits(phone);
    assert c[1] == "05"[1];
    assert !StartsWith(c, "966");
  }

  /** A number whose digits start with `966` is laid out in the international groups. */
  lemma InternationalFormat(phone: string)
    requires StartsWith(Digits(phone), "966")
    ensures FormatPhoneNumber(phone) ==
      var c := Digits(phone);
      "+966 " + Text.Substring(c, 3, 5) + " " + Text.Substring(c, 5, 8) + " " + Text.Substring(c, 8, |c|)
  {
  }

  /** The digits of a string of digits given as a literal. */
  lemma LiteralDigits(s: string)
    requires forall i :: 0 <= i < |s| ==> '0' <= s[i] <= '9'
    ensures Digits(s) == s
  {
    DigitsOnly(s);
  }

  /** The local example number is all digits and starts with "05". */
  lemma LocalExampleDigits(phone: string)
    requires phone == "0501234567"
    ensures Digits(phone) == phone && StartsWith(phone, "05")
  {
    LiteralDigits(phone);
    assert phone[..2] == "05";
  }

  /** The three groups the local layout cuts from the example number. */
  lemma LocalExampleGroups(phone: string)
    requires phone == "0501234567"
    ensures Text.Substring(phone, 0, 3) == "050"
    ensures Text.Substring(phone, 3, 6) == "123"
    ensures Text.Substring(phone, 6, |phone|) == "4567"
  {
  }

  /** The local groups joined with spaces give the expected text. */
  lemma LocalExampleGlue(x: string, y: string, z: string)
    requires x == "050" && y == "123" && z == "4567"
    ensures x + " " + y + " " + z == "050 123 4567"
  {
  }

  /** A local mobile number. */
  lemma LocalExample(phone: string)
    requires phone == "0501234567"
    ensures FormatPhoneNumber(phone) == "050 123 4567"
  {
    LocalExampleDigits(phone);
    LocalExampleGroups(phone);
    LocalFormat(phone);
    LocalExampleGlue(Text.Substring(phone, 0, 3), Text.Substring(phone, 3, 6), Text.Substring(phone, 6, |phone|));
  }

  /** A leading non-digit is dropped from the digits. */
  lemma DigitsDropsSign(phone: string)
    requires |phone| > 0 && !Text.IsDigit(phone[0])
    ensures Digits(phone) == Digits(phone[1..])
  {
  }

  /** The international example's digits are the number without its "+", and start with "966". */
  lemma InternationalExampleDigits(phone: string)
    requires phone == "+966501234567"
    ensures Digits(phone) == phone[1..] && StartsWith(phone[1..], "966")
  {
    DigitsDropsSign(phone);
    LiteralDigits(phone[1..]);
    assert phone[1..][..3] == "966";
  }

  /** The three groups the international layout cuts after the country code. */
  lemma InternationalExampleGroups(c: string)
    requires c == "966501234567"
    ensures Text.Substring(c, 3, 5) == "50"
    ensures Text.Substring(c, 5, 8) == "123"
    ensures Text.Substring(c, 8, |c|) == "4567"
  {
  }

  /** The international groups behind "+966 ", joined with spaces, give the expected text. */
  lemma InternationalExampleGlue(x: string, y: string, z: string)
    requires x == "50" && y == "123" && z == "4567"
    ensures "+966 " + x + " " + y + " " + z == "+966 50 123 4567"
  {
  }

  /** An international mobile number. */
  lemma InternationalExample(phone: string)
    requires phone == "+966501234567"
    ensures FormatPhoneNumber(phone) == "+966 50 123 4567"
  {
    var c := phone[1..];
    InternationalExampleDigits(phone);
    InternationalExampleGroups(c);
    InternationalFormat(phone);
    InternationalExampleGlue(Text.Substring(c, 3, 5), Text.Substring(c, 5, 8), Text.Substring(c, 8, |c|));
  }
}

=== FILE: text.dfy ===
/** String primitives of the JavaScript runtime that the modelled code relies
    on: `split`/`join` on one separator, `trim`, `includes`, `substring`,
    `slice`, the regular-expression classes `\s` and `\d`, and the ASCII part
    of `toLowerCase`/`toUpperCase`. Strings are sequences of characters;
    `length` counts characters here, not UTF-16 code units. */
module Text {

  /** The characters JavaScript's `\s` class and `String.prototype.trim`
      treat as white space: WhiteSpace and LineTerminator of ECMA-262. */
  predicate IsWhitespace(c: char) {
    || c == '\t' || c == '\n' || c == '\U{000B}' || c == '\U{000C}' || c == '\r'
    || c == ' ' || c == '\U{00A0}' || c == '\U{1680}'
    || ('\U{2000}' <= c <= '\U{200A}')
    || c == '\U{2028}' || c == '\U{2029}' || c == '\U{202F}' || c == '\U{205F}'
    || c == '\U{3000}' || c == '\U{FEFF}'
  }

  /** JavaScript's `\d`: the ASCII digits only. */
  predicate IsDigit(c: char) {
    '0' <= c <= '9'
  }

  /** A string with nothing but white space in it (the empty string included). */
  predicate IsBlank(s: string) {
    forall i :: 0 <= i < |s| ==> IsWhitespace(s[i])
  }

  /** Leading white space removed. */
  function TrimStart(s: string): (r: string)
    ensures |r| <= |s| && r == s[|s| - |r|..]
    ensures IsBlank(s[..|s| - |r|])
    ensures r == [] || !IsWhitespace(r[0])
  {
    if |s| > 0 && IsWhitespace(s[0]) then
      var r := TrimStart(s[1..]);
      assert s[..|s| - |r|] == [s[0]] + s[1..][..|s[1..]| - |r|];
      r
    else
      s
  }

  /** Trailing white space removed. */
  function TrimEnd(s: string): (r: string)
    ensures |r| <= |s| && r == s[..|r|]
    ensures IsBlank(s[|r|..])
    ensures r == [] || !IsWhitespace(r[|r| - 1])
  {
    if |s| > 0 && IsWhitespace(s[|s| - 1]) then
      var r := TrimEnd(s[..|s| - 1]);
      assert s[|r|..] == s[..|s| - 1][|r|..] + [s[|s| - 1]];
      r
    else
      s
  }

  /** `String.prototype.trim`. */
  function Trim(s: string): string {
    TrimEnd(TrimStart(s))
  }

  /** A blank string trims to nothing. */
  lemma BlankTrimsToEmpty(s: string)
    ensures IsBlank(s) ==> Trim(s) == []
  {
    var a := TrimStart(s);
    if IsBlank(s) {
      assert a == s[|s| - |a|..];
    }
  }

  /** `!s.trim()`, the emptiness test the forms use, holds exactly for blank strings. */
  lemma TrimEmptyIffBlank(s: string)
    ensures Trim(s) == [] <==> IsBlank(s)
  {
    BlankTrimsToEmpty(s);
    var a := TrimStart(s);
    if Trim(s) == [] {
      assert a[0..] == a;
      assert a == [];
      assert s[..|s|] == s;
    }
  }

  /** ASCII letters lowered; every other character, Arabic included, is its own lower case. */
  function LowerChar(c: char): char {
    if 'A' <= c <= 'Z' then (c as int + 32) as char else c
  }

  /** ASCII letters raised; every other character is its own upper case. */
  function UpperChar(c: char): char {
    if 'a' <= c <= 'z' then (c as int - 32) as char else c
  }

  /** `toLowerCase`, character by character. */
  function Lower(s: string): (r: string)
    ensures |r| == |s|
    ensures forall i :: 0 <= i < |s| ==> r[i] == LowerChar(s[i])
  {
    seq(|s|, i requires 0 <= i < |s| => LowerChar(s[i]))
  }

  /** `toUpperCase`, character by character. */
  function Upper(s: string): (r: string)
    ensures |r| == |s|
    ensures forall i :: 0 <= i < |s| ==> r[i] == UpperChar(s[i])
  {
    seq(|s|, i requires 0 <= i < |s| => UpperChar(s[i]))
  }

  /** `s.includes(t)`, searched position by position from the left. */
  function Includes(s: string, t: string): bool
    decreases |s|
  {
    if |t| > |s| then false
    else if s[..|t|] == t then true
    else if |s| == 0 then false
    else Includes(s[1..], t)
  }

  /** `t` occurs in `s` starting at position `i`. */
  predicate OccursAt(s: string, t: string, i: int) {
    0 <= i && i + |t| <= |s| && s[i..i + |t|] == t
  }

  /** The search finds `t` exactly when it occurs somewhere in `s`. */
  lemma {:induction false} IncludesIffOccurs(s: string, t: string)
    ensures Includes(s, t) <==> exists i :: OccursAt(s, t, i)
    decreases |s|
  {
    if |t| > |s| {
    } else if s[..|t|] == t {
      assert OccursAt(s, t, 0);
    } else if |s| > 0 {
      IncludesIffOccurs(s[1..], t);
      if exists i :: OccursAt(s[1..], t, i) {
        var i :| OccursAt(s[1..], t, i);
        assert s[1..][i..i + |t|] == s[i + 1..i + 1 + |t|];
        assert OccursAt(s, t, i + 1);
      }
      if exists i :: OccursAt(s, t, i) {
        var i :| OccursAt(s, t, i);
        assert i != 0;
        assert s[1..][i - 1..i - 1 + |t|] == s[i..i + |t|];
        assert OccursAt(s[1..], t, i - 1);
      }
    }
  }

  /** Every string includes the empty string, so an empty search term matches everything. */
  lemma IncludesEmpty(s: string)
    ensures Includes(s, [])
  {
    assert s[..0] == [];
  }

  /** `s.substring(a, b)`: both bounds clamped to the string, then put in order. */
  function Substring(s: string, a: int, b: int): (r: string)
    ensures |r| <= |s|
  {
    var a' := if a < 0 then 0 else if a > |s| then |s| else a;
    var b' := if b < 0 then 0 else if b > |s| then |s| else b;
    if a' <= b' then s[a'..b'] else s[b'..a']
  }

  /** `s.slice(start)` for a non-negative start: the suffix from `start`, empty past the end. */
  function SliceFrom(s: string, start: nat): (r: string)
    ensures start <= |s| ==> r == s[start..]
    ensures start >= |s| ==> r == []
  {
    if start <= |s| then s[start..] else []
  }

  /** `s.split(sep)` for a one-character separator: never empty, and
      separators at either end or next to each other give empty parts. */
  function Split(s: string, sep: char): (r: seq<string>)
    ensures |r| >= 1
    decreases |s|
  {
    if |s| == 0 then [[]]
    else
      var rest := Split(s[1..], sep);
      if s[0] == sep then [[]] + rest
      else [[s[0]] + rest[0]] + rest[1..]
  }

  /** `parts.join(sep)`. */
  function Join(parts: seq<string>, sep: char): string
  {
    if |parts| == 0 then []
    else if |parts| == 1 then parts[0]
    else parts[0] + [sep] + Join(parts[1..], sep)
  }

  /** No part of the split contains the separator. */
  lemma {:induction false} SplitPartsHaveNoSeparator(s: string, sep: char)
    ensures forall k :: 0 <= k < |Split(s, sep)| ==> sep !in Split(s, sep)[k]
    decreases |s|
  {
    if |s| > 0 {
      SplitPartsHaveNoSeparator(s[1..], sep);
    }
  }

  /** Joining the parts of a split gives back the string. */
  lemma {:induction false} JoinSplit(s: string, sep: char)
    ensures Join(Split(s, sep), sep) == s
    decreases |s|
  {
    if |s| > 0 {
      var rest := Split(s[1..], sep);
      JoinSplit(s[1..], sep);
      if s[0] == sep {
        assert Split(s, sep) == [[]] + rest;
        assert ([[]] + rest)[1..] == rest;
        assert s == [] + [sep] + s[1..];
      } else {
        var parts := [[s[0]] + rest[0]] + rest[1..];
        assert Split(s, sep) == parts;
        if |rest| == 1 {
          assert Join(parts, sep) == [s[0]] + rest[0];
          assert s == [s[0]] + s[1..];
        } else {
          assert parts[1..] == rest[1..];
          assert Join(rest, sep) == rest[0] + [sep] + Join(rest[1..], sep);
          assert Join(parts, sep) == [s[0]] + rest[0] + [sep] + Join(rest[1..], sep);
          assert s == [s[0]] + s[1..];
        }
      }
    }
  }

  /** Splitting `a + b` when `a` holds no separator: `a` is glued to the first part of `b`. */
  lemma {:induction false} SplitGlue(a: string, b: string, sep: char)
    requires sep !in a
    ensures Split(a + b, sep) == [a + Split(b, sep)[0]] + Split(b, sep)[1..]
    decreases |a|
  {
    if |a| > 0 {
      assert (a + b)[1..] == a[1..] + b;
      SplitGlue(a[1..], b, sep);
      var sb := Split(b, sep);
      var rest := Split(a[1..] + b, sep);
      assert rest == [a[1..] + sb[0]] + sb[1..];
      assert (a + b)[0] == a[0] != sep;
      assert Split(a + b, sep) == [[a[0]] + rest[0]] + rest[1..];
      assert [a[0]] + (a[1..] + sb[0]) == a + sb[0];
    } else {
      assert a + b == b;
      assert a + Split(b, sep)[0] == Split(b, sep)[0];
      assert Split(b, sep) == [Split(b, sep)[0]] + Split(b, sep)[1..];
    }
  }

  /** Splitting a join of separator-free parts gives back the parts. */
  lemma {:induction false} SplitJoin(parts: seq<string>, sep: char)
    requires |parts| >= 1
    requires forall k :: 0 <= k < |parts| ==> sep !in parts[k]
    ensures Split(Join(parts, sep), sep) == parts
    decreases |parts|
  {
    if |parts| == 1 {
      SplitGlue(parts[0], [], sep);
      assert parts[0] + [] == parts[0];
    } else {
      var tail := Join(parts[1..], sep);
      SplitJoin(parts[1..], sep);
      assert Join(parts, sep) == parts[0] + ([sep] + tail);
      SplitGlue(parts[0], [sep] + tail, sep);
      assert ([sep] + tail)[1..] == tail;
      assert Split([sep] + tail, sep) == [[]] + parts[1..];
      assert parts[0] + [] == parts[0];
    }
  }

  // ---- Decimal numerals ----

  /** The ASCII digit for `d`. */
  function DigitChar(d: nat): (c: char)
    requires d < 10
    ensures IsDigit(c) && c as int - '0' as int == d
  {
    ('0' as int + d) as char
  }

  /** `String(n)` for a non-negative integer: its decimal digits, without leading zeros. */
  function DecimalString(n: nat): (r: string)
    ensures |r| >= 1
    ensures forall i :: 0 <= i < |r| ==> IsDigit(r[i])
    ensures r[0] == '0' ==> n == 0
    decreases n
  {
    if n < 10 then [DigitChar(n)] else DecimalString(n / 10) + [DigitChar(n % 10)]
  }

  /** The number a string of ASCII digits denotes. */
  function DecimalValue(s: string): nat
    requires forall i :: 0 <= i < |s| ==> IsDigit(s[i])
  {
    if |s| == 0 then 0
    else
      assert IsDigit(s[|s| - 1]);
      DecimalValue(s[..|s| - 1]) * 10 + (s[|s| - 1] as int - '0' as int)
  }

  /** A property name that indexes a string or array: a numeral without
      leading zeros. */
  predicate IsIndexName(s: string) {
    && |s| >= 1
    && (forall i :: 0 <= i < |s| ==> IsDigit(s[i]))
    && (s[0] == '0' ==> |s| == 1)
  }

  /** Index names are exactly the numerals `String(n)` writes, and each
      denotes the number it was written from. */
  lemma {:induction false} IndexNameRoundTrip(s: string)
    requires IsIndexName(s)
    ensures DecimalString(DecimalValue(s)) == s
    decreases |s|
  {
    if |s| >= 2 {
      var init := s[..|s| - 1];
      assert init[0] == s[0];
      IndexNameRoundTrip(init);
      var v := DecimalValue(init);
      assert DecimalString(0) == "0";
      assert v != 0;
      var d := s[|s| - 1] as int - '0' as int;
      assert DecimalValue(s) == v * 10 + d;
      assert DecimalString(DecimalValue(s)) == DecimalString(v) + [DigitChar(d)];
      assert s == init + [s[|s| - 1]];
    }
  }

  /** Every numeral `String(n)` writes is an index name denoting `n`. */
  lemma DecimalIsIndexName(n: nat)
    ensures IsIndexName(DecimalString(n))
    ensures DecimalValue(DecimalString(n)) == n
  {
    DecimalRoundTrip(n);
  }

  /** Reading a numeral back gives the number it was written from. */
  lemma {:induction false} DecimalRoundTrip(n: nat)
    ensures DecimalValue(DecimalString(n)) == n
    decreases n
  {
    if n >= 10 {
      DecimalRoundTrip(n / 10);
      var r := DecimalString(n);
      assert r[..|r| - 1] == DecimalString(n / 10);
    }
  }

  /** Leading zeros do not change the number a numeral denotes. */
  lemma {:induction false} DecimalLeadingZeros(z: string, s: string)
    requires forall i :: 0 <= i < |z| ==> z[i] == '0'
    requires forall i :: 0 <= i < |s| ==> IsDigit(s[i])
    ensures forall i :: 0 <= i < |z + s| ==> IsDigit((z + s)[i])
    ensures DecimalValue(z + s) == DecimalValue(s)
    decreases |s|
  {
    if |s| == 0 {
      DecimalZeros(z);
      assert z + s == z;
    } else {
      DecimalLeadingZeros(z, s[..|s| - 1]);
      assert (z + s)[..|z + s| - 1] == z + s[..|s| - 1];
    }
  }

  /** A run of zeros denotes zero. */
  lemma {:induction false} DecimalZeros(z: string)
    requires forall i :: 0 <= i < |z| ==> z[i] == '0'
    ensures DecimalValue(z) == 0
    decreases |z|
  {
    if |z| > 0 {
      DecimalZeros(z[..|z| - 1]);
    }
  }

  /** `count` copies of `c`. */
  function Repeat(c: char, count: nat): (r: string)
    ensures |r| == count
    ensures forall i :: 0 <= i < count ==> r[i] == c
  {
    seq(count, i => c)
  }

  /** `s.padStart(width, c)`: `c` repeated on the left up to `width` characters. */
  function PadStart(s: string, width: nat, c: char): (r: string)
    ensures |s| >= width ==> r == s
    ensures |s| < width ==> |r| == width && r[width - |s|..] == s
    ensures forall i :: 0 <= i < |r| - |s| ==> r[i] == c
  {
    if |s| >= width then s else Repeat(c, width - |s|) + s
  }
}

=== FILE: translation_tree.dfy ===
/** Nested translation tables and the dotted key-path lookup over them. A
    table is a tree whose inner nodes map keys to sub-tables and whose leaves
    are the localized strings. */
module TranslationTree {
  import opened Wrappers
  import Text

  datatype Node = Leaf(text: string) | Branch(entries: seq<Entry>)
  datatype Entry = Entry(key: string, node: Node)

  /** The key-path separator. */
  const Dot: char := '.'

  /** The first entry under `key`, or nothing when no entry has that key. */
  function Lookup(entries: seq<Entry>, key: string): (r: Option<Node>)
    ensures r.None? <==> forall i :: 0 <= i < |entries| ==> entries[i].key != key
    ensures r.Some? ==> exists i :: 0 <= i < |entries| && entries[i].key == key && entries[i].node == r.value
  {
    if |entries| == 0 then None
    else if entries[0].key == key then Some(entries[0].node)
    else Lookup(entries[1..], key)
  }

  /** A key asked of a string: a numeral below the length picks that
      character, as a one-character string; any other key gives nothing. (The
      key `length` gives a number, which ends in the key path as nothing does.) */
  function CharAt(s: string, key: string): (r: Option<Node>)
    ensures r.Some? <==> exists i :: 0 <= i < |s| && Text.DecimalString(i) == key
    ensures forall i :: 0 <= i < |s| && Text.DecimalString(i) == key ==> r == Some(Leaf([s[i]]))
  {
    if Text.IsIndexName(key) && Text.DecimalValue(key) < |s| then
      Text.IndexNameRoundTrip(key);
      assert forall i :: 0 <= i < |s| && Text.DecimalString(i) == key ==> i == Text.DecimalValue(key) by {
        forall i | 0 <= i < |s| && Text.DecimalString(i) == key ensures i == Text.DecimalValue(key) {
          Text.DecimalIsIndexName(i);
        }
      }
      Some(Leaf([s[Text.DecimalValue(key)]]))
    else
      assert forall i :: 0 <= i < |s| && Text.DecimalString(i) == key ==> false by {
        forall i | 0 <= i < |s| && Text.DecimalString(i) == key ensures false {
          Text.DecimalIsIndexName(i);
        }
      }
      None
  }

  /** Follows `path` one key at a time from `node`. A missing key ends the
      walk with nothing; a key asked of a string reads one of its characters. */
  function Walk(node: Option<Node>, path: seq<string>): Option<Node>
    decreases |path|
  {
    if |path| == 0 then node
    else match node
      case Some(Branch(entries)) => Walk(Lookup(entries, path[0]), path[1..])
      case Some(Leaf(s)) => Walk(CharAt(s, path[0]), path[1..])
      case None => None
  }

  /** No key of the path is asked of a string: the walk only descends
      through sub-tables, or goes missing. */
  predicate TablesOnly(node: Option<Node>, path: seq<string>)
    decreases |path|
  {
    |path| == 0 ||
    match node
    case Some(Branch(entries)) => TablesOnly(Lookup(entries, path[0]), path[1..])
    case Some(Leaf(_)) => false
    case None => true
  }

  /** `translate(keyPath)`: the string at the end of the dotted path, or the
      key path itself when the path is missing or stops at a sub-table.
      `table` is absent when the current language has no table at all. */
  function Translate(table: Option<Node>, keyPath: string): (r: string)
    ensures Resolves(table, keyPath) ==> Walk(table, Text.Split(keyPath, Dot)) == Some(Leaf(r))
    ensures !Resolves(table, keyPath) ==> r == keyPath
  {
    match Walk(table, Text.Split(keyPath, Dot))
    case Some(Leaf(s)) => s
    case _ => keyPath
  }

  /** The key path names a string of the table. */
  predicate Resolves(table: Option<Node>, keyPath: string) {
    Walk(table, Text.Split(keyPath, Dot)).Some? && Walk(table, Text.Split(keyPath, Dot)).value.Leaf?
  }

  /** A walk that fails on a prefix of the path fails on the whole path. */
  lemma {:induction false} WalkPrefixMissing(node: Option<Node>, path: seq<string>, k: nat)
    requires k <= |path|
    requires Walk(node, path[..k]) == None
    ensures Walk(node, path) == None
    decreases k
  {
    if k > 0 {
      assert path[..k][1..] == path[1..][..k - 1];
      match node
      case Some(Branch(entries)) =>
        WalkPrefixMissing(Lookup(entries, path[0]), path[1..], k - 1);
      case Some(Leaf(s)) =>
        WalkPrefixMissing(CharAt(s, path[0]), path[1..], k - 1);
      case None =>
    }
  }

  /** Translating a path whose walk hits a string yields that string. */
  lemma TranslateFound(table: Option<Node>, segments: seq<string>, s: string)
    requires |segments| >= 1
    requires forall k :: 0 <= k < |segments| ==> Dot !in segments[k]
    requires Walk(table, segments) == Some(Leaf(s))
    ensures Translate(table, Text.Join(segments, Dot)) == s
    ensures Resolves(table, Text.Join(segments, Dot))
  {
    Text.SplitJoin(segments, Dot);
  }

  /** When some leading segments of the key path are already missing, the key path comes back unchanged. */
  lemma TranslateMissing(table: Option<Node>, keyPath: string, k: nat)
    requires k <= |Text.Split(keyPath, Dot)|
    requires Walk(table, Text.Split(keyPath, Dot)[..k]) == None
    ensures Translate(table, keyPath) == keyPath
    ensures !Resolves(table, keyPath)
  {
    WalkPrefixMissing(table, Text.Split(keyPath, Dot), k);
  }

  /** A key path that stops at a sub-table comes back unchanged. */
  lemma TranslateSubTable(table: Option<Node>, segments: seq<string>, entries: seq<Entry>)
    requires |segments| >= 1
    requires forall k :: 0 <= k < |segments| ==> Dot !in segments[k]
    requires Walk(table, segments) == Some(Branch(entries))
    ensures Translate(table, Text.Join(segments, Dot)) == Text.Join(segments, Dot)
  {
    Text.SplitJoin(segments, Dot);
  }

  // ---- Shapes: two tables with the same keys at the same places ----

  /** The table with every string blanked: what the `TranslationKeys` type fixes. */
  function Shape(node: Node): Node
    decreases node
  {
    match node
    case Leaf(_) => Leaf([])
    case Branch(entries) => Branch(ShapeEntries(entries))
  }

  function ShapeEntries(entries: seq<Entry>): (r: seq<Entry>)
    ensures |r| == |entries|
    ensures forall i :: 0 <= i < |r| ==> r[i].key == entries[i].key
    decreases entries
  {
    if |entries| == 0 then []
    else [Entry(entries[0].key, Shape(entries[0].node))] + ShapeEntries(entries[1..])
  }

  function ShapeOf(n: Option<Node>): Option<Node> {
    match n
    case Some(node) => Some(Shape(node))
    case None => None
  }

  /** Looking a key up in a blanked table finds the blanked sub-table. */
  lemma {:induction false} LookupShape(entries: seq<Entry>, key: string)
    ensures Lookup(ShapeEntries(entries), key) == ShapeOf(Lookup(entries, key))
  {
    if |entries| > 0 && entries[0].key != key {
      LookupShape(entries[1..], key);
      assert ShapeEntries(entries)[1..] == ShapeEntries(entries[1..]);
    }
  }

  /** Walking a blanked table follows the walk in the original one, as long
      as no key is asked of a string. */
  lemma {:induction false} WalkShape(node: Option<Node>, path: seq<string>)
    requires TablesOnly(node, path)
    ensures Walk(ShapeOf(node), path) == ShapeOf(Walk(node, path))
    decreases |path|
  {
    if |path| > 0 {
      match node
      case Some(Branch(entries)) =>
        LookupShape(entries, path[0]);
        WalkShape(Lookup(entries, path[0]), path[1..]);
      case None =>
    }
  }

  /** Whether a path only descends through sub-tables depends on the shape alone. */
  lemma {:induction false} TablesOnlyShape(node: Option<Node>, path: seq<string>)
    ensures TablesOnly(ShapeOf(node), path) <==> TablesOnly(node, path)
    decreases |path|
  {
    if |path| > 0 {
      match node
      case Some(Branch(entries)) =>
        LookupShape(entries, path[0]);
        TablesOnlyShape(Lookup(entries, path[0]), path[1..]);
      case Some(Leaf(_)) =>
      case None =>
    }
  }

  /** Two tables of the same shape resolve exactly the same key paths among
      those that ask no key of a string. */
  lemma SameShapeSameKeys(a: Node, b: Node, keyPath: string)
    requires Shape(a) == Shape(b)
    requires TablesOnly(Some(a), Text.Split(keyPath, Dot))
    ensures TablesOnly(Some(b), Text.Split(keyPath, Dot))
    ensures Resolves(Some(a), keyPath) <==> Resolves(Some(b), keyPath)
  {
    var path := Text.Split(keyPath, Dot);
    TablesOnlyShape(Some(a), path);
    TablesOnlyShape(Some(b), path);
    WalkShape(Some(a), path);
    WalkShape(Some(b), path);
    var wa := Walk(Some(a), path);
    var wb := Walk(Some(b), path);
    assert ShapeOf(wa) == ShapeOf(wb);
    if wa.Some? && wa.value.Leaf? {
      assert wb.Some? && Shape(wb.value) == Leaf([]);
    }
    if wb.Some? && wb.value.Leaf? {
      assert wa.Some? && Shape(wa.value) == Leaf([]);
    }
  }

  /** Reading a character of a string resolves on one table and not on a
      table of the same shape whose string is shorter. */
  lemma SameShapeStringIndex(a: Node, b: Node)
    requires a == Branch([Entry("k", Leaf("xy"))]) && b == Branch([Entry("k", Leaf("z"))])
    ensures Shape(a) == Shape(b)
    ensures Translate(Some(a), "k.0") == "x" && Translate(Some(b), "k.0") == "z"
    ensures Resolves(Some(a), "k.1") && !Resolves(Some(b), "k.1")
    ensures Translate(Some(b), "k.1") == "k.1"
  {
    assert Text.DecimalString(0) == "0" && Text.DecimalString(1) == "1";
    Text.SplitJoin(["k", "0"], Dot);
    Text.SplitJoin(["k", "1"], Dot);
    assert Text.Join(["k", "0"], Dot) == "k.0";
    assert Text.Join(["k", "1"], Dot) == "k.1";
    assert Walk(Some(a), ["k", "1"]) == Walk(Some(Leaf("xy")), ["1"]);
    assert Walk(Some(b), ["k", "1"]) == Walk(Some(Leaf("z")), ["1"]);
  }

  // ---- Tables built from a key schema and one column of strings ----

  /** One group of the `TranslationKeys` interface: its name and its keys in order. */
  datatype Group = Group(name: string, keys: seq<string>)

  /** The string in column `texts` for key `j` of group `i`; blank when the column is short. */
  function TextAt(texts: seq<seq<string>>, i: nat, j: nat): string {
    if i < |texts| && j < |texts[i]| then texts[i][j] else []
  }

  /** Every group of the schema has exactly one string per key in the column. */
  predicate Fits(schema: seq<Group>, texts: seq<seq<string>>) {
    |texts| == |schema| && forall i :: 0 <= i < |schema| ==> |texts[i]| == |schema[i].keys|
  }

  function BuildGroup(keys: seq<string>, texts: seq<seq<string>>, i: nat): (r: seq<Entry>)
    ensures |r| == |keys|
    ensures forall j :: 0 <= j < |keys| ==> r[j] == Entry(keys[j], Leaf(TextAt(texts, i, j)))
  {
    seq(|keys|, j requires 0 <= j < |keys| => Entry(keys[j], Leaf(TextAt(texts, i, j))))
  }

  /** The two-level table whose group `i`, key `j` holds `texts[i][j]`. */
  function Build(schema: seq<Group>, texts: seq<seq<string>>): (r: Node)
    ensures r.Branch? && |r.entries| == |schema|
    ensures forall i :: 0 <= i < |schema| ==>
      r.entries[i] == Entry(schema[i].name, Branch(BuildGroup(schema[i].keys, texts, i)))
  {
    Branch(seq(|schema|, i requires 0 <= i < |schema| =>
      Entry(schema[i].name, Branch(BuildGroup(schema[i].keys, texts, i)))))
  }

  lemma {:induction false} ShapeOfGroup(keys: seq<string>, t1: seq<seq<string>>, t2: seq<seq<string>>, i: nat)
    ensures ShapeEntries(BuildGroup(keys, t1, i)) == ShapeEntries(BuildGroup(keys, t2, i))
  {
    var a := ShapeEntries(BuildGroup(keys, t1, i));
    var b := ShapeEntries(BuildGroup(keys, t2, i));
    forall j | 0 <= j < |keys| ensures a[j] == b[j] {
      ShapeEntryAt(BuildGroup(keys, t1, i), j);
      ShapeEntryAt(BuildGroup(keys, t2, i), j);
    }
  }

  lemma {:induction false} ShapeEntryAt(entries: seq<Entry>, j: nat)
    requires j < |entries|
    ensures ShapeEntries(entries)[j] == Entry(entries[j].key, Shape(entries[j].node))
  {
    if j > 0 {
      ShapeEntryAt(entries[1..], j - 1);
    }
  }

  /** Any two columns over one schema give tables of the same shape. */
  lemma {:induction false} BuildSameShape(schema: seq<Group>, t1: seq<seq<string>>, t2: seq<seq<string>>)
    ensures Shape(Build(schema, t1)) == Shape(Build(schema, t2))
  {
    var a := ShapeEntries(Build(schema, t1).entries);
    var b := ShapeEntries(Build(schema, t2).entries);
    forall i | 0 <= i < |schema| ensures a[i] == b[i] {
      ShapeEntryAt(Build(schema, t1).entries, i);
      ShapeEntryAt(Build(schema, t2).entries, i);
      ShapeOfGroup(schema[i].keys, t1, t2, i);
    }
  }

  /** Group `i`, key `j` of a built table, when `i` and `j` are the first
      positions of their names, is reached by the two-segment path. */
  lemma {:induction false} WalkBuilt(schema: seq<Group>, texts: seq<seq<string>>, i: nat, j: nat)
    requires i < |schema| && j < |schema[i].keys|
    requires forall i' :: 0 <= i' < i ==> schema[i'].name != schema[i].name
    requires forall j' :: 0 <= j' < j ==> schema[i].keys[j'] != schema[i].keys[j]
    ensures Walk(Some(Build(schema, texts)), [schema[i].name, schema[i].keys[j]]) == Some(Leaf(TextAt(texts, i, j)))
  {
    var top := Build(schema, texts).entries;
    var group := BuildGroup(schema[i].keys, texts, i);
    assert top[i] == Entry(schema[i].name, Branch(group));
    LookupFirst(top, schema[i].name, i);
    assert group[j] == Entry(schema[i].keys[j], Leaf(TextAt(texts, i, j)));
    LookupFirst(group, schema[i].keys[j], j);
    var path := [schema[i].name, schema[i].keys[j]];
    assert Walk(Some(Branch(group)), path[1..]) == Walk(Lookup(group, schema[i].keys[j]), []);
  }

  /** In a built table a path of at most two segments never asks a key of a
      string: the strings sit at depth two. */
  lemma BuiltShortPaths(schema: seq<Group>, texts: seq<seq<string>>, path: seq<string>)
    requires |path| <= 2
    ensures TablesOnly(Some(Build(schema, texts)), path)
  {
    if |path| > 0 {
      var top := Build(schema, texts).entries;
      var g := Lookup(top, path[0]);
      if g.Some? {
        var i :| 0 <= i < |top| && top[i].key == path[0] && top[i].node == g.value;
        assert g.value == Branch(BuildGroup(schema[i].keys, texts, i));
        if |path| == 2 {
          var leaf := Lookup(BuildGroup(schema[i].keys, texts, i), path[1]);
          assert TablesOnly(leaf, path[1..][1..]);
        }
      }
    }
  }

  /** Lookup finds the entry at the first position holding the key. */
  lemma {:induction false} LookupFirst(entries: seq<Entry>, key: string, i: nat)
    requires i < |entries| && entries[i].key == key
    requires forall i' :: 0 <= i' < i ==> entries[i'].key != key
    ensures Lookup(entries, key) == Some(entries[i].node)
  {
    if i > 0 {
      LookupFirst(entries[1..], key, i - 1);
    }
  }

  /** A name that is no group of the schema is missing from the built table. */
  lemma LookupBuiltMissing(schema: seq<Group>, texts: seq<seq<string>>, name: string)
    requires forall i :: 0 <= i < |schema| ==> schema[i].name != name
    ensures Walk(Some(Build(schema, texts)), [name]) == None
  {
    var top := Build(schema, texts).entries;
    assert forall i :: 0 <= i < |top| ==> top[i].key == schema[i].name;
    assert [name][1..] == [];
  }
}

=== FILE: translations.dfy ===
/** The two translation tables the catalog ships with, Arabic and English.
    Both are built from one key schema, the `TranslationKeys` interface, and
    one column of strings per language, in the interface's order. */
module Translations {
  import opened TranslationTree

  const CommonKeys: seq<string> := ["loading", "error", "success", "cancel", "save", "delete", "edit", "add", "search", "filter", "export", "import", "refresh", "back", "next", "previous", "submit", "reset", "clear", "confirm", "yes", "no"]
  const AuthKeys: seq<string> := ["login", "logout", "username", "password", "email", "rememberMe", "forgotPassword", "resetPassword", "loginSuccess", "loginError", "logoutSuccess", "invalidCredentials", "sessionExpired", "resetEmailSent", "passwordResetSuccess", "showPassword", "hidePassword", "enterCredentials"]
  const NavKeys: seq<string> := ["dashboard", "patients", "appointments", "doctors", "reports", "settings", "profile", "help"]
  const DashboardKeys: seq<string> := ["welcome", "todayAppointments", "totalPatients", "totalDoctors", "revenue", "quickActions", "recentActivity"]
  const PatientsKeys: seq<string> := ["patientList", "addPatient", "editPatient", "patientDetails", "patientNumber", "firstName", "lastName", "dateOfBirth", "gender", "phone", "address", "nationalId", "emergencyContact", "medicalHistory", "allergies", "male", "female", "patientAdded", "patientUpdated", "patientDeleted"]
  const AppointmentsKeys: seq<string> := ["appointmentList", "addAppointment", "editAppointment", "appointmentDetails", "date", "time", "duration", "doctor", "patient", "reason", "status", "notes", "scheduled", "confirmed", "inProgress", "completed", "cancelled", "appointmentBooked", "appointmentUpdated", "appointmentCancelled"]
  const DoctorsKeys: seq<string> := ["doctorList", "addDoctor", "editDoctor", "doctorDetails", "specialization", "licenseNumber", "experience", "consultationFee", "workingHours", "schedule", "availability", "doctorAdded", "doctorUpdated"]
  const ValidationKeys: seq<string> := ["required", "invalidEmail", "invalidPhone", "passwordTooShort", "passwordsNotMatch", "invalidDate", "invalidNumber", "maxLength", "minLength"]
  const ErrorsKeys: seq<string> := ["networkError", "serverError", "notFound", "unauthorized", "forbidden", "validationError", "unknownError"]

  /** The `TranslationKeys` interface: every group and its keys. */
  const Schema: seq<Group> := [
    Group("common", CommonKeys),
    Group("auth", AuthKeys),
    Group("nav", NavKeys),
    Group("dashboard", DashboardKeys),
    Group("patients", PatientsKeys),
    Group("appointments", AppointmentsKeys),
    Group("doctors", DoctorsKeys),
    Group("validation", ValidationKeys),
    Group("errors", ErrorsKeys)
  ]

  // Arabic strings, one list per group.
  const ArCommon: seq<string> := [
    "جاري التحميل...",
    "خطأ",
    "نجح",
    "إلغاء",
    "حفظ",
    "حذف",
    "تعديل",
    "إضافة",
    "بحث",
    "تصفية",
    "تصدير",
    "استيراد",
    "تحديث",
    "رجوع",
    "التالي",
    "السابق",
    "إرسال",
    "إعادة تعيين",
    "مسح",
    "تأكيد",
    "نعم",
    "لا"
  ]
  const ArAuth: seq<string> := [
    "تسجيل الدخول",
    "تسجيل الخروج",
    "اسم المستخدم",
    "كلمة المرور",
    "البريد الإلكتروني",
    "تذكرني",
    "نسيت كلمة المرور؟",
    "إعادة تعيين كلمة المرور",
    "تم تسجيل الدخول بنجاح",
    "فشل في تسجيل الدخول",
    "تم تسجيل الخروج بنجاح",
    "اسم المستخدم أو كلمة المرور غير صحيحة",
    "انتهت صلاحية الجلسة",
    "تم إرسال رابط إعادة التعيين إلى بريدك الإلكتروني",
    "تم إعادة تعيين كلمة المرور بنجاح",
    "إظهار كلمة المرور",
    "إخفاء كلمة المرور",
    "يرجى إدخال بيانات الدخول للمتابعة"
  ]
  const ArNav: seq<string> := [
    "لوحة التحكم",
    "المرضى",
    "المواعيد",
    "الأطباء",
    "التقارير",
    "الإعدادات",
    "الملف الشخصي",
    "المساعدة"
  ]
  const ArDashboard: seq<string> := [
    "مرحباً بك في عيادة حكيم",
    "مواعيد اليوم",
    "إجمالي المرضى",
    "إجمالي الأطباء",
    "الإيرادات",
    "إجراءات سريعة",
    "النشاط الأخير"
  ]
  const ArPatients: seq<string> := [
    "قائمة المرضى",
    "إضافة مريض",
    "تعديل بيانات المريض",
    "تفاصيل المريض",
    "رقم المريض",
    "الاسم الأول",
    "اسم العائلة",
    "تاريخ الميلاد",
    "الجنس",
    "رقم الهاتف",
    "العنوان",
    "رقم الهوية",
    "جهة الاتصال للطوارئ",
    "التاريخ المرضي",
    "الحساسية",
    "ذكر",
    "أنثى",
    "تم إضافة المريض بنجاح",
    "تم تحديث بيانات المريض بنجاح",
    "تم حذف المريض بنجاح"
  ]
  const ArAppointments: seq<string> := [
    "قائمة المواعيد",
    "حجز موعد",
    "تعديل الموعد",
    "تفاصيل الموعد",
    "التاريخ",
    "الوقت",
    "المدة",
    "الطبيب",
    "المريض",
    "سبب الزيارة",
    "الحالة",
    "ملاحظات",
    "مجدول",
    "مؤكد",
    "قيد التنفيذ",
    "مكتمل",
    "ملغى",
    "تم حجز الموعد بنجاح",
    "تم تحديث الموعد بنجاح",
    "تم إلغاء الموعد بنجاح"
  ]
  const ArDoctors: seq<string> := [
    "قائمة الأطباء",
    "إضافة طبيب",
    "تعديل بيانات الطبيب",
    "تفاصيل الطبيب",
    "التخصص",
    "رقم الترخيص",
    "سنوات الخبرة",
    "رسوم الاستشارة",
    "ساعات العمل",
    "الجدول",
    "التوفر",
    "تم إضافة الطبيب بنجاح",
    "تم تحديث بيانات الطبيب بنجاح"
  ]
  const ArValidation: seq<string> := [
    "هذا الحقل مطلوب",
    "البريد الإلكتروني غير صحيح",
    "رقم الهاتف غير صحيح",
    "كلمة المرور قصيرة جداً",
    "كلمات المرور غير متطابقة",
    "التاريخ غير صحيح",
    "الرقم غير صحيح",
    "تجاوز الحد الأقصى للأحرف",
    "لم يتم الوصول للحد الأدنى للأحرف"
  ]
  const ArErrors: seq<string> := [
    "خطأ في الاتصال بالشبكة",
    "خطأ في الخادم",
    "الصفحة غير موجودة",
    "غير مخول للوصول",
    "غير مسموح",
    "خطأ في التحقق من البيانات",
    "خطأ غير معروف"
  ]

  const ArTexts: seq<seq<string>> := [ArCommon, ArAuth, ArNav, ArDashboard, ArPatients, ArAppointments, ArDoctors, ArValidation, ArErrors]

  // English strings, one list per group.
  const EnCommon: seq<string> := [
    "Loading...",
    "Error",
    "Success",
    "Cancel",
    "Save",
    "Delete",
    "Edit",
    "Add",
    "Search",
    "Filter",
    "Export",
    "Import",
    "Refresh",
    "Back",
    "Next",
    "Previous",
    "Submit",
    "Reset",
    "Clear",
    "Confirm",
    "Yes",
    "No"
  ]
  const EnAuth: seq<string> := [
    "Login",
    "Logout",
    "Username",
    "Password",
    "Email",
    "Remember Me",
    "Forgot Password?",
    "Reset Password",
    "Login successful",
    "Login failed",
    "Logout successful",
    "Invalid username or password",
    "Session expired",
    "Reset link sent to your email",
    "Password reset successful",
    "Show Password",
    "Hide Password",
    "Please enter your credentials to continue"
  ]
  const EnNav: seq<string> := [
    "Dashboard",
    "Patients",
    "Appointments",
    "Doctors",
    "Reports",
    "Settings",
    "Profile",
    "Help"
  ]
  const EnDashboard: seq<string> := [
    "Welcome to HakimClinic",
    "Today's Appointments",
    "Total Patients",
    "Total Doctors",
    "Revenue",
    "Quick Actions",
    "Recent Activity"
  ]
  const EnPatients: seq<string> := [
    "Patient List",
    "Add Patient",
    "Edit Patient",
    "Patient Details",
    "Patient Number",
    "First Name",
    "Last Name",
    "Date of Birth",
    "Gender",
    "Phone",
    "Address",
    "National ID",
    "Emergency Contact",
    "Medical History",
    "Allergies",
    "Male",
    "Female",
    "Patient added successfully",
    "Patient updated successfully",
    "Patient deleted successfully"
  ]
  const EnAppointments: seq<string> := [
    "Appointment List",
    "Book Appointment",
    "Edit Appointment",
    "Appointment Details",
    "Date",
    "Time",
    "Duration",
    "Doctor",
    "Patient",
    "Reason",
    "Status",
    "Notes",
    "Scheduled",
    "Confirmed",
    "In Progress",
    "Completed",
    "Cancelled",
    "Appointment booked successfully",
    "Appointment updated successfully",
    "Appointment cancelled successfully"
  ]
  const EnDoctors: seq<string> := [
    "Doctor List",
    "Add Doctor",
    "Edit Doctor",
    "Doctor Details",
    "Specialization",
    "License Number",
    "Experience",
    "Consultation Fee",
    "Working Hours",
    "Schedule",
    "Availability",
    "Doctor added successfully",
    "Doctor updated successfully"
  ]
  const EnValidation: seq<string> := [
    "This field is required",
    "Invalid email address",
    "Invalid phone number",
    "Password is too short",
    "Passwords do not match",
    "Invalid date",
    "Invalid number",
    "Maximum length exceeded",
    "Minimum length not met"
  ]
  const EnErrors: seq<string> := [
    "Network connection error",
    "Server error",
    "Page not found",
    "Unauthorized access",
    "Access forbidden",
    "Data validation error",
    "Unknown error"
  ]

  const EnTexts: seq<seq<string>> := [EnCommon, EnAuth, EnNav, EnDashboard, EnPatients, EnAppointments, EnDoctors, EnValidation, EnErrors]

  /** The Arabic table. */
  function ArTable(): Node {
    Build(Schema, ArTexts)
  }

  /** The English table. */
  function EnTable(): Node {
    Build(Schema, EnTexts)
  }
}

=== FILE: two_factor_auth.dfy ===
/** The two-factor verification card (`TwoFactorAuth`) as a step machine.
    Its timers become events: each pending `setTimeout` waits in a queue
    (all delays of one kind are equal, so they elapse in order), and every
    running `setInterval` may fire; `intervals` counts the running ones.
    Each handler sees the state of the latest render, which is the state the
    event is applied to. */
module TwoFactorAuth {
  import opened Wrappers
  import Text

  datatype TfaStep = MethodSelection | CodeVerification | BackupCodes | Success

  datatype Method = Sms | Email | Authenticator | Backup

  /** A verification waiting for its one-second delay: the code and attempt
      count of the render that started it, and the method then selected. */
  datatype PendingCheck = PendingCheck(code: string, priorAttempts: nat, selected: Method)

  datatype TfaState = TfaState(
    step: TfaStep,
    selected: Method,
    code: string,
    isLoading: bool,
    countdown: nat,
    attempts: nat,
    sends: seq<Method>,
    checks: seq<PendingCheck>,
    intervals: nat,
    completed: seq<(Method, string)>)

  /** The number of slots of the code input. */
  const CodeLength: nat := 6

  /** The seconds before a code may be sent again. */
  const ResendDelay: nat := 120

  /** The code every verification accepts. */
  const SentinelCode: string := "123456"

  const Initial: TfaState := TfaState(MethodSelection, Sms, [], false, 0, 0, [], [], 0, [])

  /** The methods whose code is sent to the user, and which therefore start a countdown. */
  predicate IsSent(m: Method) {
    m == Sms || m == Email
  }

  /** Choosing a radio option selects the method but sends nothing: no send
      or check is scheduled, and the step, input, countdown and attempts stay. */
  function Pick(s: TfaState, m: Method): (r: TfaState)
    ensures r.selected == m
    ensures r.sends == s.sends && r.checks == s.checks && r.isLoading == s.isLoading
    ensures r.step == s.step && r.code == s.code && r.countdown == s.countdown && r.attempts == s.attempts
    ensures r.completed == s.completed && r.intervals == s.intervals
  {
    s.(selected := m)
  }

  /** `handleMethodSelect(method)`: the method is selected and a code is being sent. */
  function MethodSelect(s: TfaState, m: Method): (r: TfaState)
    ensures r.selected == m && r.isLoading
    ensures r.sends == s.sends + [m]
    ensures r.step == s.step && r.code == s.code && r.countdown == s.countdown
    ensures r.attempts == s.attempts && r.checks == s.checks && r.intervals == s.intervals
  {
    s.(selected := m, isLoading := true, sends := s.sends + [m])
  }

  /** The continue button, which is disabled while loading: a click sends a
      code for the selected method unless a send or check is in progress. */
  function Continue(s: TfaState): (r: TfaState)
    ensures s.isLoading ==> r == s
    ensures !s.isLoading ==> r.isLoading && r.sends == s.sends + [s.selected] && r.selected == s.selected
    ensures r.step == s.step && r.code == s.code && r.checks == s.checks && r.attempts == s.attempts
  {
    if s.isLoading then s else MethodSelect(s, s.selected)
  }

  /** The send delay elapses: the code step opens, and a sent code starts
      the countdown with a fresh interval. */
  function SendElapsed(s: TfaState): (r: TfaState)
    ensures |s.sends| == 0 ==> r == s
    ensures |s.sends| > 0 ==>
      && r.step == CodeVerification && !r.isLoading && r.sends == s.sends[1..]
      && r.countdown == (if IsSent(s.sends[0]) then ResendDelay else s.countdown)
      && r.intervals == (if IsSent(s.sends[0]) then s.intervals + 1 else s.intervals)
      && r.code == s.code && r.attempts == s.attempts && r.selected == s.selected
  {
    if |s.sends| == 0 then s
    else
      var shown := s.(sends := s.sends[1..], isLoading := false, step := CodeVerification);
      if IsSent(s.sends[0]) then shown.(countdown := ResendDelay, intervals := s.intervals + 1)
      else shown
  }

  /** Typing into the code input, which holds at most six characters. */
  function EnterCode(s: TfaState, code: string): (r: TfaState)
    ensures |r.code| <= CodeLength
    ensures |code| <= CodeLength ==> r.code == code
    ensures |code| > CodeLength ==> r.code == code[..CodeLength]
    ensures r == s.(code := r.code)
  {
    s.(code := if |code| <= CodeLength then code else code[..CodeLength])
  }

  /** `handleCodeVerification`: a short code is ignored; otherwise one more
      attempt is counted and a check is scheduled. */
  function Verify(s: TfaState): (r: TfaState)
    ensures |s.code| < CodeLength ==> r == s
    ensures |s.code| >= CodeLength ==>
      && r.attempts == s.attempts + 1 && r.isLoading
      && r.checks == s.checks + [PendingCheck(s.code, s.attempts, s.selected)]
      && r.step == s.step && r.code == s.code && r.countdown == s.countdown && r.sends == s.sends
  {
    if |s.code| < CodeLength then s
    else s.(isLoading := true, attempts := s.attempts + 1,
            checks := s.checks + [PendingCheck(s.code, s.attempts, s.selected)])
  }

  /** The verification rule: the sentinel code, or any code once two attempts have been made. */
  predicate Accepts(c: PendingCheck) {
    c.code == SentinelCode || c.priorAttempts >= 2
  }

  /** The verification delay elapses: success reports the method and code to
      the caller; failure clears the input. */
  function CheckElapsed(s: TfaState): (r: TfaState)
    ensures |s.checks| == 0 ==> r == s
    ensures |s.checks| > 0 ==> !r.isLoading && r.checks == s.checks[1..] && r.attempts == s.attempts
    ensures |s.checks| > 0 && Accepts(s.checks[0]) ==>
      r.step == Success && r.completed == s.completed + [(s.checks[0].selected, s.checks[0].code)] && r.code == s.code
    ensures |s.checks| > 0 && !Accepts(s.checks[0]) ==>
      r.step == s.step && r.completed == s.completed && r.code == []
  {
    if |s.checks| == 0 then s
    else
      var c := s.checks[0];
      var done := s.(checks := s.checks[1..], isLoading := false);
      if Accepts(c) then done.(step := Success, completed := s.completed + [(c.selected, c.code)])
      else done.(code := [])
  }

  /** One step of the countdown. */
  function Tick(c: nat): (r: nat)
    ensures c > 0 ==> r == c - 1
    ensures c == 0 ==> r == 0
  {
    if c <= 1 then 0 else c - 1
  }

  /** A running interval fires: the countdown steps down, and the interval
      that brings it to zero stops itself. With no interval running nothing fires. */
  function Fire(s: TfaState): (r: TfaState)
    ensures s.intervals == 0 ==> r == s
    ensures s.intervals > 0 ==> r.countdown == Tick(s.countdown)
    ensures s.intervals > 0 ==> r.intervals == (if s.countdown <= 1 then s.intervals - 1 else s.intervals)
    ensures r == s.(countdown := r.countdown, intervals := r.intervals)
  {
    if s.intervals == 0 then s
    else if s.countdown <= 1 then s.(countdown := 0, intervals := s.intervals - 1)
    else s.(countdown := s.countdown - 1)
  }

  /** `n` successive firings. */
  function Fires(s: TfaState, n: nat): TfaState
    decreases n
  {
    if n == 0 then s else Fires(Fire(s), n - 1)
  }

  /** `handleResendCode` as written: the countdown is set back to 120 and the
      input cleared, but no interval is started. */
  function ResendAsWritten(s: TfaState): (r: TfaState)
    ensures r.countdown == ResendDelay && r.code == [] && r.intervals == s.intervals
  {
    s.(countdown := ResendDelay, code := [])
  }

  /** Resending with the countdown actually running again: an interval is
      started when none is running. */
  function Resend(s: TfaState): (r: TfaState)
    ensures r.countdown == ResendDelay && r.code == [] && r.intervals >= 1
    ensures r == ResendAsWritten(s).(intervals := r.intervals)
  {
    s.(countdown := ResendDelay, code := [], intervals := if s.intervals == 0 then 1 else s.intervals)
  }

  /** The change-method button, which is disabled while loading: it returns
      to method selection and cancels nothing, so a countdown, the attempts and
      the input survive the way back. */
  function ChangeMethod(s: TfaState): (r: TfaState)
    ensures r.step == MethodSelection <==> !s.isLoading || s.step == MethodSelection
    ensures s.isLoading ==> r == s
    ensures r.sends == s.sends && r.checks == s.checks && r.attempts == s.attempts
    ensures r.countdown == s.countdown && r.intervals == s.intervals && r.code == s.code
    ensures r.selected == s.selected && r.completed == s.completed
  {
    if s.isLoading then s else s.(step := MethodSelection)
  }

  /** `formatCountdown(seconds)`: minutes, a colon, and the seconds padded to two digits. */
  function FormatCountdown(seconds: nat): string {
    Text.DecimalString(seconds / 60) + ":" + Text.PadStart(Text.DecimalString(seconds % 60), 2, '0')
  }

  /** The button on the success step hands the method and the input to the
      caller again, whatever the input holds by then: it is not disabled while
      the check is pending, so the code may have been edited meanwhile. */
  function Complete(s: TfaState): (r: TfaState)
    ensures s.step != Success ==> r == s
    ensures s.step == Success ==> r.completed == s.completed + [(s.selected, s.code)]
    ensures r == s.(completed := r.completed)
  {
    if s.step == Success then s.(completed := s.completed + [(s.selected, s.code)]) else s
  }

  /** The warning on the code step once an attempt has been made and the
      input is empty, with the attempts left. */
  function RemainingAttempts(s: TfaState): (r: Option<int>)
    ensures r.Some? <==> s.step == CodeVerification && s.attempts > 0 && s.code == []
    ensures r.Some? ==> r.value + s.attempts == 3
  {
    if s.step == CodeVerification && s.attempts > 0 && s.code == [] then Some(3 - s.attempts) else None
  }

  /** The resend button is offered instead of the countdown. */
  predicate ResendOffered(s: TfaState) {
    s.step == CodeVerification && IsSent(s.selected) && s.countdown == 0
  }

  // ---- Events and runs ----

  /** The user's actions and the timers. `VerifyRequested` stands both for the
      verify button and for the input's own completion callback, which asks
      for a check when the sixth character is typed. */
  datatype Event =
    | PickMethod(m: Method)
    | SelectMethod(m: Method)
    | ContinueClicked
    | SendDelayElapsed
    | CodeEntered(code: string)
    | VerifyRequested
    | CheckDelayElapsed
    | IntervalFired
    | ResendClicked
    | ChangeMethodClicked
    | CompleteClicked

  /** The component as written: a resend click runs `handleResendCode`
      unchanged, so it starts no countdown of its own. */
  function Apply(s: TfaState, e: Event): TfaState {
    match e
    case PickMethod(m) => Pick(s, m)
    case SelectMethod(m) => MethodSelect(s, m)
    case ContinueClicked => Continue(s)
    case SendDelayElapsed => SendElapsed(s)
    case CodeEntered(code) => EnterCode(s, code)
    case VerifyRequested => Verify(s)
    case CheckDelayElapsed => CheckElapsed(s)
    case IntervalFired => Fire(s)
    case ResendClicked => ResendAsWritten(s)
    case ChangeMethodClicked => ChangeMethod(s)
    case CompleteClicked => Complete(s)
  }

  /** The component with the resend handler corrected: every event acts as
      in `Apply` except a resend click, which restarts the countdown. */
  function ApplyFixed(s: TfaState, e: Event): (r: TfaState)
    ensures !e.ResendClicked? ==> r == Apply(s, e)
    ensures e.ResendClicked? ==> r == Apply(s, e).(intervals := r.intervals) && r.intervals >= 1
  {
    if e.ResendClicked? then Resend(s) else Apply(s, e)
  }

  function Run(s: TfaState, events: seq<Event>): TfaState
    decreases |events|
  {
    if |events| == 0 then s else Run(Apply(s, events[0]), events[1..])
  }

  /** What every reachable state satisfies: the countdown stays within two
      minutes, the input within six characters, only full-length codes are
      checked, no reported code is longer than six characters, and nothing is
      loading once no delay is pending. */
  predicate Inv(s: TfaState) {
    && s.countdown <= ResendDelay
    && |s.code| <= CodeLength
    && (forall i :: 0 <= i < |s.checks| ==> |s.checks[i].code| == CodeLength)
    && (forall i :: 0 <= i < |s.completed| ==> |s.completed[i].1| <= CodeLength)
    && (|s.sends| == 0 && |s.checks| == 0 ==> !s.isLoading)
  }

  lemma InitialInv()
    ensures Inv(Initial)
    ensures Initial.step == MethodSelection && Initial.selected == Sms && Initial.code == []
    ensures Initial.countdown == 0 && Initial.attempts == 0 && !Initial.isLoading
  {
  }

  lemma {:induction false} ApplyKeepsInv(s: TfaState, e: Event)
    requires Inv(s)
    ensures Inv(Apply(s, e))
    ensures Inv(ApplyFixed(s, e))
  {
    match e
    case CheckDelayElapsed =>
      if |s.checks| > 0 {
        var r := CheckElapsed(s);
        assert forall i :: 0 <= i < |r.checks| ==> r.checks[i] == s.checks[i + 1];
        if Accepts(s.checks[0]) {
          assert forall i :: 0 <= i < |s.completed| ==> r.completed[i] == s.completed[i];
          assert r.completed[|s.completed|].1 == s.checks[0].code;
        }
      }
    case VerifyRequested =>
      if |s.code| >= CodeLength {
        var r := Verify(s);
        assert forall i :: 0 <= i < |s.checks| ==> r.checks[i] == s.checks[i];
      }
    case CompleteClicked =>
      if s.step == Success {
        var r := Complete(s);
        assert forall i :: 0 <= i < |s.completed| ==> r.completed[i] == s.completed[i];
      }
    case _ =>
  }

  lemma {:induction false} RunKeepsInv(s: TfaState, events: seq<Event>)
    requires Inv(s)
    ensures Inv(Run(s, events))
    decreases |events|
  {
    if |events| > 0 {
      ApplyKeepsInv(s, events[0]);
      RunKeepsInv(Apply(s, events[0]), events[1..]);
    }
  }

  /** Running two event sequences one after the other. */
  lemma {:induction false} RunConcat(s: TfaState, a: seq<Event>, b: seq<Event>)
    ensures Run(s, a + b) == Run(Run(s, a), b)
    decreases |a|
  {
    if |a| > 0 {
      assert (a + b)[0] == a[0];
      assert (a + b)[1..] == a[1..] + b;
      RunConcat(Apply(s, a[0]), a[1..], b);
    } else {
      assert a + b == b;
    }
  }

  /** One round of typing a code, asking for it to be checked, and the check completing. */
  lemma RunRound(s: TfaState, c: string)
    ensures Run(s, [CodeEntered(c), VerifyRequested, CheckDelayElapsed]) == CheckElapsed(Verify(EnterCode(s, c)))
  {
    var es := [CodeEntered(c), VerifyRequested, CheckDelayElapsed];
    var s1 := EnterCode(s, c);
    var s2 := Verify(s1);
    assert es[1..] == [VerifyRequested, CheckDelayElapsed];
    assert es[1..][1..] == [CheckDelayElapsed];
    assert Run(s2, [CheckDelayElapsed]) == Run(CheckElapsed(s2), []);
    assert Run(s1, es[1..]) == Run(s2, es[1..][1..]);
    assert Run(s, es) == Run(s1, es[1..]);
  }

  // ---- Properties ----

  /** Picking a radio option and pressing continue is `handleMethodSelect`
      for the picked method. */
  lemma PickThenContinue(s: TfaState, m: Method)
    requires !s.isLoading
    ensures Continue(Pick(s, m)) == MethodSelect(s, m)
  {
  }

  /** A double click on continue sends one code: the button is disabled by
      the first click's loading. */
  lemma ContinueTwice(s: TfaState)
    ensures Continue(Continue(s)) == Continue(s)
    ensures |Continue(Continue(s)).sends| <= |s.sends| + 1
  {
  }

  /** Going back to method selection and picking the same method again sends
      a second code while the first countdown keeps running. */
  lemma ChangeMethodKeepsCountdown(s: TfaState)
    requires !s.isLoading && s.step == CodeVerification
    ensures Continue(ChangeMethod(s)).countdown == s.countdown
    ensures Continue(ChangeMethod(s)).intervals == s.intervals
    ensures Continue(ChangeMethod(s)).sends == s.sends + [s.selected]
    ensures Continue(ChangeMethod(s)).step == MethodSelection
  {
  }

  /** The success button reports the input as it stands: a code edited while
      the check was pending is reported shortened, after the checked one. */
  lemma EditedCodeReported()
    ensures Complete(CheckElapsed(EnterCode(Verify(EnterCode(SendElapsed(MethodSelect(Initial, Sms)), "123456")), "12345"))).completed
      == [(Sms, "123456"), (Sms, "12345")]
  {
    var s := EnterCode(SendElapsed(MethodSelect(Initial, Sms)), "123456");
    assert |s.code| == 6;
    var t := CheckElapsed(EnterCode(Verify(s), "12345"));
    assert t.step == Success && t.code == "12345";
  }

  /** Firing `n` times while an interval runs counts down by `n`, never below zero. */
  lemma {:induction false} FiresCountDown(s: TfaState, n: nat)
    requires s.intervals >= 1
    ensures Fires(s, n).countdown == if n >= s.countdown then 0 else s.countdown - n
    decreases n
  {
    if n > 0 {
      if s.countdown <= 1 {
        FiresAtZero(Fire(s), n - 1);
      } else {
        FiresCountDown(Fire(s), n - 1);
      }
    }
  }

  /** Once the countdown is at zero it stays there. */
  lemma {:induction false} FiresAtZero(s: TfaState, n: nat)
    requires s.countdown == 0
    ensures Fires(s, n).countdown == 0
    decreases n
  {
    if n > 0 {
      FiresAtZero(Fire(s), n - 1);
    }
  }

  /** With no interval running, firings change nothing. */
  lemma {:induction false} FiresWithoutInterval(s: TfaState, n: nat)
    requires s.intervals == 0
    ensures Fires(s, n) == s
    decreases n
  {
    if n > 0 {
      FiresWithoutInterval(Fire(s), n - 1);
    }
  }

  /** Choosing SMS or email and waiting out the send delay opens the code
      step with a two-minute countdown that runs out after 120 firings,
      when the resend button is offered. */
  lemma SentCodeCountdown(m: Method)
    requires IsSent(m)
    ensures SendElapsed(MethodSelect(Initial, m)).step == CodeVerification
    ensures SendElapsed(MethodSelect(Initial, m)).countdown == 120
    ensures ResendOffered(Fires(SendElapsed(MethodSelect(Initial, m)), 120))
  {
    var s := SendElapsed(MethodSelect(Initial, m));
    FiresCountDown(s, 120);
    FiresKeepStep(s, 120);
  }

  /** Firings touch only the countdown and the interval count. */
  lemma {:induction false} FiresKeepStep(s: TfaState, n: nat)
    ensures Fires(s, n) == s.(countdown := Fires(s, n).countdown, intervals := Fires(s, n).intervals)
    decreases n
  {
    if n > 0 {
      FiresKeepStep(Fire(s), n - 1);
    }
  }

  /** The authenticator and backup codes open the code step without a countdown. */
  lemma UnsentCodeNoCountdown(m: Method)
    requires !IsSent(m)
    ensures SendElapsed(MethodSelect(Initial, m)).step == CodeVerification
    ensures SendElapsed(MethodSelect(Initial, m)).countdown == 0
    ensures SendElapsed(MethodSelect(Initial, m)).intervals == 0
  {
  }

  /** Three full-length attempts, each checked before the next, always end in
      success, whatever the codes: the third attempt is accepted unconditionally. */
  lemma ThirdAttemptSucceeds(s: TfaState, c1: string, c2: string, c3: string)
    requires s.attempts == 0 && s.checks == []
    requires |c1| == CodeLength && |c2| == CodeLength && |c3| == CodeLength
    ensures Run(s, [CodeEntered(c1), VerifyRequested, CheckDelayElapsed,
                    CodeEntered(c2), VerifyRequested, CheckDelayElapsed,
                    CodeEntered(c3), VerifyRequested, CheckDelayElapsed]).step == Success
  {
    var s1 := CheckElapsed(Verify(EnterCode(s, c1)));
    var s2 := CheckElapsed(Verify(EnterCode(s1, c2)));
    var s3 := CheckElapsed(Verify(EnterCode(s2, c3)));
    assert s1.attempts == 1 && s1.checks == [];
    assert s2.attempts == 2 && s2.checks == [];
    assert Verify(EnterCode(s2, c3)).checks == [PendingCheck(c3, 2, s2.selected)];
    assert s3.step == Success;
    var round := (c: string) => [CodeEntered(c), VerifyRequested, CheckDelayElapsed];
    RunRound(s, c1);
    RunRound(s1, c2);
    RunRound(s2, c3);
    RunConcat(s, round(c1), round(c2) + round(c3));
    RunConcat(s1, round(c2), round(c3));
    assert round(c1) + (round(c2) + round(c3)) ==
      [CodeEntered(c1), VerifyRequested, CheckDelayElapsed,
       CodeEntered(c2), VerifyRequested, CheckDelayElapsed,
       CodeEntered(c3), VerifyRequested, CheckDelayElapsed];
  }

  /** A first attempt succeeds exactly with the sentinel code, and a failed
      one clears the input, stays on the code step, and leaves two attempts. */
  lemma FirstAttempt(s: TfaState, code: string)
    requires s.step == CodeVerification && s.attempts == 0 && s.checks == [] && |code| == CodeLength
    ensures CheckElapsed(Verify(EnterCode(s, code))).step == Success <==> code == SentinelCode
    ensures code != SentinelCode ==>
      && CheckElapsed(Verify(EnterCode(s, code))).code == []
      && RemainingAttempts(CheckElapsed(Verify(EnterCode(s, code)))) == Some(2)
  {
  }

  /** `formatCountdown` writes minutes and seconds so that they read back as
      the number of seconds, with the seconds always in two digits below 60. */
  lemma FormatCountdownReadsBack(seconds: nat)
    ensures exists mins: string, secs: string ::
      && FormatCountdown(seconds) == mins + ":" + secs
      && |secs| == 2
      && (forall i :: 0 <= i < |mins| ==> Text.IsDigit(mins[i]))
      && (forall i :: 0 <= i < |secs| ==> Text.IsDigit(secs[i]))
      && Text.DecimalValue(secs) < 60
      && Text.DecimalValue(mins) * 60 + Text.DecimalValue(secs) == seconds
  {
    var mins := Text.DecimalString(seconds / 60);
    var secs := Text.PadStart(Text.DecimalString(seconds % 60), 2, '0');
    Text.DecimalRoundTrip(seconds / 60);
    SecondsField(seconds % 60);
    assert FormatCountdown(seconds) == mins + ":" + secs;
  }

  /** The seconds field: a number below 60 padded to two digits reads back as itself. */
  lemma SecondsField(n: nat)
    requires n < 60
    ensures |Text.PadStart(Text.DecimalString(n), 2, '0')| == 2
    ensures forall i :: 0 <= i < 2 ==> Text.IsDigit(Text.PadStart(Text.DecimalString(n), 2, '0')[i])
    ensures Text.DecimalValue(Text.PadStart(Text.DecimalString(n), 2, '0')) == n
  {
    var raw := Text.DecimalString(n);
    var secs := Text.PadStart(raw, 2, '0');
    Text.DecimalRoundTrip(n);
    assert |raw| <= 2;
    var zeros := secs[..|secs| - |raw|];
    assert secs == zeros + raw;
    Text.DecimalLeadingZeros(zeros, raw);
  }

  /** Examples: two minutes, the last minute, and a minute and one second. */
  lemma FormatCountdownExamples()
    ensures FormatCountdown(120) == "2:00"
    ensures FormatCountdown(59) == "0:59"
    ensures FormatCountdown(61) == "1:01"
  {
    assert Text.DecimalString(2) == "2";
    assert Text.DecimalString(0) == "0";
    assert Text.DecimalString(1) == "1";
    assert Text.DecimalString(59) == Text.DecimalString(5) + "9";
  }

  // ---- The resend countdown ----

  /** As written, resending after the countdown has run out sets it to 120
      but nothing counts it down again: the resend button never returns. */
  lemma ResendAsWrittenFreezes(n: nat)
    ensures ResendOffered(Fires(SendElapsed(MethodSelect(Initial, Sms)), 120))
    ensures Fires(SendElapsed(MethodSelect(Initial, Sms)), 120).intervals == 0
    ensures Fires(ResendAsWritten(Fires(SendElapsed(MethodSelect(Initial, Sms)), 120)), n).countdown == 120
    ensures !ResendOffered(Fires(ResendAsWritten(Fires(SendElapsed(MethodSelect(Initial, Sms)), 120)), n))
  {
    var s := SendElapsed(MethodSelect(Initial, Sms));
    SentCodeCountdown(Sms);
    FiresIntervalsAfterRunOut(s, 120);
    var t := Fires(s, 120);
    FiresWithoutInterval(ResendAsWritten(t), n);
  }

  /** `n` copies of one event. */
  function Repeat(e: Event, n: nat): (r: seq<Event>)
    ensures |r| == n && forall i :: 0 <= i < n ==> r[i] == e
  {
    if n == 0 then [] else [e] + Repeat(e, n - 1)
  }

  /** Running `n` interval firings is firing `n` times. */
  lemma {:induction false} RunFires(s: TfaState, n: nat)
    ensures Run(s, Repeat(IntervalFired, n)) == Fires(s, n)
    decreases n
  {
    if n > 0 {
      assert Repeat(IntervalFired, n)[1..] == Repeat(IntervalFired, n - 1);
      RunFires(Fire(s), n - 1);
    }
  }

  /** The freeze as a run of the component: choose SMS, let the send delay
      and 120 firings pass, click resend, and then no number of firings
      moves the countdown off 120 or brings the resend button back. */
  lemma ResendFreezesRun(n: nat)
    ensures Run(Initial, [SelectMethod(Sms), SendDelayElapsed] + Repeat(IntervalFired, 120)
                         + [ResendClicked] + Repeat(IntervalFired, n)).countdown == ResendDelay
    ensures !ResendOffered(Run(Initial, [SelectMethod(Sms), SendDelayElapsed] + Repeat(IntervalFired, 120)
                                        + [ResendClicked] + Repeat(IntervalFired, n)))
  {
    var a: seq<Event> := [SelectMethod(Sms), SendDelayElapsed];
    var b := Repeat(IntervalFired, 120);
    var c: seq<Event> := [ResendClicked];
    var d := Repeat(IntervalFired, n);
    var s := SendElapsed(MethodSelect(Initial, Sms));
    assert Run(Initial, a) == s;
    RunConcat(Initial, a, b);
    RunFires(s, 120);
    RunConcat(Initial, a + b, c);
    assert Run(Fires(s, 120), c) == ResendAsWritten(Fires(s, 120));
    RunConcat(Initial, a + b + c, d);
    RunFires(ResendAsWritten(Fires(s, 120)), n);
    ResendAsWrittenFreezes(n);
  }

  /** Where the attempts warning shows: going back to method selection or
      typing hides it, and a resend on the code step after an attempt shows
      it, because the resend clears the input. */
  lemma WarningShownWhere(s: TfaState, c: string)
    ensures !s.isLoading ==> RemainingAttempts(ChangeMethod(s)).None?
    ensures c != [] ==> RemainingAttempts(EnterCode(s, c)).None?
    ensures s.step == CodeVerification && s.attempts > 0 ==>
      RemainingAttempts(Apply(s, ResendClicked)) == Some(3 - s.attempts)
    ensures RemainingAttempts(Pick(s, Email)) == RemainingAttempts(s)
  {
  }

  /** After a failed first attempt the warning shows two attempts left on the
      code step, and changing method hides it. */
  lemma WarningGoneAfterChangeMethod(s: TfaState, code: string)
    requires s.step == CodeVerification && s.attempts == 0 && s.checks == [] && |code| == CodeLength
    requires code != SentinelCode
    ensures RemainingAttempts(CheckElapsed(Verify(EnterCode(s, code)))) == Some(2)
    ensures RemainingAttempts(Apply(CheckElapsed(Verify(EnterCode(s, code))), ChangeMethodClicked)) == None
  {
  }

  /** One interval that has counted all the way down has stopped itself. */
  lemma {:induction false} FiresIntervalsAfterRunOut(s: TfaState, n: nat)
    requires s.intervals == 1 && 1 <= s.countdown <= n
    ensures Fires(s, n).intervals == 0
    decreases n
  {
    if s.countdown == 1 {
      FiresWithoutInterval(Fire(s), n - 1);
    } else {
      FiresIntervalsAfterRunOut(Fire(s), n - 1);
    }
  }

  /** Resending with a running countdown brings the resend button back after
      120 firings, from any state on the code step of a sent code. */
  lemma ResendCountsDown(s: TfaState)
    requires s.step == CodeVerification && IsSent(s.selected)
    ensures Fires(Resend(s), 120).countdown == 0
    ensures ResendOffered(Fires(Resend(s), 120))
  {
    FiresCountDown(Resend(s), 120);
    FiresKeepStep(Resend(s), 120);
  }
}

=== FILE: use_auth.dfy ===
/** The `useAuth` hook: the signed-in user held in component state, kept in
    step with the session store, with a toast for every outcome. An
    operation is modelled from its start to its completion; the loading flag
    it raises while the backend call is in flight is lowered again at the end. */
module UseAuth {
  import opened Wrappers
  import opened AuthService
  import I18n

  datatype HookState = HookState(user: Option<User>, isLoading: bool)

  /** A toast: title, description, and whether it uses the destructive variant. */
  datatype Toast = Toast(title: string, description: string, destructive: bool)

  /** The hook after an operation, the storages, the toast shown, and whether
      the returned promise resolved or rejected (with the message). */
  datatype HookStep = HookStep(hook: HookState, stores: Stores, toast: Option<Toast>, result: Result<()>)

  /** The state before the mount effect has run. */
  const Initial: HookState := HookState(None, true)

  /** The mount effect: the cached user is adopted only while a token is present. */
  function Mount(st: Stores, json: Json): (h: HookState)
    ensures !h.isLoading
    ensures h.user.Some? ==> AuthService.IsAuthenticated(st) && h.user == GetCurrentUser(st, json)
    ensures AuthService.IsAuthenticated(st) && GetCurrentUser(st, json).Some? ==> h.user == GetCurrentUser(st, json)
  {
    var currentUser := GetCurrentUser(st, json);
    if AuthService.IsAuthenticated(st) && currentUser.Some? then HookState(currentUser, false)
    else HookState(None, false)
  }

  /** `isAuthenticated` as the hook reports it: a user in state and a token in storage. */
  predicate IsAuthenticated(h: HookState, st: Stores) {
    h.user.Some? && AuthService.IsAuthenticated(st)
  }

  /** `login(credentials)`. */
  function Login(h: HookState, st: Stores, json: Json, c: I18n.Catalog, creds: Credentials, reply: Reply<AuthResponse>): (r: HookStep)
    ensures !r.hook.isLoading && r.toast.Some?
    ensures r.stores == AuthService.Login(st, json, creds, reply).stores
    ensures r.result.Ok? <==> AuthService.Login(st, json, creds, reply).result.Ok?
    ensures r.result.Ok? ==>
      && r.hook.user == Some(reply.data.value.user)
      && r.toast == Some(Toast(I18n.T(c, "common.success"), I18n.T(c, "auth.loginSuccess"), false))
    ensures r.result.Err? ==>
      && r.hook.user == h.user
      && r.toast == Some(Toast(I18n.T(c, "common.error"), r.result.message, true))
      && r.result.message == AuthService.Login(st, json, creds, reply).result.message
  {
    var s := AuthService.Login(st, json, creds, reply);
    match s.result
    case Ok(data) =>
      HookStep(HookState(Some(data.user), false), s.stores,
               Some(Toast(I18n.T(c, "common.success"), I18n.T(c, "auth.loginSuccess"), false)), Ok(()))
    case Err(m) =>
      HookStep(h.(isLoading := false), s.stores, Some(Toast(I18n.T(c, "common.error"), m, true)), Err(m))
  }

  /** `logout()`: the store clears itself whatever the backend says, so this always succeeds. */
  function Logout(h: HookState, st: Stores, c: I18n.Catalog): (r: HookStep)
    ensures r.hook == HookState(None, false) && r.stores == AuthService.Logout(st) && r.result.Ok?
    ensures r.toast == Some(Toast(I18n.T(c, "common.success"), I18n.T(c, "auth.logoutSuccess"), false))
  {
    HookStep(HookState(None, false), AuthService.Logout(st),
             Some(Toast(I18n.T(c, "common.success"), I18n.T(c, "auth.logoutSuccess"), false)), Ok(()))
  }

  /** `forgotPassword(email)`: the toast shown and the promise's outcome. */
  function ForgotPassword(c: I18n.Catalog, reply: Reply<()>): (r: (Toast, Result<()>))
    ensures r.1 == AuthService.ForgotPassword(reply)
    ensures r.1.Ok? ==> r.0 == Toast(I18n.T(c, "common.success"), I18n.T(c, "auth.resetEmailSent"), false)
    ensures r.1.Err? ==> r.0 == Toast(I18n.T(c, "common.error"), r.1.message, true)
  {
    match AuthService.ForgotPassword(reply)
    case Ok(_) => (Toast(I18n.T(c, "common.success"), I18n.T(c, "auth.resetEmailSent"), false), Ok(()))
    case Err(m) => (Toast(I18n.T(c, "common.error"), m, true), Err(m))
  }

  /** `refreshUser()`: re-reads the cached record without looking at the token. */
  function RefreshUser(h: HookState, st: Stores, json: Json): (r: HookState)
    ensures r.isLoading == h.isLoading
    ensures r.user == GetCurrentUser(st, json)
  {
    h.(user := GetCurrentUser(st, json))
  }

  // ---- Properties ----

  /** The password-reset toast is destructive exactly when the service call
      fails, and a refusal from the server always shows some text. */
  lemma ForgotPasswordToast(c: I18n.Catalog, reply: Reply<()>)
    ensures ForgotPassword(c, reply).0.destructive <==> !(reply.Reply? && reply.success)
    ensures ForgotPassword(c, reply).1.Ok? <==> reply.Reply? && reply.success
    ensures reply.Reply? && !reply.success ==> ForgotPassword(c, reply).0.description != []
  {
  }

  /** After mounting, the hook is authenticated exactly when the store has a
      token and a readable user record. */
  lemma MountAgreesWithStore(st: Stores, json: Json)
    ensures IsAuthenticated(Mount(st, json), st) <==>
      AuthService.IsAuthenticated(st) && GetCurrentUser(st, json).Some?
  {
  }

  /** A successful login with a non-empty token leaves the hook authenticated
      as the returned user, and a page reload, even after the browser was
      closed, mounts the same user again. */
  lemma LoginAuthenticates(h: HookState, st: Stores, json: Json, c: I18n.Catalog, creds: Credentials, reply: Reply<AuthResponse>)
    requires WellBehaved(json)
    requires reply.Reply? && reply.success && reply.data.Some? && reply.data.value.token != []
    ensures IsAuthenticated(Login(h, st, json, c, creds, reply).hook, Login(h, st, json, c, creds, reply).stores)
    ensures Login(h, st, json, c, creds, reply).hook.user == Some(reply.data.value.user)
    ensures Mount(Login(h, st, json, c, creds, reply).stores, json).user == Some(reply.data.value.user)
    ensures Mount(EndBrowsingSession(Login(h, st, json, c, creds, reply).stores), json).user == Some(reply.data.value.user)
  {
    LoginEstablishesSession(st, json, creds, reply);
    LoginSurvivesRestart(st, json, creds, reply);
  }

  /** A rejected login changes neither the user in state nor the storages. */
  lemma FailedLoginKeepsState(h: HookState, st: Stores, json: Json, c: I18n.Catalog, creds: Credentials, reply: Reply<AuthResponse>)
    requires !(reply.Reply? && reply.success && reply.data.Some?)
    ensures Login(h, st, json, c, creds, reply).hook.user == h.user
    ensures Login(h, st, json, c, creds, reply).stores == st
    ensures IsAuthenticated(Login(h, st, json, c, creds, reply).hook, st) <==> IsAuthenticated(h, st)
  {
    FailedLoginChangesNothing(st, json, creds, reply);
  }

  /** After logout the hook is signed out, and so is every later mount. */
  lemma LogoutSignsOut(h: HookState, st: Stores, json: Json, c: I18n.Catalog)
    ensures !IsAuthenticated(Logout(h, st, c).hook, Logout(h, st, c).stores)
    ensures Mount(Logout(h, st, c).stores, json).user == None
  {
    LogoutClearsSession(st, json);
  }

  /** A profile update is what `refreshUser` reads back afterwards. */
  lemma UpdateThenRefresh(h: HookState, st: Stores, json: Json, reply: Reply<User>)
    requires WellBehaved(json)
    requires UpdateProfile(st, json, reply).result.Ok?
    ensures RefreshUser(h, UpdateProfile(st, json, reply).stores, json).user == Some(UpdateProfile(st, json, reply).result.value)
  {
    var u := UpdateProfile(st, json, reply).result.value;
    assert json.stringify(u) != [] && json.parse(json.stringify(u)) == Some(u);
  }

  /** With the interface in Arabic, a successful login says so in Arabic. */
  lemma ArabicLoginToast(h: HookState, st: Stores, json: Json, c: I18n.Catalog, creds: Credentials, reply: Reply<AuthResponse>)
    requires I18n.Consistent(c) && c.current == "ar"
    requires reply.Reply? && reply.success && reply.data.Some?
    ensures Login(h, st, json, c, creds, reply).toast.value.description == "تم تسجيل الدخول بنجاح"
    ensures !Login(h, st, json, c, creds, reply).toast.value.destructive
  {
    I18n.LoginSuccessExample(c);
    assert I18n.ChangeLanguage(c, "ar").table == c.table;
  }
}

=== FILE: validation.dfy ===
/** `ValidationUtils`: single-value validators, first-failure chaining of
    rules, and per-field validation of a form. Failure messages come from
    the translation catalog. */
module Validation {
  import opened Wrappers
  import Text
  import I18n

  // `VALIDATION_RULES`.
  const PasswordMinLength: nat := 8
  const UsernameMinLength: nat := 3
  const NationalIdLength: nat := 10

  /** A form value as the validators see it. */
  datatype Value = Null | Undefined | Str(s: string)

  /** `ValidationResult`: the message is present only on failure. */
  datatype ValidationResult = ValidationResult(isValid: bool, message: Option<string>)

  /** The validators a rule list can hold, as `createValidationRules` builds them. */
  datatype Rule =
    | Required
    | EmailRule
    | PhoneRule
    | PasswordRule
    | UsernameRule
    | NationalIdRule
    | MinLength(min: int)
    | MaxLength(max: int)

  /** The failure messages, in the catalog's current language. */
  datatype Messages = Messages(
    required: string,
    invalidEmail: string,
    invalidPhone: string,
    passwordTooShort: string,
    minLength: string,
    maxLength: string,
    invalidNumber: string)

  /** The `validation.*` translations of the catalog. */
  function MessagesOf(c: I18n.Catalog): Messages {
    Messages(
      I18n.T(c, "validation.required"),
      I18n.T(c, "validation.invalidEmail"),
      I18n.T(c, "validation.invalidPhone"),
      I18n.T(c, "validation.passwordTooShort"),
      I18n.T(c, "validation.minLength"),
      I18n.T(c, "validation.maxLength"),
      I18n.T(c, "validation.invalidNumber"))
  }

  /** Valid, or invalid with `message`. */
  function Verdict(isValid: bool, message: string): (r: ValidationResult)
    ensures r.isValid == isValid
    ensures r.message.None? <==> isValid
  {
    ValidationResult(isValid, if isValid then None else Some(message))
  }

  /** `!value` for the string validators: null, undefined and the empty string are falsy. */
  predicate IsFalsy(v: Value) {
    v.Null? || v.Undefined? || v == Str([])
  }

  /** `required`: anything but null, undefined and the empty string. */
  function RequiredCheck(m: Messages, v: Value): ValidationResult {
    Verdict(!(v.Null? || v.Undefined? || v == Str([])), m.required)
  }

  /** A character `[^\s@]` matches. */
  predicate EmailChar(ch: char) {
    !Text.IsWhitespace(ch) && ch != '@'
  }

  /** `/^[^\s@]+@[^\s@]+\.[^\s@]+$/` matches `s` with the `@` at `i` and the
      separating dot at `k`. */
  predicate EmailMatchAt(s: string, i: int, k: int) {
    && 1 <= i && i + 2 <= k && k + 2 <= |s|
    && s[i] == '@' && s[k] == '.'
    && (forall j :: 0 <= j < |s| && j != i ==> EmailChar(s[j]))
  }

  /** `EMAIL_PATTERN.test(s)`. */
  predicate EmailPattern(s: string) {
    exists i, k | 0 <= i < |s| && 0 <= k < |s| :: EmailMatchAt(s, i, k)
  }

  /** A character `[0-9+\-\s()]` matches. */
  predicate PhoneChar(ch: char) {
    Text.IsDigit(ch) || ch == '+' || ch == '-' || Text.IsWhitespace(ch) || ch == '(' || ch == ')'
  }

  /** `PHONE_PATTERN.test(s)`. */
  predicate PhonePattern(s: string) {
    |s| >= 1 && forall j :: 0 <= j < |s| ==> PhoneChar(s[j])
  }

  /** `/^\d+$/.test(s)`. */
  predicate AllDigits(s: string) {
    |s| >= 1 && forall j :: 0 <= j < |s| ==> Text.IsDigit(s[j])
  }

  /** An optional string validator: falsy values pass, a string is judged by `ok`. */
  function Optional(m: Messages, v: Value, ok: string -> bool, message: string): (r: ValidationResult)
    ensures r.isValid <==> IsFalsy(v) || ok(v.s)
    ensures r.message.None? <==> r.isValid
    ensures r.message.Some? ==> r.message.value == message
  {
    if IsFalsy(v) then ValidationResult(true, None) else Verdict(ok(v.s), message)
  }

  /** Runs one rule on one value. */
  function Check(m: Messages, rule: Rule, v: Value): ValidationResult {
    match rule
    case Required => RequiredCheck(m, v)
    case EmailRule => Optional(m, v, EmailPattern, m.invalidEmail)
    case PhoneRule => Optional(m, v, PhonePattern, m.invalidPhone)
    case PasswordRule => Optional(m, v, s => |s| >= PasswordMinLength, m.passwordTooShort)
    case UsernameRule => Optional(m, v, s => |s| >= UsernameMinLength, m.minLength)
    case NationalIdRule => Optional(m, v, s => |s| == NationalIdLength && AllDigits(s), m.invalidNumber)
    case MinLength(n) => Optional(m, v, s => |s| >= n, m.minLength)
    case MaxLength(n) => Optional(m, v, s => |s| <= n, m.maxLength)
  }

  /** `validateField(value, rules)`: the first failing result in rule order, or valid. */
  function ValidateField(m: Messages, v: Value, rules: seq<Rule>): (r: ValidationResult)
    ensures r.isValid <==> forall i :: 0 <= i < |rules| ==> Check(m, rules[i], v).isValid
    ensures r.isValid ==> r.message.None?
    ensures !r.isValid ==>
      exists i :: 0 <= i < |rules| && r == Check(m, rules[i], v) && forall j :: 0 <= j < i ==> Check(m, rules[j], v).isValid
  {
    if |rules| == 0 then ValidationResult(true, None)
    else
      var first := Check(m, rules[0], v);
      if !first.isValid then first
      else
        var r := ValidateField(m, v, rules[1..]);
        assert forall i :: 1 <= i < |rules| ==> rules[i] == rules[1..][i - 1];
        if !r.isValid then
          var i :| 0 <= i < |rules[1..]| && r == Check(m, rules[1..][i], v)
            && forall j :: 0 <= j < i ==> Check(m, rules[1..][j], v).isValid;
          assert r == Check(m, rules[i + 1], v);
          r
        else r
  }

  /** `formData[field]`: a field the form lacks reads as undefined. */
  function FieldValue(form: map<string, Value>, field: string): Value {
    if field in form then form[field] else Undefined
  }

  /** One entry of the rules object passes for the form. */
  predicate EntryPasses(m: Messages, form: map<string, Value>, entry: (string, seq<Rule>)) {
    ValidateField(m, FieldValue(form, entry.0), entry.1).isValid
  }

  /** The text recorded for a failing entry: its message, or `''` when it has none. */
  function ErrorText(m: Messages, form: map<string, Value>, entry: (string, seq<Rule>)): string {
    ValidateField(m, FieldValue(form, entry.0), entry.1).message.GetOr([])
  }

  /** The errors object after visiting `rules` in order: a failing entry
      records its text under its field, a later entry for the same field
      overwriting an earlier one. */
  function ErrorsOf(m: Messages, form: map<string, Value>, rules: seq<(string, seq<Rule>)>): map<string, string>
    decreases |rules|
  {
    if |rules| == 0 then map[]
    else
      var before := ErrorsOf(m, form, rules[..|rules| - 1]);
      var last := rules[|rules| - 1];
      if EntryPasses(m, form, last) then before else before[last.0 := ErrorText(m, form, last)]
  }

  /** A field has an error exactly when some entry for it fails. */
  lemma {:induction false} ErrorsOfKeys(m: Messages, form: map<string, Value>, rules: seq<(string, seq<Rule>)>, f: string)
    ensures f in ErrorsOf(m, form, rules) <==>
      exists i :: 0 <= i < |rules| && rules[i].0 == f && !EntryPasses(m, form, rules[i])
    decreases |rules|
  {
    if |rules| > 0 {
      var init := rules[..|rules| - 1];
      var last := rules[|rules| - 1];
      var passes := EntryPasses(m, form, last);
      ErrorsOfKeys(m, form, init, f);
      assert f in ErrorsOf(m, form, rules) <==> f in ErrorsOf(m, form, init) || (!passes && f == last.0);
      if f in ErrorsOf(m, form, rules) {
        if f in ErrorsOf(m, form, init) {
          var i :| 0 <= i < |init| && init[i].0 == f && !EntryPasses(m, form, init[i]);
          assert rules[i] == init[i];
        } else {
          assert rules[|rules| - 1].0 == f && !EntryPasses(m, form, rules[|rules| - 1]);
        }
      } else {
        forall i | 0 <= i < |rules| && rules[i].0 == f
          ensures EntryPasses(m, form, rules[i])
        {
          if i < |init| {
            assert init[i] == rules[i];
          }
        }
      }
    }
  }

  /** Entry `i` fails and no later entry for the same field does. */
  predicate LastFailure(m: Messages, form: map<string, Value>, rules: seq<(string, seq<Rule>)>, i: nat) {
    && i < |rules| && !EntryPasses(m, form, rules[i])
    && forall j :: i < j < |rules| && rules[j].0 == rules[i].0 ==> EntryPasses(m, form, rules[j])
  }

  /** The error recorded for a field is the text of the last failing entry for it. */
  lemma {:induction false} ErrorsOfText(m: Messages, form: map<string, Value>, rules: seq<(string, seq<Rule>)>, i: nat)
    requires LastFailure(m, form, rules, i)
    ensures rules[i].0 in ErrorsOf(m, form, rules)
    ensures ErrorsOf(m, form, rules)[rules[i].0] == ErrorText(m, form, rules[i])
    decreases |rules|
  {
    var init := rules[..|rules| - 1];
    if i < |init| {
      assert init[i] == rules[i];
      ErrorsOfText(m, form, init, i);
    }
  }

  /** No error is recorded exactly when every entry passes. */
  lemma {:induction false} ErrorsOfEmpty(m: Messages, form: map<string, Value>, rules: seq<(string, seq<Rule>)>)
    ensures ErrorsOf(m, form, rules) == map[] <==> forall i :: 0 <= i < |rules| ==> EntryPasses(m, form, rules[i])
  {
    if ErrorsOf(m, form, rules) == map[] {
      forall i | 0 <= i < |rules| ensures EntryPasses(m, form, rules[i]) {
        ErrorsOfKeys(m, form, rules, rules[i].0);
      }
    } else {
      var f :| f in ErrorsOf(m, form, rules);
      ErrorsOfKeys(m, form, rules, f);
    }
  }

  /** `validateForm(formData, validationRules)`, visiting the rule entries in order. */
  method ValidateForm(m: Messages, form: map<string, Value>, rules: seq<(string, seq<Rule>)>)
    returns (isValid: bool, errors: map<string, string>)
    ensures isValid <==> forall i :: 0 <= i < |rules| ==> EntryPasses(m, form, rules[i])
    ensures forall f :: f in errors <==> exists i :: 0 <= i < |rules| && rules[i].0 == f && !EntryPasses(m, form, rules[i])
    ensures forall i: nat :: LastFailure(m, form, rules, i) ==>
      rules[i].0 in errors && errors[rules[i].0] == ErrorText(m, form, rules[i])
  {
    isValid := true;
    errors := map[];
    var n := 0;
    while n < |rules|
      invariant 0 <= n <= |rules|
      invariant errors == ErrorsOf(m, form, rules[..n])
      invariant isValid <==> errors == map[]
    {
      var (field, fieldRules) := rules[n];
      var fieldResult := ValidateField(m, FieldValue(form, field), fieldRules);
      assert rules[..n + 1][..n] == rules[..n];
      if !fieldResult.isValid {
        errors := errors[field := fieldResult.message.GetOr([])];
        assert field in errors;
        isValid := false;
      }
      n := n + 1;
    }
    assert rules[..n] == rules;
    ErrorsOfEmpty(m, form, rules);
    forall f | true
      ensures f in errors <==> exists i :: 0 <= i < |rules| && rules[i].0 == f && !EntryPasses(m, form, rules[i])
    {
      ErrorsOfKeys(m, form, rules, f);
    }
    forall i: nat | LastFailure(m, form, rules, i)
      ensures rules[i].0 in errors && errors[rules[i].0] == ErrorText(m, form, rules[i])
    {
      ErrorsOfText(m, form, rules, i);
    }
  }

  // ---- Properties ----

  /** `required` rejects exactly null, undefined and the empty string, with the translated message. */
  lemma RequiredRejects(m: Messages, v: Value)
    ensures !RequiredCheck(m, v).isValid <==> v == Null || v == Undefined || v == Str([])
    ensures !RequiredCheck(m, v).isValid ==> RequiredCheck(m, v).message == Some(m.required)
  {
  }

  /** Every validator but `required` lets an empty value through. */
  lemma OptionalAcceptsEmpty(m: Messages, rule: Rule, v: Value)
    requires rule != Required && IsFalsy(v)
    ensures Check(m, rule, v) == ValidationResult(true, None)
  {
  }

  /** For every validator the message is absent exactly when the value is valid. */
  lemma MessageIffInvalid(m: Messages, rule: Rule, v: Value)
    ensures Check(m, rule, v).message.None? <==> Check(m, rule, v).isValid
  {
  }

  /** The password and username rules on a non-empty string: at least 8 and at least 3 characters. */
  lemma AccountRules(m: Messages, s: string)
    requires s != []
    ensures Check(m, PasswordRule, Str(s)).isValid <==> |s| >= 8
    ensures Check(m, UsernameRule, Str(s)).isValid <==> |s| >= 3
  {
  }

  /** A national id is exactly ten ASCII digits. */
  lemma NationalIdRuleDigits(m: Messages, s: string)
    requires s != []
    ensures Check(m, NationalIdRule, Str(s)).isValid <==> |s| == 10 && forall j :: 0 <= j < |s| ==> '0' <= s[j] <= '9'
  {
  }

  /** Both length bounds are inclusive. */
  lemma LengthBounds(m: Messages, s: string, n: int)
    requires s != []
    ensures Check(m, MinLength(n), Str(s)).isValid <==> n <= |s|
    ensures Check(m, MaxLength(n), Str(s)).isValid <==> |s| <= n
  {
  }

  /** A phone number is made of digits, `+`, `-`, white space and parentheses only. */
  lemma PhoneRuleChars(m: Messages, s: string)
    requires s != []
    ensures Check(m, PhoneRule, Str(s)).isValid <==> forall j :: 0 <= j < |s| ==> PhoneChar(s[j])
  {
  }

  /** A matching address has no white space, exactly one `@`, a non-empty
      part before it, and a dot with characters on both sides after it. */
  lemma EmailShape(s: string)
    requires EmailPattern(s)
    ensures forall j :: 0 <= j < |s| ==> !Text.IsWhitespace(s[j])
    ensures multiset(s)['@'] == 1
    ensures s[0] != '@' && s[|s| - 1] != '@'
  {
    var i, k :| 0 <= i < |s| && 0 <= k < |s| && EmailMatchAt(s, i, k);
    assert s == s[..i] + [s[i]] + s[i + 1..];
    AtFree(s[..i]);
    AtFree(s[i + 1..]);
  }

  /** A string without `@` counts none. */
  lemma AtFree(t: string)
    requires forall j :: 0 <= j < |t| ==> t[j] != '@'
    ensures multiset(t)['@'] == 0
  {
    assert '@' !in t;
  }

  /** Sample addresses. */
  lemma EmailExamples()
    ensures EmailPattern("dr.ahmed@clinic.sa")
    ensures !EmailPattern("ahmed@clinic")
    ensures !EmailPattern("@clinic.sa")
    ensures !EmailPattern("a b@clinic.sa")
    ensures EmailPattern("a@b.c.")
  {
    assert EmailMatchAt("dr.ahmed@clinic.sa", 8, 15);
    assert EmailMatchAt("a@b.c.", 1, 3);
    WhitespaceNeverMatches("a b@clinic.sa", 1);
  }

  /** White space anywhere defeats the pattern. */
  lemma WhitespaceNeverMatches(s: string, p: nat)
    requires p < |s| && Text.IsWhitespace(s[p])
    ensures !EmailPattern(s)
  {
    forall i, k | 0 <= i < |s| && 0 <= k < |s| ensures !EmailMatchAt(s, i, k) {
      if i != p {
        assert !EmailChar(s[p]);
      }
    }
  }

  /** With no rules, or rules that all pass, a field is valid; otherwise the
      first failure decides the message. */
  lemma FirstFailureWins(m: Messages, v: Value, rules: seq<Rule>, i: nat)
    requires i < |rules| && !Check(m, rules[i], v).isValid
    requires forall j :: 0 <= j < i ==> Check(m, rules[j], v).isValid
    ensures ValidateField(m, v, rules) == Check(m, rules[i], v)
  {
  }
}

=== FILE: wrappers.dfy ===
/** Optional values and success-or-error results, standing in for the
    `null`/`undefined` returns and the thrown `Error`s of the modelled code. */
module Wrappers {

  /** A value that may be absent (`null` or `undefined` in the source). */
  datatype Option<+T> = None | Some(value: T) {

    /** The carried value, or `default` when absent. */
    function GetOr(default: T): T {
      match this
      case Some(v) => v
      case None => default
    }
  }

  /** Either a value or the message of the `Error` the source throws. */
  datatype Result<+T> = Ok(value: T) | Err(message: string)
}
